=== FILE: README.md ===
# chifig core in Dafny

chifig turns a small block-structured figure language into a JSON document
and then into PSTricks drawing commands. This project models the
deterministic core of that pipeline as pure Dafny functions over a tagged
document value, and proves properties of it:

- `Lexing` (lexer.dfy): the character-level state machine of the DSL lexer.
  It has three modes (word, quoted, comment), counts lines and has a
  one-slot pushback. Every token is read by `Scan`, one `StepChar` per
  character.
- `Parser` (parser.dfy): the stack-driven parser. It tries, in order,
  boolean flags, `}`, xy keys, command dispatch, and a one-token lookahead
  that either opens a block or assigns a key. Argument collection and
  `_error` messages are modelled too. A parse ends in one of four ways:
  - `Parsed` with the document;
  - `SyntaxFail` with the message Ruby's `rescue SyntaxError` returns;
  - `Abort` for a `RuntimeError` or crash that escapes `parse`;
  - `Diverges` for a generator loop that never ends.
- `Objects` (objects.dfy): the DSL object kinds (Figure, Plot, Axis,
  Grid, Arrow, Box, Circle, Curve, Default and the generic object) as one
  closed datatype. It covers:
  - the kinds' flags, xy keys, commands and numbered children;
  - `add_data` with auto-numbering and "true"/"false" normalisation;
  - every command handler;
  - the once-only finalisation in `to_json`, and rendering to a document
    value.
- `Datasets` and `Expressions` (dataset.dfy, expressions.dfy):
  - points with exact running bounds, and the array accessors;
  - the stepping rule of `generate_fx` and `generate_xyt`;
  - the rows `read` keeps;
  - the allow-list scan of `ExpressionChecker#check`.
- `Merging` (merge.dfy): the recursive `Hash#merge` monkey patch, over
  insertion-ordered dictionaries.
- `Axes` (axis.dfy): axis ranges and evenly spaced, snapped ticks, over
  `real`.
- `Render` (psgen.dfy): the pure decisions of the PostScript generator:
  - value lookup with defaults and `@a:b` references;
  - the clamping transform and error-bar end points;
  - the shadow and symbol tables, and the default-curve lookup;
  - the axis ranges of a plot, and the layout table.
- `Support` and `Document` (support.dfy, document.dfy) hold the shared
  vocabulary:
  - `Option`;
  - Ruby Hashes as association lists, and `String#split`;
  - document values with Ruby truthiness and `v[key]`.

Floats are modelled as `real`. Host services are function parameters:
`eval` of an expression, `to_f`/`to_i`, `Math.log10`, the names GSL
provides, splitting a line at the delimiter regexp, file contents,
`Hash#inspect`, and Ruby's parser, which tells whether an expression's text
raises a SyntaxError and gives that error's message.

## Model

| member | source | states |
|---|---|---|
| Support.Put | lib/chifig/dsl/objects.rb:70 | After `h[k] = v`, k reads v and every other key reads as before. |
| Support.PutKeys | lib/chifig/merge.rb:18-21 | Assignment keeps the key order: an existing key stays in place, a new key goes last. |
| Support.KeysContaining | lib/chifig/dsl/objects.rb:42-44 | `_keys_include` lists exactly the keys of the hash that contain the name as a substring, in order. |
| Support.KeysContainingPut | lib/chifig/dsl/objects.rb:56-71 | Storing under a key adds it to the listing exactly when it is new and contains the name. Otherwise the listing is unchanged. |
| Support.NatToStringInjective | lib/chifig/dsl/objects.rb:60 | Different counts print as different decimal suffixes, so numbered keys never collide. |
| Support.JoinFields | lib/chifig/psgen.rb:67 | Splitting a reference path into its fields loses nothing: joining them gives the text back. |
| Support.SplitPair | lib/chifig/dsl/parser.rb:66-70 | `"a=b"`, with neither half holding '=', splits into exactly `[a, b]`. |
| Support.SplitTrailingSep | lib/chifig/dsl/parser.rb:66-68 | `"a="` loses its empty tail and splits into `[a]`. |
| Document.Index | lib/chifig/psgen.rb:70 | `v[c]` on a Hash gives the entry or nil, and on a String the substring or nil. Any other value has no `[]` (None). |
| Lexing.NewLexer | lib/chifig/dsl/lexer.rb:32-37 | A new lexer is at index 0, on line 1, with an empty pushback slot, and satisfies the line-count invariant. |
| Lexing.Delimiter | lib/chifig/dsl/lexer.rb:50-58 | A delimiter always ends the token. With a word pending it is handed back (the index steps back); otherwise it becomes the token with its own code. |
| Lexing.StepChar | lib/chifig/dsl/lexer.rb:66-99 | One character either keeps, extends or replaces the text. A newline adds one line. A token ends only non-empty or quoted. Scanner coherence is kept. |
| Lexing.Scan | lib/chifig/dsl/lexer.rb:62-100 | The loop reads at least one character from a fresh state and counts every newline it reads. It stops at the end of input or with a non-empty or quoted token. |
| Lexing.GetToken | lib/chifig/dsl/lexer.rb:62-102 | nil only when the input is exhausted. A token is non-empty or quoted, and its line lies between the start and end lines. Every call makes progress. |
| Lexing.NextToken | lib/chifig/dsl/lexer.rb:113-117 | The slot is empty afterwards, the line invariant is kept, and the termination measure decreases with every token taken. |
| Lexing.PushBack | lib/chifig/dsl/lexer.rb:107-116 | After `push_back(t)` the next `token` is exactly t and leaves the lexer as it was with the slot emptied. A later pushback overwrites an earlier one. |
| Lexing.CountNLAppend | lib/chifig/dsl/lexer.rb:68-69 | Newline counts add up over concatenated text, as the line counter does. |
| Lexing.ScanWordRun | lib/chifig/dsl/lexer.rb:93-94 | Unquoted word characters are appended one by one and never end the scan. |
| Lexing.ScanQuotedRun | lib/chifig/dsl/lexer.rb:79-80 | Inside quotes every character other than a quote or newline, `{ } , #` and blanks included, is copied verbatim. |
| Lexing.ScanCommentRun | lib/chifig/dsl/lexer.rb:74 | In a comment no character before the newline has any effect. |
| Lexing.DelimiterToken | lib/chifig/dsl/lexer.rb:83-88 | Outside quotes `{`, `}` and `,` are one-character tokens with codes LBRACE, RBRACE and COMMA. |
| Lexing.WordToken | lib/chifig/dsl/lexer.rb:89-94 | A word ends at a delimiter (left for the next call), a blank or a newline (consumed, the newline counted), or the end of input. |
| Lexing.WordBeforeComment | lib/chifig/dsl/lexer.rb:91-92 | A `#` right after a word never adds comment text to it. The word is returned after the comment's newline. |
| Lexing.QuotedToken | lib/chifig/dsl/lexer.rb:75-78 | Either quote character opens and closes a string, and the text between them is the token. |
| Lexing.QuotedCutByNewline | lib/chifig/dsl/lexer.rb:68-73 | A newline ends an unterminated quoted string with the text read so far, counts the line and leaves quote mode. |
| Lexing.BlankSkipped | lib/chifig/dsl/lexer.rb:89-90 | A blank between tokens is skipped and is never part of a word. |
| Lexing.NewlineSkipped | lib/chifig/dsl/lexer.rb:68-71 | A newline between tokens is skipped and counted. |
| Lexing.CommentSkipped | lib/chifig/dsl/lexer.rb:91-92 | A comment between tokens is skipped up to its newline. |
| Parser.BlockKind | lib/chifig/dsl/parser.rb:23-38 | A registered word gives its kind and any other word gives the generic object. |
| Parser.ErrorMsg | lib/chifig/dsl/parser.rb:43-48 | The message starts with `(` and the token text, and ends with the given message. |
| Parser.AddArg | lib/chifig/dsl/parser.rb:62-74 | A quoted string is positional. A bare word without '=' is positional. A word that splits at '=' into two or more fields is an option. A delimiter is refused. |
| Parser.CollectArgs | lib/chifig/dsl/parser.rb:56-84 | No token where an argument is due gives "Missing argument". A result keeps the positional arguments, keeps the option keys distinct, and shrinks the lexer measure. |
| Parser.Pop | lib/chifig/dsl/parser.rb:109-111 | Closing writes the object back into its parent under its key. Nothing below changes. |
| Parser.AtEnd | lib/chifig/dsl/parser.rb:147-152 | At end of input the parse succeeds exactly when one object is open, and it renders that object. Otherwise the message names the depth. |
| Parser.XyPair | lib/chifig/dsl/parser.rb:115-119 | An xy key never dispatches a command and never succeeds the parse on its own. A continuation only replaces the current object. |
| Parser.Command | lib/chifig/dsl/parser.rb:123-128 | A command hands on its token, the unchanged stack and arguments with distinct option keys, or fails the parse. |
| Parser.KeyOrBlock | lib/chifig/dsl/parser.rb:131-145 | The lookahead grows the stack by at most one. A missing second token gives "Missing argument". |
| Parser.Step | lib/chifig/dsl/parser.rb:95-146 | An empty stack gives "Empty stack", and exhausted input gives the end check. A parse can succeed only at the end of input, with one object open. |
| Parser.Loop | lib/chifig/dsl/parser.rb:94-153 | A parse succeeds only with the root still open, and its document is the rendering of an object of the root's kind and index flag: no step replaces the root by another kind. |
| Parser.Send | lib/chifig/dsl/parser.rb:123-128 | After a command the parse goes on from the changed object, and a later success still renders an object of the root's kind and index flag. |
| Parser.Parse | lib/chifig/dsl/parser.rb:90-153 | A successful parse of any text returns the rendering (`to_json`) of a Figure with `index_subs` set: the root `parse` creates, as the commands left it. |
| Parser.PopOk | lib/chifig/dsl/parser.rb:109-111 | Closing keeps every open object's key among its parent's keys, and the parent's keys as they were. |
| Parser.StepKeepsStack | lib/chifig/dsl/parser.rb:95-146 | Every step keeps every open object stored in its parent. |
| Parser.CloseBlock | lib/chifig/dsl/parser.rb:108-112 | `}` (when not a flag of the object) pops the current object, whatever the object. |
| Parser.PopWritesBack | lib/chifig/dsl/parser.rb:110 | After `}` the parent holds the closed object, as Ruby's shared reference does. |
| Parser.EmptyStack | lib/chifig/dsl/parser.rb:96-97 | With no object open the parse fails with "Empty stack". |
| Parser.StrayBrace | lib/chifig/dsl/parser.rb:96-111 | Input that starts with `}` pops the root, and the next pass fails with "Empty stack". |
| Parser.Flag | lib/chifig/dsl/parser.rb:102-106 | A flag of the current object sets that key to true before any other test, whatever follows. |
| Parser.XyDispatch | lib/chifig/dsl/parser.rb:114-116 | A key in `xy_opts` is handled as a pair. |
| Parser.XyArgs | lib/chifig/dsl/parser.rb:115-119 | A pair needs exactly two positional arguments and is stored as "x,y". Any other count is "Expected x, y args". |
| Parser.CommandRefused | lib/chifig/dsl/parser.rb:123-128 | A false status fails the parse with the command's message, prefixed by the token and its line. |
| Parser.OpenBlock | lib/chifig/dsl/parser.rb:135-142 | A word followed by `{` opens a new object of the registered kind, or the generic one. It inherits `index_subs`, is stored through `add_data` and is made current. |
| Parser.KeyValue | lib/chifig/dsl/parser.rb:143-144 | A word followed by another token stores that token's text, normalised like `add_data`, and changes no other key. |
| Parser.LoopAtEnd | lib/chifig/dsl/parser.rb:99-100 | When the lexer is exhausted the parse succeeds exactly when only the root is open. |
| Parser.ParseEmpty | lib/chifig/dsl/parser.rb:90-152 | Empty input renders a new Figure. |
| Parser.UnclosedBlock | lib/chifig/dsl/parser.rb:147-148 | A block left open at the end fails with "2 items on stack at end". |
| Objects.New | lib/chifig/dsl/objects.rb:29-37 | A new object is unbuilt and has an empty dataset. A Plot starts with an empty key object, a Figure with an empty colour table. A Default never numbers its children. |
| Objects.StoreKey | lib/chifig/dsl/objects.rb:57-61 | With numbering on and a listed child name, the key is the name plus one more than the number of keys containing it. Otherwise it is the key as given. |
| Objects.AddData | lib/chifig/dsl/objects.rb:56-71 | The value is stored under StoreKey with "true" and "false" turned into booleans, and no other key changes. |
| Objects.AddOneNumbered | lib/chifig/dsl/objects.rb:56-61 | When the keys containing the name are key1..keyn, one more add makes them key1..key(n+1). |
| Objects.SuccessiveAdds | lib/chifig/dsl/objects.rb:56-61 | When the keys containing the name are key1..keyn, N more adds make them key1..key(n+N). |
| Objects.Title | lib/chifig/dsl/objects.rb:74-79 | Refused below two arguments. Otherwise only `title` changes: its text, plus a colour exactly when one is given. |
| Objects.LineHash | lib/chifig/dsl/objects.rb:85-87 | The line hash holds the style, the colour when given, and every option as a string. |
| Objects.PutOptsGet | lib/chifig/dsl/objects.rb:87 | Every option ends up in the hash as its `to_s`, and other keys keep their values. |
| Objects.Line | lib/chifig/dsl/objects.rb:83-90 | Refused below two arguments. Otherwise only `line` changes, to the line hash. |
| Objects.Head | lib/chifig/dsl/objects.rb:138-151 | Refused outside 2..4 arguments. `hide` gives `{show: false}`; otherwise show is true and width, length and inset are the first three arguments. |
| Objects.FillOpt | lib/chifig/dsl/objects.rb:204 | The fill option is stored exactly when given, normalised as `add_data` normalises values. |
| Objects.Symbol | lib/chifig/dsl/objects.rb:196-208 | Refused below two arguments, or below three unless the shape is `none`. Otherwise the symbol has the shape, a colour unless `none`, the normalised fill and the scale as a string. This corrected command is the one the parser dispatches. |
| Objects.SymbolAsWritten | lib/chifig/dsl/objects.rb:196-208 | As written, the same refusals, with the fill stored as the text given. |
| Objects.FillFalseStoredAsText | lib/chifig/dsl/objects.rb:204 | `symbol circle, red, fill=false` stores the truthy text "false" as written, and false once corrected. |
| Objects.Filled | lib/chifig/dsl/objects.rb:216 | Filling succeeds with the new dataset, raises with the dataset's message, or never ends, exactly as the dataset operation does. |
| Objects.Generate | lib/chifig/dsl/objects.rb:211-218 | Refused unless there are exactly five arguments. A refused expression raises "Unable to evaluate". A safe one fills the dataset by `generate_fx`. |
| Objects.GenerateT | lib/chifig/dsl/objects.rb:221-230 | Refused unless there are exactly six arguments. Each expression in turn must pass the checker or raise. Then the dataset is filled by `generate_xyt`. |
| Objects.RunCommand | lib/chifig/dsl/parser.rb:126 | `obj.send(name, args)`: a command that succeeds changes the object's keys or dataset, never its kind or its index flag. |
| Objects.IntOpt | lib/chifig/dsl/objects.rb:237-241 | An option given is read with `to_i`, and an absent one takes its default. |
| Objects.ReadOpts | lib/chifig/dsl/objects.rb:237-251 | The defaults are columns 1 and 2, no error columns and every row. Shifts are passed through. |
| Objects.Read | lib/chifig/dsl/objects.rb:234-254 | Refused without a path. A second positional argument makes `args[1]` a String, and `has_key?` on it raises. An unreadable file raises. A successful read sets each error flag exactly when its column is positive. A SyntaxError comes only from a shift that was given, and carries that shift's own parser message. |
| Objects.ShiftEval | lib/chifig/dsl/dataset.rb:141-142 | A shift whose text does not parse never yields a value, whatever x is bound to. |
| Objects.ShiftSyntaxError | lib/chifig/dsl/dataset.rb:141-147 | `read 'f.dat', xshift='x+'` on a one-row file passes the checker, then raises the parser's SyntaxError: `read` rescues only SystemCallError, so the error reaches the parser with its own message. |
| Parser.CommandSyntaxError | lib/chifig/dsl/parser.rb:126-150 | A command that raises a SyntaxError ends the parse with (false, message), the message unprefixed. |
| Objects.LabelHash | lib/chifig/dsl/objects.rb:281-285 | The label holds the title text (with colour when given), the position "x,y" and the angle when given. |
| Objects.Label | lib/chifig/dsl/objects.rb:279-288 | Refused unless there are exactly four arguments. Otherwise the next numbered label key holds the label and nothing else changes. |
| Objects.SetField | lib/chifig/dsl/objects.rb:298 | Setting a field succeeds exactly when the key holds an object. Only that field changes. |
| Objects.Key | lib/chifig/dsl/objects.rb:291-301 | Refused outside 2..3 arguments. `hide` replaces the key object by `{show: false}`; otherwise only its position is set. |
| Objects.Rgb | lib/chifig/dsl/objects.rb:327-331 | Refused unless there are exactly three arguments. Otherwise it sets one colour of the table. |
| Objects.CurveData | lib/chifig/dsl/objects.rb:187-191 | The curve data has x and y, and has xerr and yerr exactly when the matching error flag is set. |
| Objects.Build | lib/chifig/dsl/objects.rb:93-101 | Finalisation sets `built`, does nothing to a built object and adds no sub-objects. |
| Objects.RenderOnce | lib/chifig/dsl/objects.rb:94-101 | Finalisation runs at most once, so rendering again gives the same document. |
| Objects.RenderNewAxis | lib/chifig/dsl/objects.rb:110-114 | A fresh Axis renders as the empty object. |
| Objects.PluralPrefix | lib/chifig/dsl/objects.rb:97 | A plural key starts like its name. |
| Objects.PluralsOfKind | lib/chifig/dsl/objects.rb:96-99 | Each kind's plural keys, `es` after a final x and `s` otherwise, are distinct and never a listed name. |
| Objects.BuildLists | lib/chifig/dsl/objects.rb:96-99 | The plural key of each listed name lists, in insertion order, the keys containing it, among them every such key the object had. |
| Objects.BuildPlotAxes | lib/chifig/dsl/objects.rb:270-273 | Plot finalisation adds an empty Axis for each absent xaxis, yaxis, xaxis2 and yaxis2, and leaves present ones untouched. |
| Objects.BuildCurveData | lib/chifig/dsl/objects.rb:187-191 | After Curve finalisation, `data.x` and `data.y` have equal length. xerr and yerr are present exactly when flagged. |
| Objects.BuildGet | lib/chifig/dsl/objects.rb:93-101 | Keys that are no plural key keep their pre-listing value. |
| Expressions.Allowed | lib/chifig/dsl/dataset.rb:203-209 | The allowed names always include x, t, the Math names and the GSL names. |
| Expressions.Check | lib/chifig/dsl/dataset.rb:215-222 | Safe exactly when every maximal letter run is allowed. Otherwise the word is the leftmost run that is not allowed. |
| Expressions.UnsafeWordIsLetters | lib/chifig/dsl/dataset.rb:217-218 | A reported word is a non-empty run of letters. |
| Expressions.VariablesAllowed | lib/chifig/dsl/dataset.rb:204 | `x` and `t` always pass, whatever GSL provides. |
| Datasets.NewDataset | lib/chifig/dsl/dataset.rb:61-70 | A new dataset has no points and no error flags, and its bounds are exact. |
| Datasets.AddPt | lib/chifig/dsl/dataset.rb:75-81 | The point is appended, the flags are kept, and the bounds stay exact: least and greatest of all stored x and y. |
| Datasets.XArr | lib/chifig/dsl/dataset.rb:93-95 | One x value per point, in order. |
| Datasets.YArr | lib/chifig/dsl/dataset.rb:98-100 | One y value per point, in order. |
| Datasets.XErrArr | lib/chifig/dsl/dataset.rb:103-105 | One x error per point, in order. |
| Datasets.YErrArr | lib/chifig/dsl/dataset.rb:108-110 | One y error per point, in order. |
| Datasets.ArrAppend | lib/chifig/dsl/dataset.rb:75-110 | Appending a point appends its values to the arrays. |
| Datasets.StepCountUnique | lib/chifig/dsl/dataset.rb:160-164 | With a positive step, the number of points the loop emits is determined. |
| Datasets.NonPositiveStepNeverStops | lib/chifig/dsl/dataset.rb:160-164 | With a step that is not positive, once the second value is below the bound every later one is too, so the loop never ends. |
| Datasets.StepsFx | lib/chifig/dsl/dataset.rb:160-164 | A positive step ends: either more points, with the old ones kept and the bounds exact, or an evaluation failure. |
| Datasets.PastBound | lib/chifig/dsl/dataset.rb:163 | With a positive step, once a value is not below the bound no later value is visited. |
| Datasets.StepsFxFails | lib/chifig/dsl/dataset.rb:160-168 | The loop raises exactly when f is undefined at some value it visits: x itself, or a later x + k*dx below the bound. |
| Datasets.StepsFxPoints | lib/chifig/dsl/dataset.rb:160-164 | The loop adds as many points as the stepping rule gives, the k-th at x + k*dx with y = f(x + k*dx). |
| Datasets.GenerateFx | lib/chifig/dsl/dataset.rb:154-170 | A first point is always at xmin, then one per step while below xmax + dx/2, the k-th at xmin + k*dx. A positive step always ends, and raises exactly when f is undefined at a visited value. A non-positive step whose second value is not below the bound raises exactly when f is undefined at xmin. With a non-positive step whose second value is below the bound, the loop never ends exactly when f is defined at every xmin + k*dx; otherwise it raises at the first value where f is not. |
| Datasets.SqrtStepsDown | lib/chifig/dsl/dataset.rb:157-164 | `generate 'sqrt(x)', 1, 5, -1` raises: it evaluates at 1, 0 and then -1, where sqrt is undefined. |
| Datasets.FiveSamples | lib/chifig/dsl/dataset.rb:156-164 | sin(x) over [0, 6.28] with step 1.57 gives five points. |
| Datasets.StepsXyt | lib/chifig/dsl/dataset.rb:180-186 | A positive step ends with more points and exact bounds, or with an evaluation failure. |
| Datasets.StepsXytFails | lib/chifig/dsl/dataset.rb:180-190 | Entered at any step of the run, the loop raises exactly when x(t) or y(t) fails at some value it visits from there on, with each x(t) seeing the x computed one step before. |
| Datasets.StepsXytPoints | lib/chifig/dsl/dataset.rb:180-186 | The loop adds as many points as the stepping rule gives. Point k is evaluated at t + k*dt; x(t) sees the previous point's x and y(t) sees this point's x. |
| Datasets.XytRunStops | lib/chifig/dsl/dataset.rb:180-186 | Once an evaluation of x(t) or y(t) raises, the loop reaches no later value of t. |
| Datasets.GenerateXyt | lib/chifig/dsl/dataset.rb:175-192 | The stepping rule of `generate_fx`, over t, one point per step, each evaluated as the loop's locals dictate. A positive step raises exactly when the run fails at a visited value. A non-positive step whose second value is not below the bound raises exactly when the first evaluation fails. Otherwise a non-positive step never ends exactly when both expressions are defined along the whole run, and raises if not. |
| Datasets.RubyAt | lib/chifig/dsl/dataset.rb:139-144 | `words[i]` counts from the end for negative i and is nil out of range. |
| Datasets.PickedIsStride | lib/chifig/dsl/dataset.rb:137-138 | The running count keeps exactly the rows whose 1-based position is a multiple of `every`. |
| Datasets.PickedStride | lib/chifig/dsl/dataset.rb:137-138 | Counting on from any count, the kept rows are those where the count reaches a multiple of the magnitude of `every`. |
| Datasets.ReadFrom | lib/chifig/dsl/dataset.rb:133-146 | The line loop keeps the flags, the earlier points and exact bounds, and always ends. A shift failure names a shift that was given. |
| Datasets.FailingShift | lib/chifig/dsl/dataset.rb:141-142 | On a row whose shifts fail, the failing one is the x shift when it fails at the column's x, and otherwise the y shift, which fails at the shifted x. |
| Datasets.OneLineShiftFails | lib/chifig/dsl/dataset.rb:133-142 | A file whose one line is kept and whose shift fails on it ends the read with that shift's failure. |
| Datasets.Read | lib/chifig/dsl/dataset.rb:114-150 | Each error flag becomes set exactly when its column is positive, or it was set already. An unreadable file raises. The read always ends. A shift failure names a shift that was given. |
| Datasets.RowPointsAll | lib/chifig/dsl/dataset.rb:139-145 | The kept rows give points exactly when every row converts, and then they are the rows' points in order. |
| Datasets.ReadFromRows | lib/chifig/dsl/dataset.rb:133-146 | With a non-zero `every`, the loop succeeds exactly when every kept row converts, and adds their points in order. |
| Datasets.QualifyingRowsExactly | lib/chifig/dsl/dataset.rb:134-136 | The rows considered are exactly the splits of the lines that do not start with '#' and have at least maxcol fields, and no more rows than lines. |
| Datasets.ReadSelectsRows | lib/chifig/dsl/dataset.rb:129-145 | A readable file yields, in file order, the points of the lines that do not start with '#', have at least maxcol fields, and whose count among such lines is a multiple of `every`. |
| Datasets.ReadEveryZero | lib/chifig/dsl/dataset.rb:138 | With `every` zero, the read fails exactly when some line qualifies (ZeroDivisionError). |
| Merging.MergeOne | lib/chifig/merge.rb:12-22 | One pair leaves its key holding the combined value, and every other key as it was. |
| Merging.MergeKeys | lib/chifig/merge.rb:12-22 | The receiver keeps its keys in place. Keys only in the argument are appended, once each, in order. |
| Merging.MergeGet | lib/chifig/merge.rb:12-22 | Each key of the argument reads the combined value: recursive when both are hashes, else the argument's. Keys absent from the argument keep their values. |
| Merging.MergeFromUnique | lib/chifig/merge.rb:12-22 | Merging keeps keys distinct. |
| Merging.MergeIdempotent | lib/chifig/merge.rb:10-24 | Merging the same hash a second time changes nothing. |
| Merging.MergeSelf | lib/chifig/merge.rb:10-24 | Merging a hash into itself changes nothing. |
| Merging.CombinedTwice | lib/chifig/merge.rb:15-18 | Combining twice with the same value is combining once. |
| Merging.MergeIntoEmpty | lib/chifig/merge.rb:20-21 | Merging into an empty hash copies the argument unchanged. |
| Axes.NewAxis | lib/chifig/axis.rb:22-27 | A new axis has the empty range Float::MAX .. -Float::MAX, no ticks, and is unused. |
| Axes.UpdateRange | lib/chifig/axis.rb:34-40 | The range covers every value, never narrows, and moves only to a data value. The axis becomes used. Empty data raises. |
| Axes.UpdateRangeTight | lib/chifig/axis.rb:34-40 | The update is the tightest range covering the old range and the data. |
| Axes.UpdateRangeIdempotent | lib/chifig/axis.rb:34-40 | Updating again with the same data changes nothing. |
| Axes.UpdateRangeOrder | lib/chifig/axis.rb:34-40 | Updating with d1 then d2 equals updating with d1 + d2, and with d2 then d1. |
| Axes.Round | lib/chifig/axis.rb:51 | Float#round is within one half, and a tie goes away from zero. |
| Axes.SnapProperties | lib/chifig/axis.rb:51-53 | A tick near an integer becomes that integer. A tick near zero becomes 0. Any other tick is kept. A non-zero result is never within `zero` of 0. |
| Axes.Ticks | lib/chifig/axis.rb:49-55 | There are n ticks, and tick i is tmin + i*dt, snapped. |
| Axes.TickBound | lib/chifig/axis.rb:44-47 | An empty text falls back to the axis's own bound. On a log scale the bound is its log10. |
| Axes.SetTicks | lib/chifig/axis.rb:43-56 | Appends exactly `number` ticks (none below 1) and keeps the earlier ones. It raises exactly when a bound's log10 fails, when number is 1 (the tick is NaN), or when number is at least 2 and `tmax - tmin` overflows to an infinity (the first tick `tmin + 0*dt` is NaN). |
| Axes.UnusedAxisTicksRaise | lib/chifig/axis.rb:22-51 | An axis nothing was plotted on, given no min or max text, keeps Float::MAX..-Float::MAX, and `set_ticks` on it raises for every number from 1 on. |
| Axes.TicksSpan | lib/chifig/axis.rb:48-50 | Before snapping the ticks step evenly by dt, from tmin (first) to tmax (last). |
| Axes.SetTicksValues | lib/chifig/axis.rb:44-54 | The appended ticks are the snapped even steps between the two bounds. |
| Render.Walk | lib/chifig/psgen.rb:70 | No segment leaves the value as it is, and one segment indexes it. |
| Render.WalkAppend | lib/chifig/psgen.rb:70 | Walking p + q is walking p, then q from where p ended. |
| Render.Resolve | lib/chifig/psgen.rb:65-72 | A value that is no reference is returned as it is. A resolved value is never a reference. The loop never raises "Unable to find value". It crashes only on a reference, and it crashes whenever the walk of a path with two or more segments reaches a step that has no `[]`. |
| Render.PairThroughScalarCrashes | lib/chifig/psgen.rb:67-70 | `@a:b` with root[a] nil, a boolean or a number crashes: `val[c]` on it raises, and nothing rescues it. |
| Render.SingleSegmentSpins | lib/chifig/psgen.rb:65-72 | A reference with no ':' never changes, so the loop never ends, whatever the fuel. |
| Render.ResolveFuel | lib/chifig/psgen.rb:65-72 | Once a lookup resolves, more iterations give the same answer. |
| Render.PairReference | lib/chifig/psgen.rb:67-70 | `@a:b` resolves to root[a][b] when that is a plain value. |
| Render.GetValue | lib/chifig/psgen.rb:59-74 | A non-nil local value is used. Otherwise the default is used, or the lookup raises "Unable to find value" exactly when the default is nil or false. |
| Render.LocalFalseKept | lib/chifig/psgen.rb:60-61 | A local false is returned and the default is not consulted. |
| Render.Trans | lib/chifig/psgen.rb:157-164 | Below vmin gives clow, above vmax gives chigh. Exactly vmin gives clow and exactly vmax gives chigh. Otherwise the result is within [clow, chigh]. It is undefined (0/0) exactly when v = vmin = vmax. |
| Render.TransMonotone | lib/chifig/psgen.rb:157-164 | The transform keeps the order of values. |
| Render.TransRoundTrip | lib/chifig/psgen.rb:163 | Inside the range the linear map is undone by its inverse. |
| Render.YErrBar | lib/chifig/psgen.rb:408-411 | A y error bar is vertical. |
| Render.YErrBarThroughPoint | lib/chifig/psgen.rb:408-411 | For a non-negative error the y bar stands at the drawn point's x and spans it, from the drawn y - e to the drawn y + e. |
| Render.XErrBarAsWritten | lib/chifig/psgen.rb:385-388 | As written, the x error bar is horizontal. |
| Render.XErrBar | lib/chifig/psgen.rb:385-388 | Corrected, the x error bar is horizontal. |
| Render.XErrBarMirrorsYErrBar | lib/chifig/psgen.rb:385-411 | Corrected, the x bar is the y bar of the transposed panel, reflected. |
| Render.XErrBarThroughPoint | lib/chifig/psgen.rb:385-388 | Corrected, the x bar passes through the drawn point, at its height and spanning it. |
| Render.XErrBarSwapped | lib/chifig/psgen.rb:385-387 | An input for which the bar as written misses the point and the corrected bar does not. |
| Render.ShadowAngle | lib/chifig/psgen.rb:195-206 | Defined exactly for ne, nw, sw and se. The angle is an odd multiple of 45, positive exactly for north, and within ±90 exactly for east. Anything else raises. |
| Render.Dots | lib/chifig/psgen.rb:345-362 | `circle` becomes `*` filled and `o` otherwise. `diamond` becomes `square` at 45 degrees, `del` becomes `triangle` at 180. `x` and `+` are never filled. Error bars and `none` show no points. |
| Render.Drawn | lib/chifig/psgen.rb:364-420 | Points are drawn with the marker of the mapping. |
| Render.ErrorBarsNeedNoFill | lib/chifig/psgen.rb:362-397 | Error bars are drawn exactly for an error-bar shape without fill. A filled one draws nothing, because of the appended `*`. |
| Render.FalseTextFillsCircle | lib/chifig/psgen.rb:347 | The text "false" fills a circle, while false does not. |
| Render.DotsInPlace | lib/chifig/psgen.rb:345-362 | As written the marker is the mapping's, and the shape string in the document grows by the `*` unless it was reassigned. |
| Render.SharedMarkersAsWritten | lib/chifig/psgen.rb:345-362 | As written, the first curve sharing a default symbol gets the mapping's marker. |
| Render.SharedMarkers | lib/chifig/psgen.rb:345-362 | Corrected, every curve sharing a default symbol gets the same marker. |
| Render.SharedDefaultGrows | lib/chifig/psgen.rb:362 | With two curves sharing a filled default square, the second is `square**` as written and `square*` corrected. |
| Render.DefCurve | lib/chifig/psgen.rb:289-291 | The curve's own entry when truthy, else `defcurve`. The result is truthy exactly when one of them is. |
| Render.Widen | lib/chifig/psgen.rb:452-454 | Widening keeps the ticks. |
| Render.WidenAppend | lib/chifig/psgen.rb:440-455 | Widening by d1 then d2 is widening by d1 + d2. |
| Render.AddCurve | lib/chifig/psgen.rb:441-454 | A curve is accepted exactly when x and y are non-empty and of one length. Its x values widen axis 2 with xaxis2 and axis 0 otherwise; its y values widen axis 3 with yaxis2 and axis 1 otherwise. |
| Render.AssignAxes | lib/chifig/psgen.rb:440-455 | The loop succeeds exactly when every curve is accepted, and keeps four axes and their ticks. |
| Render.AssignAxesCovers | lib/chifig/psgen.rb:440-455 | Each axis ends up covering exactly the values its curves put on it. |
| Render.PlotAxes | lib/chifig/psgen.rb:436-464 | The four axes exist exactly when every curve is accepted, and have no ticks yet. |
| Render.Override | lib/chifig/psgen.rb:460-463 | Overriding keeps the ticks and the used flag. |
| Render.PlotAxesRange | lib/chifig/psgen.rb:436-464 | An axis is used exactly when some curve puts values on it. A non-empty explicit min or max overrides the data range, which otherwise starts from Float::MAX. |
| Render.EmptyAxisTicksRaise | lib/chifig/psgen.rb:494 | `_add_plot` sets the ticks of the bottom axis, and likewise the left one at line 530, without checking `used`. An axis no curve uses, with no explicit range and no tick bounds, therefore raises there. |
| Render.Layout | lib/chifig/psgen.rb:982-1004 | Defined exactly for layouts 1, 2h, 2v and 4, with 1, 2 or 4 panels. Panels are half width for 2h and 4 and half height for 2v and 4, by integer division. |
| Render.LayoutTiles | lib/chifig/psgen.rb:982-1004 | For a figure of non-negative size the panels lie inside it, do not overlap, cover it up to one unit of rounding, and come in reading order. |

## Left out

- Text measurement, LaTeX emission, `dvips` and file output in psgen.rb, and all of exec.rb: external tools and output formatting.
- Panel geometry in `_add_plot` after the axis ranges, and the drawing passes. They depend on sizes that LaTeX reports.
- `eval`, `to_f`, `to_i`, `Math.log10`, GSL's names, `IO.foreach`, the delimiter regexp and `Hash#inspect` are host parameters. Their results are whatever the host returns.
- Floats are reals: overflow, rounding, infinities and NaN are not modelled. The three places where an infinity or NaN matters are modelled by their effect. `_trans` with v = vmin = vmax divides 0.0 by 0.0, and Render.Trans gives None. `set_ticks` with number 1 rounds a NaN, which raises. `set_ticks` whose `tmax - tmin` reaches 2^1024 - 2^970 in magnitude (the overflow threshold of a double) rounds the NaN tick `tmin + 0*Infinity`, which raises too.
- The exact JSON text that `JSON.pretty_generate` writes: the model renders to a document value.
- `_get_float_value` and `_get_int_value`: conversions of a looked-up value through the host.
- Render.Resolve: the reference loop is bounded by a fuel count. `Unresolved` stands for running out of it, and SingleSegmentSpins shows it is never reached with a finite answer for a one-segment reference.
- Render.PlotAxes: the lookups of `curves`, each curve's data and each axis's min/max text are inputs. Their "Missing ..." exceptions are not modelled.
- Render.YErrBar: log-scale coordinates (`Math.log10` of the values) are not modelled; the bars are given linear coordinates.
- Render.XErrBar: the "Missing x error data" check and the key sample bar are not modelled.
- Parser.Parse: the source's comments promise that every error is returned as (false, message). The code rescues only SyntaxError, so the model follows the code. A SyntaxError from a `read` shift gives `SyntaxFail` with the parser's message. Every other exception from a command, and the nil token after an argument (parser.rb:76-78), gives `Abort`.
- Parser.Parse: the parse dispatches `symbol` to the corrected Objects.Symbol (see the second finding below), so `fill=false` is stored as false; the code as written, Objects.SymbolAsWritten, stores the text "false".
- Parser.AddArg: an argument `a=` splits into the one field `a` and is positional, following the code rather than the documented `opt=value` form. An argument `=` splits into no fields and stores a nil key with a nil value.
- Datasets.GenerateFx: an evaluation that raises gives the fixed message `Evaluation of "expr" failed: `. The text of the host's own exception is not modelled; Ruby appends it for SyntaxError and NoMethodError and lets other errors (a Math::DomainError, say) through with their own message. The same holds for Datasets.GenerateXyt.
- Datasets.ReadFrom: the `@descr` description string is not modelled; it is only used for display.

## Findings

| source | as written | input that shows it | evidently intended | confidence | as-written member | corrected member |
|---|---|---|---|---|---|---|
| lib/chifig/psgen.rb:385-387 | The x error bar takes its height from `_trans(y, xmin, xmax, xlow, xhigh)` and its ends from `_trans(x±xe, ymin, ymax, ylow, yhigh)`: the x and y ranges are swapped. | Panel x in [0,10] drawn on [0,100], y in [0,1] drawn on [0,50], point (5, 0.5), error 1. The point is drawn at (50,25), but the bar is the single point (50,5)-(50,5). | A horizontal bar at the point's height, from x-e to x+e in the x range: (40,25)-(60,25). This mirrors the y error bar at lines 408-410. | high, not executed | Render.XErrBarAsWritten | Render.XErrBar |
| lib/chifig/dsl/objects.rb:204 | `symbol` stores the fill option as the raw text, bypassing the "true"/"false" normalisation of `add_data`. The renderer then tests the text for truth. | `symbol circle, red, fill=false` stores "false", which Ruby treats as true, so the circle is drawn filled. | fill=false stores false and the circle is drawn open, as for every other boolean key. | high, not executed | Objects.SymbolAsWritten | Objects.Symbol |
| lib/chifig/psgen.rb:345-362 | `shape << '*'` appends in place to the string taken from the document. When a shape is not reassigned and fill is true (square, triangle, xerrbar, yerrbar, none and any unlisted name; `x` and `+` set fill to false), the stored default grows with each curve that uses it. | Two curves that both take the default symbol square with fill true: the first is drawn with `square*`, the second with `square**`. | Every curve sharing a default symbol gets the same marker `square*`. | medium, not executed | Render.SharedMarkersAsWritten | Render.SharedMarkers |

=== FILE: axis.dfy ===
/** The range and tick marks of one plot axis. Floats are modelled as reals;
    the Float limits are kept as the initial range. */
module Axes {
  import opened Support
  import Datasets

  datatype AxisRange = AxisRange(min: real, max: real, ticks: seq<real>, used: bool)

  /** `Axis.new`: an empty range (min above max), no ticks, unused. */
  function NewAxis(): (a: AxisRange)
    ensures a.min == Datasets.FloatMax && a.max == -Datasets.FloatMax
    ensures a.min > a.max
    ensures a.ticks == [] && !a.used
  {
    AxisRange(Datasets.FloatMax, -Datasets.FloatMax, [], false)
  }

  // ---------------------------------------------------------------------------
  // update_range
  // ---------------------------------------------------------------------------

  function Min(xs: seq<real>): (m: real)
    requires xs != []
    ensures m in xs && forall k :: 0 <= k < |xs| ==> m <= xs[k]
  {
    if |xs| == 1 then xs[0]
    else
      var m := Min(xs[1..]);
      assert m in xs[1..];
      if xs[0] <= m then xs[0] else m
  }

  function Max(xs: seq<real>): (m: real)
    requires xs != []
    ensures m in xs && forall k :: 0 <= k < |xs| ==> xs[k] <= m
  {
    if |xs| == 1 then xs[0]
    else
      var m := Max(xs[1..]);
      assert m in xs[1..];
      if m <= xs[0] then xs[0] else m
  }

  /** `update_range`: the range widens to cover every value, and the axis is
      marked used. Empty data has no minimum, and comparing it raises: None. */
  function UpdateRange(a: AxisRange, data: seq<real>): (r: Option<AxisRange>)
    ensures r.Some? <==> data != []
    ensures r.Some? ==> r.value.used && r.value.ticks == a.ticks
    ensures r.Some? ==> r.value.min <= a.min && r.value.max >= a.max
    ensures r.Some? ==> forall k :: 0 <= k < |data| ==> r.value.min <= data[k] <= r.value.max
    ensures r.Some? ==> (r.value.min == a.min || r.value.min in data) && (r.value.max == a.max || r.value.max in data)
  {
    if data == [] then None
    else
      var lo := Min(data);
      var hi := Max(data);
      Some(a.(min := if lo < a.min then lo else a.min, max := if hi > a.max then hi else a.max, used := true))
  }

  /** The range update is the tightest one: it is the smaller of the old
      minimum and the data's minimum (and likewise for the maximum). */
  lemma UpdateRangeTight(a: AxisRange, data: seq<real>, lo: real, hi: real)
    requires data != []
    requires lo <= a.min && forall k :: 0 <= k < |data| ==> lo <= data[k]
    requires hi >= a.max && forall k :: 0 <= k < |data| ==> data[k] <= hi
    ensures lo <= UpdateRange(a, data).value.min && UpdateRange(a, data).value.max <= hi
  {
    var r := UpdateRange(a, data).value;
    if r.min != a.min {
      var k :| 0 <= k < |data| && data[k] == r.min;
    }
    if r.max != a.max {
      var k :| 0 <= k < |data| && data[k] == r.max;
    }
  }

  /** Updating again with the same data changes nothing. */
  lemma UpdateRangeIdempotent(a: AxisRange, data: seq<real>)
    requires data != []
    ensures UpdateRange(UpdateRange(a, data).value, data) == UpdateRange(a, data)
  {
  }

  /** The extremes of d1 + d2 are the extremes of the extremes. */
  lemma ExtremesAppend(d1: seq<real>, d2: seq<real>)
    requires d1 != [] && d2 != []
    ensures Min(d1 + d2) == (if Min(d1) <= Min(d2) then Min(d1) else Min(d2))
    ensures Max(d1 + d2) == (if Max(d1) >= Max(d2) then Max(d1) else Max(d2))
  {
    var d := d1 + d2;
    var m1, m2, m := Min(d1), Min(d2), Min(d);
    assert forall k :: 0 <= k < |d1| ==> d[k] == d1[k];
    assert forall k :: 0 <= k < |d2| ==> d[|d1| + k] == d2[k];
    var i :| 0 <= i < |d1| && d1[i] == m1;
    var j :| 0 <= j < |d2| && d2[j] == m2;
    assert m <= d[i] && m <= d[|d1| + j];
    var x1, x2, x := Max(d1), Max(d2), Max(d);
    var i' :| 0 <= i' < |d1| && d1[i'] == x1;
    var j' :| 0 <= j' < |d2| && d2[j'] == x2;
    assert x >= d[i'] && x >= d[|d1| + j'];
    var k :| 0 <= k < |d| && d[k] == m;
    if k >= |d1| { assert d2[k - |d1|] == m; }
    var k' :| 0 <= k' < |d| && d[k'] == x;
    if k' >= |d1| { assert d2[k' - |d1|] == x; }
  }

  function Lower(x: real, y: real): real { if x <= y then x else y }
  function Upper(x: real, y: real): real { if x >= y then x else y }

  /** The update in terms of the data's extremes. */
  lemma UpdateRangeIs(a: AxisRange, data: seq<real>)
    requires data != []
    ensures UpdateRange(a, data) == Some(a.(min := Lower(Min(data), a.min), max := Upper(Max(data), a.max), used := true))
  {
  }

  /** Updating with d1 then d2 gives the same axis as with all of d1 + d2 at
      once, and as with d2 then d1: the order the curves are added in does
      not matter. */
  lemma UpdateRangeOrder(a: AxisRange, d1: seq<real>, d2: seq<real>)
    requires d1 != [] && d2 != []
    ensures UpdateRange(UpdateRange(a, d1).value, d2) == UpdateRange(a, d1 + d2)
    ensures UpdateRange(UpdateRange(a, d1).value, d2) == UpdateRange(UpdateRange(a, d2).value, d1)
  {
    ExtremesAppend(d1, d2);
    UpdateRangeIs(a, d1);
    UpdateRangeIs(a, d2);
    UpdateRangeIs(a, d1 + d2);
    UpdateRangeIs(UpdateRange(a, d1).value, d2);
    UpdateRangeIs(UpdateRange(a, d2).value, d1);
  }

  // ---------------------------------------------------------------------------
  // set_ticks
  // ---------------------------------------------------------------------------

  function Abs(x: real): real
  {
    if x < 0.0 then -x else x
  }

  /** Float#round: to the nearest integer, halves away from zero. */
  function Round(t: real): (n: int)
    ensures Abs(n as real - t) <= 0.5
    ensures Abs(n as real - t) == 0.5 ==> Abs(n as real) > Abs(t)
  {
    if t >= 0.0 then (t + 0.5).Floor else -((-t + 0.5).Floor)
  }

  /** A tick within `zero` of an integer becomes that integer; then a tick
      within `zero` of 0 becomes 0. */
  function Snap(t: real, zero: real): (r: real)
  {
    var rt := Round(t) as real;
    var t1 := if Abs(rt - t) < zero then rt else t;
    if Abs(t1) < zero then 0.0 else t1
  }

  /** What snapping does: a tick near an integer becomes an integer, a tick
      near zero becomes 0, a tick near neither is kept, and a non-zero result
      is never within `zero` of 0. */
  lemma SnapProperties(t: real, zero: real)
    ensures var r := Snap(t, zero);
      && (r == 0.0 || Abs(r) >= zero)
      && (Abs(Round(t) as real - t) < zero ==> r == Round(t) as real || r == 0.0)
      && (Abs(t) < zero && Abs(Round(t) as real - t) >= zero ==> r == 0.0)
      && (Abs(Round(t) as real - t) >= zero && Abs(t) >= zero ==> r == t)
      && (Abs(Round(t) as real - t) < zero ==> r == (r.Floor as real))
  {
  }

  /** Tick i before snapping. */
  function RawTick(tmin: real, dt: real, i: nat): real
  {
    tmin + (i as real) * dt
  }

  /** The n ticks appended by the loop `0.upto(number - 1)`. */
  function Ticks(tmin: real, dt: real, n: nat, zero: real): (ts: seq<real>)
    ensures |ts| == n
    ensures forall i :: 0 <= i < n ==> ts[i] == Snap(RawTick(tmin, dt, i), zero)
  {
    seq(n, i requires 0 <= i < n => Snap(RawTick(tmin, dt, i), zero))
  }

  /** One end of the tick range: the given text if any, else the axis's own
      bound; on a log scale its base-10 logarithm, which the host may refuse
      (a domain error, or an infinite result that cannot be rounded). */
  function TickBound(text: string, own: real, logscale: bool, toF: string -> real,
                     log10: real -> Option<real>): (r: Option<real>)
    ensures !logscale ==> r == Some(if |text| > 0 then toF(text) else own)
    ensures logscale ==> r == log10(if |text| > 0 then toF(text) else own)
  {
    var t := if |text| > 0 then toF(text) else own;
    if logscale then log10(t) else Some(t)
  }

  /** The smallest magnitude that IEEE 754 double arithmetic, rounding to
      nearest, turns into an infinity: 2^1024 - 2^970, halfway between
      Float::MAX and 2^1024. */
  const OverflowAt: real := 179769313486231580793728971405303415079934132710037826936173778980444968292764750946649017977587207096330286416692887910946555547851940402630657488671505820681908902000708383676273854845817711531764475730270069855571366959622842914819860834936475292719074168444365510704342711559699508093042880177904174497792.0

  /** A result the double arithmetic rounds to plus or minus infinity. */
  predicate Overflows(x: real)
  {
    Abs(x) >= OverflowAt
  }

  /** `set_ticks`: appends `number` evenly spaced ticks from tmin to tmax,
      snapped. With number == 1 the spacing divides by zero, the one tick is
      not a number and rounding it raises (None). When `tmax - tmin`
      overflows (the untouched range Float::MAX..-Float::MAX, say) the
      spacing is infinite, the first tick `tmin + 0*dt` is not a number and
      rounding it raises too. A number below 1 appends nothing. */
  function SetTicks(a: AxisRange, minText: string, maxText: string, number: int, logscale: bool,
                    zero: real, toF: string -> real, log10: real -> Option<real>): (r: Option<AxisRange>)
    ensures r.Some? ==> r.value == a.(ticks := r.value.ticks)
    ensures r.Some? ==> |r.value.ticks| == |a.ticks| + (if number > 0 then number else 0)
    ensures r.Some? ==> r.value.ticks[..|a.ticks|] == a.ticks
    ensures number == 1 ==> r.None?
    ensures var lo := TickBound(minText, a.min, logscale, toF, log10);
      var hi := TickBound(maxText, a.max, logscale, toF, log10);
      r.None? <==> || number == 1 || lo.None? || hi.None?
                   || (number >= 2 && Overflows(hi.value - lo.value))
  {
    var lo := TickBound(minText, a.min, logscale, toF, log10);
    var hi := TickBound(maxText, a.max, logscale, toF, log10);
    if lo.None? || hi.None? || number == 1 || (number >= 2 && Overflows(hi.value - lo.value)) then None
    else
      var dt := (hi.value - lo.value) / ((number - 1) as real);
      var n: nat := if number > 0 then number else 0;
      Some(a.(ticks := a.ticks + Ticks(lo.value, dt, n, zero)))
  }

  /** An axis nothing was plotted on, with no min or max text, keeps the
      range Float::MAX..-Float::MAX; their difference overflows, so
      `set_ticks` raises for every number of ticks from 1 on. */
  lemma UnusedAxisTicksRaise(number: int, zero: real, toF: string -> real, log10: real -> Option<real>)
    requires number >= 1
    ensures SetTicks(NewAxis(), "", "", number, false, zero, toF, log10).None?
  {
  }

  /** Before snapping, the ticks run evenly from tmin to tmax: the first is
      tmin and the last is tmax. */
  lemma TicksSpan(tmin: real, tmax: real, number: int)
    requires number >= 2
    ensures var dt := (tmax - tmin) / ((number - 1) as real);
      && RawTick(tmin, dt, 0) == tmin
      && RawTick(tmin, dt, number - 1) == tmax
      && forall i: nat :: i + 1 < number ==> RawTick(tmin, dt, i + 1) - RawTick(tmin, dt, i) == dt
  {
    var dt := (tmax - tmin) / ((number - 1) as real);
    assert ((number - 1) as real) * dt == tmax - tmin;
  }

  /** The ticks appended by a successful `set_ticks` are the snapped even
      steps between the two bounds. */
  lemma SetTicksValues(a: AxisRange, minText: string, maxText: string, number: int, logscale: bool,
                       zero: real, toF: string -> real, log10: real -> Option<real>)
    requires SetTicks(a, minText, maxText, number, logscale, zero, toF, log10).Some?
    ensures var lo := TickBound(minText, a.min, logscale, toF, log10).value;
      var hi := TickBound(maxText, a.max, logscale, toF, log10).value;
      var ts := SetTicks(a, minText, maxText, number, logscale, zero, toF, log10).value.ticks;
      var dt := (hi - lo) / ((number - 1) as real);
      forall i :: |a.ticks| <= i < |ts| ==> ts[i] == Snap(RawTick(lo, dt, i - |a.ticks|), zero)
  {
  }
}

=== FILE: dataset.dfy ===
/** Curve data: points with error values, running bounds, and the three ways
    of filling a dataset (y = f(x), parametric x(t), y(t), and rows of a data
    file). Expression evaluation, String#to_f and the splitting of a file line
    into fields are host functions passed in. */
module Datasets {
  import opened Support

  /** Ruby's Float::MAX, the sentinel of an empty range. */
  const FloatMax: real := 179769313486231570814527423731704356798070567525844996598917476803157260780028538760589558632766878171540458953514382464234321326889464182768467546703537516986049910576551282076245490090389328944075868508455133942304583236903222948165808559332123348274797826204144723168738177180919299881250404026184124858368.0

  datatype Point = Point(x: real, y: real, xerr: real, yerr: real)

  datatype Dataset = Dataset(points: seq<Point>, xmin: real, xmax: real, ymin: real, ymax: real,
                             xerror: bool, yerror: bool)

  /** Evaluation of a checked expression with the given variable bindings;
      None when Ruby's eval raises. */
  type Eval = (string, map<string, real>) -> Option<real>

  /** How filling a dataset ends: with the new data, with an exception, with
      the exception of a `read` shift expression (which `read` does not
      rescue, so its class matters to the caller), or (generation only)
      never, because the loop condition can no longer become false. */
  datatype Outcome = Done(d: Dataset) | Failed(msg: string) | ShiftFailed(expr: string) | Unbounded

  // ---------------------------------------------------------------------------
  // Bounds
  // ---------------------------------------------------------------------------

  /** lo and hi are exact bounds of vs: the least and greatest of the
      sentinels and the values. */
  predicate Exact(vs: seq<real>, lo: real, hi: real)
  {
    && (forall i :: 0 <= i < |vs| ==> lo <= vs[i] <= hi)
    && lo <= FloatMax && -FloatMax <= hi
    && (lo == FloatMax || exists i :: 0 <= i < |vs| && vs[i] == lo)
    && (hi == -FloatMax || exists i :: 0 <= i < |vs| && vs[i] == hi)
  }

  /** Widening by one value keeps the bounds exact. */
  lemma ExactAppend(vs: seq<real>, lo: real, hi: real, v: real)
    requires Exact(vs, lo, hi)
    ensures Exact(vs + [v], if v < lo then v else lo, if v > hi then v else hi)
  {
    var ws := vs + [v];
    assert ws[|vs|] == v;
    assert forall i :: 0 <= i < |vs| ==> ws[i] == vs[i];
  }

  /** The dataset's bounds are exact for its x and y values. */
  predicate Tracks(d: Dataset)
  {
    Exact(XArr(d), d.xmin, d.xmax) && Exact(YArr(d), d.ymin, d.ymax)
  }

  function NewDataset(): (d: Dataset)
    ensures d.points == [] && !d.xerror && !d.yerror && Tracks(d)
  {
    Dataset([], FloatMax, -FloatMax, FloatMax, -FloatMax, false, false)
  }

  /** `_add_pt`: appends the point and widens the bounds to cover it. */
  function AddPt(d: Dataset, x: real, y: real, xerr: real, yerr: real): (r: Dataset)
    ensures r.points == d.points + [Point(x, y, xerr, yerr)]
    ensures r.xerror == d.xerror && r.yerror == d.yerror
    ensures Tracks(d) ==> Tracks(r)
  {
    var r := d.(points := d.points + [Point(x, y, xerr, yerr)],
                xmin := if x < d.xmin then x else d.xmin,
                xmax := if x > d.xmax then x else d.xmax,
                ymin := if y < d.ymin then y else d.ymin,
                ymax := if y > d.ymax then y else d.ymax);
    ArrAppend(d, r, Point(x, y, xerr, yerr));
    if Tracks(d) then
      ExactAppend(XArr(d), d.xmin, d.xmax, x);
      ExactAppend(YArr(d), d.ymin, d.ymax, y);
      r
    else r
  }

  function XArr(d: Dataset): (r: seq<real>)
    ensures |r| == |d.points| && forall i :: 0 <= i < |r| ==> r[i] == d.points[i].x
  {
    seq(|d.points|, i requires 0 <= i < |d.points| => d.points[i].x)
  }

  function YArr(d: Dataset): (r: seq<real>)
    ensures |r| == |d.points| && forall i :: 0 <= i < |r| ==> r[i] == d.points[i].y
  {
    seq(|d.points|, i requires 0 <= i < |d.points| => d.points[i].y)
  }

  function XErrArr(d: Dataset): (r: seq<real>)
    ensures |r| == |d.points| && forall i :: 0 <= i < |r| ==> r[i] == d.points[i].xerr
  {
    seq(|d.points|, i requires 0 <= i < |d.points| => d.points[i].xerr)
  }

  function YErrArr(d: Dataset): (r: seq<real>)
    ensures |r| == |d.points| && forall i :: 0 <= i < |r| ==> r[i] == d.points[i].yerr
  {
    seq(|d.points|, i requires 0 <= i < |d.points| => d.points[i].yerr)
  }

  lemma ArrAppend(d: Dataset, r: Dataset, p: Point)
    requires r.points == d.points + [p]
    ensures XArr(r) == XArr(d) + [p.x] && YArr(r) == YArr(d) + [p.y]
  {
    assert XArr(r) == XArr(d) + [p.x];
    assert YArr(r) == YArr(d) + [p.y];
  }

  // ---------------------------------------------------------------------------
  // Stepping (generate_fx, generate_xyt)
  // ---------------------------------------------------------------------------

  /** The k-th value of a run that starts at start with step dx. */
  function Sample(start: real, dx: real, k: int): real
  {
    start + (k as real) * dx
  }

  /** A run that starts one step later is the same run shifted by one. */
  lemma SampleShift(start: real, dx: real, k: int)
    ensures Sample(start + dx, dx, k) == Sample(start, dx, k + 1)
  {
    assert ((k + 1) as real) * dx == (k as real) * dx + dx;
  }

  /** With a positive step the run grows. */
  lemma SampleMonotone(start: real, dx: real, i: int, j: int)
    requires dx > 0.0 && i <= j
    ensures Sample(start, dx, i) <= Sample(start, dx, j)
  {
    assert (j as real) * dx - (i as real) * dx == ((j - i) as real) * dx;
  }

  /** n points are emitted from start with step dx against the loop bound:
      the first always, and a further one while the next value stays below
      the bound. */
  predicate StepCount(start: real, bound: real, dx: real, n: nat)
  {
    n >= 1 && Sample(start, dx, n) >= bound && (n == 1 || Sample(start, dx, n - 1) < bound)
  }

  /** With a positive step the count is determined. */
  lemma StepCountUnique(start: real, bound: real, dx: real, n: nat, m: nat)
    requires dx > 0.0 && StepCount(start, bound, dx, n) && StepCount(start, bound, dx, m)
    ensures n == m
  {
    if n < m {
      SampleMonotone(start, dx, n, m - 1);
    } else if m < n {
      SampleMonotone(start, dx, m, n - 1);
    }
  }

  /** A run one step later that needs n - 1 points, after a first value
      below the bound, makes a run of n points. */
  lemma StepCountShift(start: real, bound: real, dx: real, n: nat)
    requires n >= 2 && start + dx < bound && StepCount(start + dx, bound, dx, n - 1)
    ensures StepCount(start, bound, dx, n)
  {
    SampleShift(start, dx, n - 1);
    SampleShift(start, dx, n - 2);
    SampleShift(start, dx, 0);
  }

  /** A run that stops after its first value. */
  lemma StepCountOne(start: real, bound: real, dx: real)
    requires !(start + dx < bound)
    ensures StepCount(start, bound, dx, 1)
  {
    assert Sample(start, dx, 1) == start + dx;
  }

  /** With a step that is not positive the value never grows, so once the
      second value is below the bound every later one is too. */
  lemma NonPositiveStepNeverStops(start: real, bound: real, dx: real, k: nat)
    requires dx <= 0.0 && Sample(start, dx, 1) < bound && k >= 1
    ensures Sample(start, dx, k) < bound
  {
    assert ((k - 1) as real) * dx <= 0.0;
    assert (k as real) * dx == ((k - 1) as real) * dx + dx;
  }

  lemma MulCancel(a: real, b: real, c: real)
    requires c > 0.0 && a * c == b * c
    ensures a == b
  {
  }

  function Remaining(x: real, bound: real, dx: real): nat
    requires dx > 0.0
  {
    if x < bound then ((bound - x) / dx).Floor as nat + 1 else 0
  }

  lemma RemainingDecreases(x: real, bound: real, dx: real)
    requires dx > 0.0 && x + dx < bound
    ensures Remaining(x + dx, bound, dx) < Remaining(x, bound, dx)
  {
    var q := (bound - x) / dx;
    var q' := (bound - (x + dx)) / dx;
    assert q * dx == bound - x;
    assert q' * dx == bound - (x + dx);
    MulCancel(q', q - 1.0, dx);
  }

  /** The loop of `generate_fx` from x: y = f(x) is added, then x grows by
      dx while it stays below the bound. */
  function StepsFx(expr: string, x: real, bound: real, dx: real, eval: Eval, d: Dataset): (r: Outcome)
    requires dx > 0.0
    ensures r.Done? || r.Failed?
    ensures r.Done? ==> |r.d.points| > |d.points| && r.d.points[..|d.points|] == d.points
    ensures r.Done? && Tracks(d) ==> Tracks(r.d)
    ensures r.Done? ==> r.d.xerror == d.xerror && r.d.yerror == d.yerror
    decreases Remaining(x, bound, dx)
  {
    match eval(expr, map["x" := x])
    case None => Failed("Evaluation of \"" + expr + "\" failed: ")
    case Some(y) =>
      var d' := AddPt(d, x, y, 0.0, 0.0);
      if x + dx < bound then
        RemainingDecreases(x, bound, dx);
        var r := StepsFx(expr, x + dx, bound, dx, eval, d');
        assert r.Done? ==> r.d.points[..|d.points|] == d.points by {
          if r.Done? {
            assert r.d.points[..|d'.points|][..|d.points|] == d'.points[..|d.points|];
          }
        }
        r
      else Done(d')
  }

  /** The k-th point `generate_fx` adds lies at x + k*dx, with y the
      expression's value there. */
  predicate FxPoint(expr: string, x: real, dx: real, eval: Eval, pts: seq<Point>, base: nat, k: nat)
    requires base + k < |pts|
  {
    var xk := Sample(x, dx, k);
    eval(expr, map["x" := xk]).Some? && pts[base + k] == Point(xk, eval(expr, map["x" := xk]).value, 0.0, 0.0)
  }

  lemma FxPointShift(expr: string, x: real, dx: real, eval: Eval, pts: seq<Point>, base: nat, k: nat)
    requires 1 <= k && base + k < |pts|
    requires FxPoint(expr, x + dx, dx, eval, pts, base + 1, k - 1)
    ensures FxPoint(expr, x, dx, eval, pts, base, k)
  {
    SampleShift(x, dx, k - 1);
    assert base + k == (base + 1) + (k - 1);
  }

  /** The points `generate_fx` adds: as many as the stepping rule gives, the
      k-th at x + k*dx with y = f(x + k*dx). */
  lemma {:induction false} StepsFxPoints(expr: string, x: real, bound: real, dx: real, eval: Eval, d: Dataset)
    requires dx > 0.0
    ensures var r := StepsFx(expr, x, bound, dx, eval, d);
      r.Done? ==>
        && StepCount(x, bound, dx, |r.d.points| - |d.points|)
        && forall k :: 0 <= k < |r.d.points| - |d.points| ==> FxPoint(expr, x, dx, eval, r.d.points, |d.points|, k)
    decreases Remaining(x, bound, dx)
  {
    var r := StepsFx(expr, x, bound, dx, eval, d);
    if r.Done? {
      var y := eval(expr, map["x" := x]).value;
      var d' := AddPt(d, x, y, 0.0, 0.0);
      assert x == Sample(x, dx, 0);
      if x + dx < bound {
        RemainingDecreases(x, bound, dx);
        assert r == StepsFx(expr, x + dx, bound, dx, eval, d');
        StepsFxPoints(expr, x + dx, bound, dx, eval, d');
        var n := |r.d.points| - |d.points|;
        StepCountShift(x, bound, dx, n);
        assert FxPoint(expr, x, dx, eval, r.d.points, |d.points|, 0) by {
          assert r.d.points[..|d'.points|] == d'.points;
          assert r.d.points[|d.points|] == d'.points[|d.points|];
        }
        forall k | 1 <= k < n
          ensures FxPoint(expr, x, dx, eval, r.d.points, |d.points|, k)
        {
          FxPointShift(expr, x, dx, eval, r.d.points, |d.points|, k);
        }
      } else {
        StepCountOne(x, bound, dx);
      }
    }
  }

  /** With a positive step the loop evaluates the k-th value of the run from
      start: the first always, a later one when it is below the bound. */
  predicate Visited(start: real, bound: real, dx: real, k: nat)
  {
    k == 0 || Sample(start, dx, k) < bound
  }

  /** With a positive step, no value after the first is visited once the
      second is not below the bound. */
  lemma PastBound(start: real, bound: real, dx: real, j: nat)
    requires dx > 0.0 && !(Sample(start, dx, j + 1) < bound)
    ensures forall k: nat :: k > j ==> !Visited(start, bound, dx, k)
  {
    forall k: nat | k > j
      ensures Sample(start, dx, k) >= bound
    {
      SampleMonotone(start, dx, j + 1, k);
    }
  }

  /** The loop of `generate_fx` raises exactly when the expression is
      undefined at some value the loop visits. */
  lemma {:induction false} StepsFxFails(expr: string, x: real, bound: real, dx: real, eval: Eval, d: Dataset)
    requires dx > 0.0
    ensures StepsFx(expr, x, bound, dx, eval, d).Failed? <==>
      exists k: nat :: Visited(x, bound, dx, k) && !FxDefinedAt(expr, x, dx, eval, k)
    decreases Remaining(x, bound, dx)
  {
    assert Sample(x, dx, 0) == x;
    assert Sample(x, dx, 1) == x + dx;
    match eval(expr, map["x" := x])
    case None =>
      assert Visited(x, bound, dx, 0) && !FxDefinedAt(expr, x, dx, eval, 0);
    case Some(y) =>
      var d' := AddPt(d, x, y, 0.0, 0.0);
      if x + dx < bound {
        RemainingDecreases(x, bound, dx);
        var r := StepsFx(expr, x + dx, bound, dx, eval, d');
        assert StepsFx(expr, x, bound, dx, eval, d) == r;
        StepsFxFails(expr, x + dx, bound, dx, eval, d');
        if r.Failed? {
          var k': nat :| Visited(x + dx, bound, dx, k') && !FxDefinedAt(expr, x + dx, dx, eval, k');
          SampleShift(x, dx, k');
          assert Visited(x, bound, dx, k' + 1) && !FxDefinedAt(expr, x, dx, eval, k' + 1);
        } else {
          forall k: nat | Visited(x, bound, dx, k)
            ensures FxDefinedAt(expr, x, dx, eval, k)
          {
            if k > 0 {
              SampleShift(x, dx, k - 1);
              assert Visited(x + dx, bound, dx, k - 1);
            }
          }
        }
      } else {
        PastBound(x, bound, dx, 0);
      }
  }

  /** The expression is defined at the k-th value of the run from start. */
  predicate FxDefinedAt(expr: string, start: real, dx: real, eval: Eval, k: nat)
  {
    eval(expr, map["x" := Sample(start, dx, k)]).Some?
  }

  /** The expression is defined at every value of the run from start: a
      loop that never stops on its own then never raises either. */
  ghost predicate FxDefinedFrom(expr: string, start: real, dx: real, eval: Eval)
  {
    forall k: nat :: FxDefinedAt(expr, start, dx, eval, k)
  }

  /** `generate_fx`: the first point is always at xmin; further points are
      xmin + k*dx while below xmax + dx/2. With a step that is not positive
      and a second value below the bound the loop condition stays true, so
      the loop ends only at the first value whose evaluation raises. */
  ghost function GenerateFx(d: Dataset, expr: string, xmin: real, xmax: real, dx: real, eval: Eval): (r: Outcome)
    ensures dx > 0.0 ==> r.Done? || r.Failed?
    ensures r.Done? ==> |r.d.points| > |d.points| && r.d.points[..|d.points|] == d.points
    ensures r.Done? ==> StepCount(xmin, xmax + dx / 2.0, dx, |r.d.points| - |d.points|)
    ensures r.Done? ==> forall k :: 0 <= k < |r.d.points| - |d.points| ==>
              FxPoint(expr, xmin, dx, eval, r.d.points, |d.points|, k)
    ensures r.Done? && Tracks(d) ==> Tracks(r.d)
    ensures r.Unbounded? <==>
      dx <= 0.0 && Sample(xmin, dx, 1) < xmax + dx / 2.0 && FxDefinedFrom(expr, xmin, dx, eval)
    ensures dx <= 0.0 && Sample(xmin, dx, 1) < xmax + dx / 2.0 && !FxDefinedFrom(expr, xmin, dx, eval) ==>
      r.Failed?
    ensures dx > 0.0 ==> (r.Failed? <==>
      exists k: nat :: Visited(xmin, xmax + dx / 2.0, dx, k) && !FxDefinedAt(expr, xmin, dx, eval, k))
    ensures dx <= 0.0 && !(Sample(xmin, dx, 1) < xmax + dx / 2.0) ==>
      (r.Failed? <==> !FxDefinedAt(expr, xmin, dx, eval, 0))
  {
    var bound := xmax + dx / 2.0;
    if dx > 0.0 then
      StepsFxPoints(expr, xmin, bound, dx, eval, d);
      StepsFxFails(expr, xmin, bound, dx, eval, d);
      StepsFx(expr, xmin, bound, dx, eval, d)
    else
      assert Sample(xmin, dx, 0) == xmin && Sample(xmin, dx, 1) == xmin + dx;
      match eval(expr, map["x" := xmin])
      case None =>
        assert !FxDefinedAt(expr, xmin, dx, eval, 0);
        Failed("Evaluation of \"" + expr + "\" failed: ")
      case Some(y) =>
        if xmin + dx < bound then
          if FxDefinedFrom(expr, xmin, dx, eval) then Unbounded
          else Failed("Evaluation of \"" + expr + "\" failed: ")
        else
          var d' := AddPt(d, xmin, y, 0.0, 0.0);
          assert d'.points[..|d.points|] == d.points;
          assert FxPoint(expr, xmin, dx, eval, d'.points, |d.points|, 0);
          Done(d')
  }

  /** `generate 'sqrt(x)', 1, 5, -1`: the loop never stops on its own, and
      it raises at x = -1, the third value, where the square root is not
      defined. */
  lemma SqrtStepsDown(d: Dataset, ev: Eval)
    requires ev("sqrt(x)", map["x" := -1.0]).None?
    ensures GenerateFx(d, "sqrt(x)", 1.0, 5.0, -1.0, ev).Failed?
  {
    assert Sample(1.0, -1.0, 2) == -1.0;
    assert !FxDefinedAt("sqrt(x)", 1.0, -1.0, ev, 2);
  }

  /** The curve y = sin(x) over [0, 6.28] with step 1.57 has five points:
      the bound 6.28 + 0.785 admits x = 6.28 but not x = 7.85. */
  lemma FiveSamples(d: Dataset, eval: Eval)
    ensures var r := GenerateFx(d, "sin(x)", 0.0, 6.28, 1.57, eval);
      r.Done? ==> |r.d.points| == |d.points| + 5
  {
    var r := GenerateFx(d, "sin(x)", 0.0, 6.28, 1.57, eval);
    assert StepCount(0.0, 6.28 + 1.57 / 2.0, 1.57, 5);
    if r.Done? {
      StepCountUnique(0.0, 6.28 + 1.57 / 2.0, 1.57, 5, |r.d.points| - |d.points|);
    }
  }

  /** The x binding `generate_xyt` gives x(t): nothing on the first step
      (the local is still nil), the previous x afterwards. */
  function XBindings(t: real, prevX: Option<real>): map<string, real>
  {
    match prevX
    case None => map["t" := t]
    case Some(x) => map["t" := t, "x" := x]
  }

  /** The loop of `generate_xyt` from t. */
  function StepsXyt(xexpr: string, yexpr: string, t: real, prevX: Option<real>, bound: real, dt: real,
                    eval: Eval, d: Dataset): (r: Outcome)
    requires dt > 0.0
    ensures r.Done? || r.Failed?
    ensures r.Done? ==> |r.d.points| > |d.points| && r.d.points[..|d.points|] == d.points
    ensures r.Done? && Tracks(d) ==> Tracks(r.d)
    decreases Remaining(t, bound, dt)
  {
    match eval(xexpr, XBindings(t, prevX))
    case None => Failed("Evaluation of \"" + xexpr + ", " + yexpr + "\" failed: ")
    case Some(x) =>
      match eval(yexpr, map["t" := t, "x" := x])
      case None => Failed("Evaluation of \"" + xexpr + ", " + yexpr + "\" failed: ")
      case Some(y) =>
        var d' := AddPt(d, x, y, 0.0, 0.0);
        if t + dt < bound then
          RemainingDecreases(t, bound, dt);
          var r := StepsXyt(xexpr, yexpr, t + dt, Some(x), bound, dt, eval, d');
          assert r.Done? ==> r.d.points[..|d.points|] == d.points by {
            if r.Done? {
              assert r.d.points[..|d'.points|][..|d.points|] == d'.points[..|d.points|];
            }
          }
          r
        else Done(d')
  }

  /** The k-th point `generate_xyt` adds is evaluated at t + k*dt: x(t) sees
      the previous point's x, y(t) sees this point's x. */
  predicate XytPoint(xexpr: string, yexpr: string, t: real, dt: real, prevX: Option<real>, eval: Eval,
                     pts: seq<Point>, base: nat, k: nat)
    requires base + k < |pts|
  {
    var tk := Sample(t, dt, k);
    var p := pts[base + k];
    && eval(yexpr, map["t" := tk, "x" := p.x]) == Some(p.y)
    && eval(xexpr, XBindings(tk, if k == 0 then prevX else Some(pts[base + k - 1].x))) == Some(p.x)
    && p.xerr == 0.0 && p.yerr == 0.0
  }

  lemma XytPointShift(xexpr: string, yexpr: string, t: real, dt: real, prevX: Option<real>, x: real,
                      eval: Eval, pts: seq<Point>, base: nat, k: nat)
    requires 1 <= k && base + k < |pts| && pts[base].x == x
    requires XytPoint(xexpr, yexpr, t + dt, dt, Some(x), eval, pts, base + 1, k - 1)
    ensures XytPoint(xexpr, yexpr, t, dt, prevX, eval, pts, base, k)
  {
    SampleShift(t, dt, k - 1);
    assert base + k == (base + 1) + (k - 1);
  }

  /** The points `generate_xyt` adds: as many as the stepping rule gives,
      each evaluated at its own t. */
  lemma {:induction false} StepsXytPoints(xexpr: string, yexpr: string, t: real, prevX: Option<real>, bound: real,
                                          dt: real, eval: Eval, d: Dataset)
    requires dt > 0.0
    ensures var r := StepsXyt(xexpr, yexpr, t, prevX, bound, dt, eval, d);
      r.Done? ==>
        && StepCount(t, bound, dt, |r.d.points| - |d.points|)
        && forall k :: 0 <= k < |r.d.points| - |d.points| ==>
             XytPoint(xexpr, yexpr, t, dt, prevX, eval, r.d.points, |d.points|, k)
    decreases Remaining(t, bound, dt)
  {
    match eval(xexpr, XBindings(t, prevX))
    case None =>
    case Some(x) =>
      match eval(yexpr, map["t" := t, "x" := x])
      case None =>
      case Some(y) =>
        var d' := AddPt(d, x, y, 0.0, 0.0);
        if t + dt < bound {
          RemainingDecreases(t, bound, dt);
          var r := StepsXyt(xexpr, yexpr, t + dt, Some(x), bound, dt, eval, d');
          assert StepsXyt(xexpr, yexpr, t, prevX, bound, dt, eval, d) == r;
          StepsXytPoints(xexpr, yexpr, t + dt, Some(x), bound, dt, eval, d');
          if r.Done? {
            XytPrepend(xexpr, yexpr, t, t + dt, bound, dt, prevX, x, y, eval, d, |d'.points|, r.d.points);
          }
        } else {
          StepCountOne(t, bound, dt);
          assert Sample(t, dt, 0) == t;
          assert d'.points[|d.points| + 0] == Point(x, y, 0.0, 0.0);
        }
  }

  /** The inductive step of StepsXytPoints: the first point in front of the
      run that starts one step later. */
  lemma XytPrepend(xexpr: string, yexpr: string, t: real, t1: real, bound: real, dt: real, prevX: Option<real>,
                   x: real, y: real, eval: Eval, d: Dataset, base1: nat, pts: seq<Point>)
    requires t1 == t + dt && t1 < bound && base1 == |d.points| + 1
    requires eval(xexpr, XBindings(t, prevX)) == Some(x) && eval(yexpr, map["t" := t, "x" := x]) == Some(y)
    requires base1 <= |pts| && pts[..base1] == d.points + [Point(x, y, 0.0, 0.0)]
    requires StepCount(t1, bound, dt, |pts| - base1)
    requires forall k :: 0 <= k < |pts| - base1 ==> XytPoint(xexpr, yexpr, t1, dt, Some(x), eval, pts, base1, k)
    ensures StepCount(t, bound, dt, |pts| - |d.points|)
    ensures forall k :: 0 <= k < |pts| - |d.points| ==> XytPoint(xexpr, yexpr, t, dt, prevX, eval, pts, |d.points|, k)
  {
    var n := |pts| - |d.points|;
    StepCountShift(t, bound, dt, n);
    assert pts[|d.points|] == (d.points + [Point(x, y, 0.0, 0.0)])[|d.points|];
    assert Sample(t, dt, 0) == t;
    forall k | 1 <= k < n
      ensures XytPoint(xexpr, yexpr, t, dt, prevX, eval, pts, |d.points|, k)
    {
      XytPointShift(xexpr, yexpr, t, dt, prevX, x, eval, pts, |d.points|, k);
    }
  }

  /** The x value `generate_xyt` computes at the k-th value of the run from
      t0, when the evaluations of x(t) and y(t) at that value and at every
      earlier one succeed; None from the first one that raises. */
  function XytRun(xexpr: string, yexpr: string, t0: real, dt: real, eval: Eval, k: nat): Option<real>
    decreases k
  {
    var prevX := if k == 0 then None else XytRun(xexpr, yexpr, t0, dt, eval, k - 1);
    if k > 0 && prevX.None? then None
    else
      var tk := Sample(t0, dt, k);
      match eval(xexpr, XBindings(tk, prevX))
      case None => None
      case Some(x) => if eval(yexpr, map["t" := tk, "x" := x]).Some? then Some(x) else None
  }

  /** Once a run has raised it has no later values. */
  lemma {:induction false} XytRunStops(xexpr: string, yexpr: string, t0: real, dt: real, eval: Eval, j: nat, k: nat)
    requires j <= k && XytRun(xexpr, yexpr, t0, dt, eval, j).None?
    ensures XytRun(xexpr, yexpr, t0, dt, eval, k).None?
    decreases k - j
  {
    if j < k {
      XytRunStops(xexpr, yexpr, t0, dt, eval, j, k - 1);
    }
  }

  /** The loop of `generate_xyt` entered at the j-th value of the run from
      t0, with the x of the value before, raises exactly when a value it
      visits from there on is one where the run has raised. */
  lemma {:induction false} StepsXytFails(xexpr: string, yexpr: string, t0: real, j: nat, bound: real, dt: real,
                                         eval: Eval, d: Dataset)
    requires dt > 0.0
    requires j == 0 || (XytRun(xexpr, yexpr, t0, dt, eval, j - 1).Some? && Sample(t0, dt, j) < bound)
    ensures var prevX := if j == 0 then None else XytRun(xexpr, yexpr, t0, dt, eval, j - 1);
      StepsXyt(xexpr, yexpr, Sample(t0, dt, j), prevX, bound, dt, eval, d).Failed? <==>
        exists k: nat :: j <= k && Visited(t0, bound, dt, k) && XytRun(xexpr, yexpr, t0, dt, eval, k).None?
    decreases Remaining(Sample(t0, dt, j), bound, dt)
  {
    var t := Sample(t0, dt, j);
    var prevX := if j == 0 then None else XytRun(xexpr, yexpr, t0, dt, eval, j - 1);
    assert Visited(t0, bound, dt, j);
    assert t + dt == Sample(t0, dt, j + 1);
    match eval(xexpr, XBindings(t, prevX))
    case None =>
      assert XytRun(xexpr, yexpr, t0, dt, eval, j).None?;
    case Some(x) =>
      match eval(yexpr, map["t" := t, "x" := x])
      case None =>
        assert XytRun(xexpr, yexpr, t0, dt, eval, j).None?;
      case Some(y) =>
        assert XytRun(xexpr, yexpr, t0, dt, eval, j) == Some(x);
        var d' := AddPt(d, x, y, 0.0, 0.0);
        if t + dt < bound {
          RemainingDecreases(t, bound, dt);
          assert StepsXyt(xexpr, yexpr, t, prevX, bound, dt, eval, d)
              == StepsXyt(xexpr, yexpr, Sample(t0, dt, j + 1), Some(x), bound, dt, eval, d');
          StepsXytFails(xexpr, yexpr, t0, j + 1, bound, dt, eval, d');
        } else {
          PastBound(t0, bound, dt, j);
        }
  }

  /** Both expressions are defined at every value of the run from t0. */
  ghost predicate XytDefinedFrom(xexpr: string, yexpr: string, t0: real, dt: real, eval: Eval)
  {
    forall k: nat :: XytRun(xexpr, yexpr, t0, dt, eval, k).Some?
  }

  /** `generate_xyt`: the stepping rule of `generate_fx` over t. */
  ghost function GenerateXyt(d: Dataset, xexpr: string, yexpr: string, tmin: real, tmax: real, dt: real,
                             eval: Eval): (r: Outcome)
    ensures dt > 0.0 ==> r.Done? || r.Failed?
    ensures r.Done? ==> |r.d.points| > |d.points| && r.d.points[..|d.points|] == d.points
    ensures r.Done? ==> StepCount(tmin, tmax + dt / 2.0, dt, |r.d.points| - |d.points|)
    ensures r.Done? ==> forall k :: 0 <= k < |r.d.points| - |d.points| ==>
              XytPoint(xexpr, yexpr, tmin, dt, None, eval, r.d.points, |d.points|, k)
    ensures r.Done? && Tracks(d) ==> Tracks(r.d)
    ensures r.Unbounded? <==>
      dt <= 0.0 && Sample(tmin, dt, 1) < tmax + dt / 2.0 && XytDefinedFrom(xexpr, yexpr, tmin, dt, eval)
    ensures dt <= 0.0 && Sample(tmin, dt, 1) < tmax + dt / 2.0 && !XytDefinedFrom(xexpr, yexpr, tmin, dt, eval) ==>
      r.Failed?
    ensures dt > 0.0 ==> (r.Failed? <==>
      exists k: nat :: Visited(tmin, tmax + dt / 2.0, dt, k) && XytRun(xexpr, yexpr, tmin, dt, eval, k).None?)
    ensures dt <= 0.0 && !(Sample(tmin, dt, 1) < tmax + dt / 2.0) ==>
      (r.Failed? <==> XytRun(xexpr, yexpr, tmin, dt, eval, 0).None?)
  {
    var bound := tmax + dt / 2.0;
    if dt > 0.0 then
      StepsXytPoints(xexpr, yexpr, tmin, None, bound, dt, eval, d);
      assert Sample(tmin, dt, 0) == tmin;
      StepsXytFails(xexpr, yexpr, tmin, 0, bound, dt, eval, d);
      StepsXyt(xexpr, yexpr, tmin, None, bound, dt, eval, d)
    else
      assert Sample(tmin, dt, 0) == tmin && Sample(tmin, dt, 1) == tmin + dt;
      match eval(xexpr, XBindings(tmin, None))
      case None =>
        assert XytRun(xexpr, yexpr, tmin, dt, eval, 0).None?;
        Failed("Evaluation of \"" + xexpr + ", " + yexpr + "\" failed: ")
      case Some(x) =>
        match eval(yexpr, map["t" := tmin, "x" := x])
        case None =>
          assert XytRun(xexpr, yexpr, tmin, dt, eval, 0).None?;
          Failed("Evaluation of \"" + xexpr + ", " + yexpr + "\" failed: ")
        case Some(y) =>
          if tmin + dt < bound then
            if XytDefinedFrom(xexpr, yexpr, tmin, dt, eval) then Unbounded
            else Failed("Evaluation of \"" + xexpr + ", " + yexpr + "\" failed: ")
          else
            var d' := AddPt(d, x, y, 0.0, 0.0);
            assert d'.points[..|d.points|] == d.points;
            assert XytPoint(xexpr, yexpr, tmin, dt, None, eval, d'.points, |d.points|, 0);
            Done(d')
  }

  // ---------------------------------------------------------------------------
  // Reading rows (read)
  // ---------------------------------------------------------------------------

  /** The options of `read` after defaults: columns are 1-based; shifts are
      expressions in x. */
  datatype ReadOptions = ReadOptions(xcol: int, ycol: int, xerrcol: int, yerrcol: int, every: int,
                                     xshift: Option<string>, yshift: Option<string>)

  function MaxCol(o: ReadOptions): int
  {
    var a := if o.xcol > o.ycol then o.xcol else o.ycol;
    var b := if o.xerrcol > o.yerrcol then o.xerrcol else o.yerrcol;
    if a > b then a else b
  }

  /** Ruby's `words[i]`: negative indices count from the end; out of range is
      nil. */
  function RubyAt(words: seq<string>, i: int): (r: Option<string>)
    ensures 0 <= i < |words| ==> r == Some(words[i])
    ensures -|words| <= i < 0 ==> r == Some(words[|words| + i])
    ensures i >= |words| || i < -|words| ==> r.None?
  {
    if 0 <= i < |words| then Some(words[i])
    else if -|words| <= i < 0 then Some(words[|words| + i])
    else None
  }

  /** `.to_f` on a field, with nil giving 0.0. */
  function FieldValue(f: Option<string>, toF: string -> real): real
  {
    match f
    case None => 0.0
    case Some(s) => toF(s)
  }

  /** A line is used when it does not start with '#' and has at least as many
      fields as the largest column asked for. */
  predicate Qualifies(line: string, words: seq<string>, maxcol: int)
  {
    !(|line| > 0 && line[0] == '#') && |words| >= maxcol
  }

  /** The fields of the qualifying lines, in file order. */
  function QualifyingRows(lines: seq<string>, split: string -> seq<string>, maxcol: int): seq<seq<string>>
  {
    if lines == [] then []
    else
      var rest := QualifyingRows(lines[1..], split, maxcol);
      if Qualifies(lines[0], split(lines[0]), maxcol) then [split(lines[0])] + rest else rest
  }

  /** Every row is the split of a qualifying line, and every qualifying
      line gives a row. */
  lemma {:induction false} QualifyingRowsExactly(lines: seq<string>, split: string -> seq<string>, maxcol: int)
    ensures var rows := QualifyingRows(lines, split, maxcol);
      && |rows| <= |lines|
      && (forall r :: r in rows ==> exists i :: 0 <= i < |lines| && r == split(lines[i]) && Qualifies(lines[i], r, maxcol))
      && (forall i :: 0 <= i < |lines| && Qualifies(lines[i], split(lines[i]), maxcol) ==> split(lines[i]) in rows)
  {
    if lines != [] {
      QualifyingRowsExactly(lines[1..], split, maxcol);
      forall i | 1 <= i < |lines| ensures lines[1..][i - 1] == lines[i] { }
    }
  }

  /** Every row whose 1-based position is a multiple of every. */
  function Abs(every: int): nat
  {
    if every >= 0 then every else -every
  }

  function Stride(rows: seq<seq<string>>, every: int): (kept: seq<seq<string>>)
    requires every != 0
  {
    var n := Abs(every);
    seq(|rows| / n, k requires 0 <= k < |rows| / n => StrideIndex(|rows|, n, k); rows[Slot(k, n)])
  }

  /** The position of the k-th kept row, (k + 1) * n - 1, built up by steps
      of n. */
  function Slot(k: nat, n: nat): int
  {
    if k == 0 then n - 1 else Slot(k - 1, n) + n
  }

  lemma {:induction false} SlotIsProduct(k: nat, n: nat)
    ensures Slot(k, n) == (k + 1) * n - 1
  {
    if k > 0 {
      SlotIsProduct(k - 1, n);
      assert (k + 1) * n == k * n + n;
    }
  }

  lemma StrideIndex(len: nat, n: nat, k: nat)
    requires n > 0 && k < len / n
    ensures 0 <= Slot(k, n) < len
  {
    SlotIsProduct(k, n);
    MulAtLeast(k + 1, n);
    MulMono(k, len / n, n);
    assert len == (len / n) * n + len % n;
    assert (k + 1) * n == k * n + n;
  }


  /** The rows the `every` counter keeps, counting on from count rows
      already seen. */
  function Picked(rows: seq<seq<string>>, every: int, count: nat): seq<seq<string>>
    requires every != 0
  {
    if rows == [] then []
    else (if (count + 1) % every == 0 then [rows[0]] else []) + Picked(rows[1..], every, count + 1)
  }

  lemma {:induction false} MulAtLeast(d: nat, n: nat)
    requires d >= 1
    ensures d * n >= n
  {
    if d > 1 {
      MulAtLeast(d - 1, n);
      assert d * n == (d - 1) * n + n;
    }
  }

  lemma MulMono(a: int, b: int, n: int)
    requires n > 0 && a < b
    ensures a * n + n <= b * n
  {
    MulAtLeast(b - a, n);
    assert b * n == a * n + (b - a) * n;
  }

  /** Euclidean division is determined by quotient and remainder. */
  lemma DivMod(x: int, n: int, q: int, r: int)
    requires n > 0 && x == q * n + r && 0 <= r < n
    ensures x / n == q && x % n == r
  {
    var q0, r0 := x / n, x % n;
    assert x == q0 * n + r0;
    if q0 < q {
      MulMono(q0, q, n);
    } else if q < q0 {
      MulMono(q, q0, n);
    }
  }

  /** Divisibility by a negative number is divisibility by its magnitude. */
  lemma ModAbs(x: int, every: int)
    requires every != 0
    ensures x % every == x % Abs(every)
  {
    if every < 0 {
      var q0, r0 := x / every, x % every;
      assert x == every * q0 + r0 && 0 <= r0 < Abs(every);
      assert every * q0 == (-q0) * Abs(every);
      DivMod(x, Abs(every), -q0, r0);
    }
  }

  /** Rows at which the running count reaches a multiple of n, given the
      remainder rem of the count so far. */
  predicate StridesFrom(r: seq<seq<string>>, rows: seq<seq<string>>, n: nat, rem: nat)
  {
    && Slot(|r|, n) - n < rem + |rows| <= Slot(|r|, n)
    && forall k :: 0 <= k < |r| ==> 0 <= Slot(k, n) - rem < |rows| && r[k] == rows[Slot(k, n) - rem]
  }

  /** A kept row in front of a run that restarts its count. */
  lemma StridesHit(r: seq<seq<string>>, rows: seq<seq<string>>, n: nat)
    requires n > 0 && rows != [] && StridesFrom(r, rows[1..], n, 0)
    ensures StridesFrom([rows[0]] + r, rows, n, n - 1)
  {
    var r' := [rows[0]] + r;
    assert Slot(|r'|, n) == Slot(|r|, n) + n;
    forall k | 0 <= k < |r'|
      ensures 0 <= Slot(k, n) - (n - 1) < |rows| && r'[k] == rows[Slot(k, n) - (n - 1)]
    {
      if k > 0 {
        assert r'[k] == r[k - 1];
        assert Slot(k, n) == Slot(k - 1, n) + n;
      }
    }
  }

  /** A skipped row in front of a run whose count is one further. */
  lemma StridesMiss(r: seq<seq<string>>, rows: seq<seq<string>>, n: nat, rem: nat)
    requires n > 0 && rows != [] && StridesFrom(r, rows[1..], n, rem + 1)
    ensures StridesFrom(r, rows, n, rem)
  {
    forall k | 0 <= k < |r|
      ensures 0 <= Slot(k, n) - rem < |rows| && r[k] == rows[Slot(k, n) - rem]
    {
      assert rows[1..][Slot(k, n) - (rem + 1)] == rows[Slot(k, n) - rem];
    }
  }

  /** How the remainder moves when the count goes up by one. */
  lemma CountStep(count: nat, n: nat)
    requires n > 0
    ensures count % n + 1 == n ==> (count + 1) % n == 0
    ensures count % n + 1 != n ==> (count + 1) % n == count % n + 1
  {
    var q, rem := count / n, count % n;
    assert count == q * n + rem;
    if rem + 1 == n {
      assert (q + 1) * n == q * n + n;
      DivMod(count + 1, n, q + 1, 0);
    } else {
      DivMod(count + 1, n, q, rem + 1);
    }
  }

  /** The row after count is kept exactly when the remainder of count wraps. */
  lemma KeepStep(count: nat, every: int)
    requires every != 0
    ensures (count + 1) % every == 0 <==> count % Abs(every) + 1 == Abs(every)
    ensures (count + 1) % Abs(every) == if count % Abs(every) + 1 == Abs(every) then 0 else count % Abs(every) + 1
  {
    ModAbs(count + 1, every);
    CountStep(count, Abs(every));
  }

  /** Picked with the count's remainder carried along instead of the count. */
  function PickedPhase(rows: seq<seq<string>>, n: nat, rem: nat): seq<seq<string>>
    requires rem < n
  {
    if rows == [] then []
    else if rem + 1 == n then [rows[0]] + PickedPhase(rows[1..], n, 0)
    else PickedPhase(rows[1..], n, rem + 1)
  }

  lemma {:induction false} PickedIsPhase(rows: seq<seq<string>>, every: int, count: nat)
    requires every != 0
    ensures Picked(rows, every, count) == PickedPhase(rows, Abs(every), count % Abs(every))
    decreases |rows|
  {
    if rows != [] {
      PickedIsPhase(rows[1..], every, count + 1);
      KeepStep(count, every);
    }
  }

  lemma {:induction false} PhaseStride(rows: seq<seq<string>>, n: nat, rem: nat)
    requires rem < n
    ensures StridesFrom(PickedPhase(rows, n, rem), rows, n, rem)
    decreases |rows|
  {
    if rows == [] {
      assert Slot(0, n) == n - 1;
    } else if rem + 1 == n {
      PhaseStride(rows[1..], n, 0);
      StridesHit(PickedPhase(rows[1..], n, 0), rows, n);
    } else {
      PhaseStride(rows[1..], n, rem + 1);
      StridesMiss(PickedPhase(rows[1..], n, rem + 1), rows, n, rem);
    }
  }

  /** The closed form of Picked: counting on from count, the kept rows are
      those at which the running count reaches a multiple of |every|. */
  lemma PickedStride(rows: seq<seq<string>>, every: int, count: nat)
    requires every != 0
    ensures StridesFrom(Picked(rows, every, count), rows, Abs(every), count % Abs(every))
  {
    PickedIsPhase(rows, every, count);
    PhaseStride(rows, Abs(every), count % Abs(every));
  }

  /** Picked from the start is Stride. */
  lemma PickedIsStride(rows: seq<seq<string>>, every: int)
    requires every != 0
    ensures Picked(rows, every, 0) == Stride(rows, every)
  {
    var n := Abs(every);
    DivMod(0, n, 0, 0);
    PickedStride(rows, every, 0);
    var r := Picked(rows, every, 0);
    SlotIsProduct(|r|, n);
    assert Slot(|r|, n) == |r| * n + n - 1;
    DivMod(|rows|, n, |r|, |rows| - |r| * n);
  }

  /** The point made from one kept row, or None when a shift fails. */
  function RowPoint(words: seq<string>, o: ReadOptions, xerror: bool, yerror: bool,
                    toF: string -> real, eval: Eval): Option<Point>
  {
    var x0 := FieldValue(RubyAt(words, o.xcol - 1), toF);
    var y0 := FieldValue(RubyAt(words, o.ycol - 1), toF);
    var xs := match o.xshift case None => Some(x0) case Some(e) => eval(e, map["x" := x0]);
    if xs.None? then None
    else
      var x := xs.value;
      var ys := match o.yshift case None => Some(y0) case Some(e) => eval(e, map["x" := x]);
      if ys.None? then None
      else
        var xerr := if xerror then FieldValue(RubyAt(words, o.xerrcol - 1), toF) else 0.0;
        var yerr := if yerror then FieldValue(RubyAt(words, o.yerrcol - 1), toF) else 0.0;
        Some(Point(x, ys.value, xerr, yerr))
  }

  /** The shift expression that fails on a row: the x shift when its
      evaluation fails, else the y shift. */
  function FailingShift(words: seq<string>, o: ReadOptions, xerror: bool, yerror: bool,
                        toF: string -> real, eval: Eval): (e: string)
    requires RowPoint(words, o, xerror, yerror, toF, eval).None?
    ensures var x0 := FieldValue(RubyAt(words, o.xcol - 1), toF);
      || (o.xshift == Some(e) && eval(e, map["x" := x0]).None?)
      || (&& (o.xshift.None? || eval(o.xshift.value, map["x" := x0]).Some?)
          && o.yshift == Some(e)
          && eval(e, map["x" := if o.xshift.None? then x0 else eval(o.xshift.value, map["x" := x0]).value]).None?)
  {
    var x0 := FieldValue(RubyAt(words, o.xcol - 1), toF);
    if o.xshift.Some? && eval(o.xshift.value, map["x" := x0]).None? then o.xshift.value
    else o.yshift.value
  }

  /** The loop of `read` over lines[i..], with count qualifying rows seen so
      far. */
  function ReadFrom(d: Dataset, lines: seq<string>, i: nat, count: nat, split: string -> seq<string>,
                    o: ReadOptions, toF: string -> real, eval: Eval): (r: Outcome)
    requires i <= |lines|
    ensures r.Done? ==> r.d.xerror == d.xerror && r.d.yerror == d.yerror
    ensures r.Done? && Tracks(d) ==> Tracks(r.d)
    ensures r.Done? ==> |d.points| <= |r.d.points| && r.d.points[..|d.points|] == d.points
    ensures r.ShiftFailed? ==> o.xshift == Some(r.expr) || o.yshift == Some(r.expr)
    ensures !r.Unbounded?
    decreases |lines| - i
  {
    if i == |lines| then Done(d)
    else
      var words := split(lines[i]);
      if !Qualifies(lines[i], words, MaxCol(o)) then ReadFrom(d, lines, i + 1, count, split, o, toF, eval)
      else if o.every == 0 then Failed("divided by 0")
      else if (count + 1) % o.every != 0 then ReadFrom(d, lines, i + 1, count + 1, split, o, toF, eval)
      else
        match RowPoint(words, o, d.xerror, d.yerror, toF, eval)
        case None => ShiftFailed(FailingShift(words, o, d.xerror, d.yerror, toF, eval))
        case Some(p) =>
          var d' := AddPt(d, p.x, p.y, p.xerr, p.yerr);
          var r := ReadFrom(d', lines, i + 1, count + 1, split, o, toF, eval);
          assert r.Done? ==> r.d.points[..|d.points|] == d.points by {
            if r.Done? {
              assert r.d.points[..|d'.points|][..|d.points|] == d'.points[..|d.points|];
            }
          }
          r
  }

  /** `Dataset#read` on the file's lines (None when the file cannot be read):
      sets the error flags for positive error columns, then reads the rows. */
  function Read(d: Dataset, lines: Option<seq<string>>, split: string -> seq<string>, o: ReadOptions,
                toF: string -> real, eval: Eval): (r: Outcome)
    ensures r.Done? ==> r.d.xerror == (d.xerror || o.xerrcol > 0)
    ensures r.Done? ==> r.d.yerror == (d.yerror || o.yerrcol > 0)
    ensures r.Done? && Tracks(d) ==> Tracks(r.d)
    ensures lines.None? ==> r.Failed?
    ensures r.ShiftFailed? ==> o.xshift == Some(r.expr) || o.yshift == Some(r.expr)
    ensures !r.Unbounded?
  {
    var d1 := d.(xerror := d.xerror || o.xerrcol > 0, yerror := d.yerror || o.yerrcol > 0);
    match lines
    case None => Failed("Unable to read data")
    case Some(ls) => ReadFrom(d1, ls, 0, 0, split, o, toF, eval)
  }

  /** A file whose one line is kept and whose shift fails on it gives the
      shift failure. */
  lemma OneLineShiftFails(d: Dataset, line: string, split: string -> seq<string>, o: ReadOptions,
                          toF: string -> real, eval: Eval)
    requires Qualifies(line, split(line), MaxCol(o)) && o.every == 1
    requires RowPoint(split(line), o, d.xerror || o.xerrcol > 0, d.yerror || o.yerrcol > 0, toF, eval).None?
    ensures Read(d, Some([line]), split, o, toF, eval).ShiftFailed?
  {
  }

  /** The points of the kept rows, or None when a shift fails on one. */
  function RowPoints(rows: seq<seq<string>>, o: ReadOptions, xerror: bool, yerror: bool,
                     toF: string -> real, eval: Eval): (r: Option<seq<Point>>)
    ensures r.Some? ==> |r.value| == |rows|
  {
    if rows == [] then Some([])
    else
      match RowPoint(rows[0], o, xerror, yerror, toF, eval)
      case None => None
      case Some(p) =>
        var rest := RowPoints(rows[1..], o, xerror, yerror, toF, eval);
        if rest.None? then None else Some([p] + rest.value)
  }

  /** The points of the kept rows exist exactly when every row converts, and
      are then the rows' points in order. */
  lemma {:induction false} RowPointsAll(rows: seq<seq<string>>, o: ReadOptions, xerror: bool, yerror: bool,
                                        toF: string -> real, eval: Eval)
    ensures var r := RowPoints(rows, o, xerror, yerror, toF, eval);
      && (r.Some? <==> forall k :: 0 <= k < |rows| ==> RowPoint(rows[k], o, xerror, yerror, toF, eval).Some?)
      && (r.Some? ==> forall k :: 0 <= k < |rows| ==> RowPoint(rows[k], o, xerror, yerror, toF, eval) == Some(r.value[k]))
  {
    if rows != [] {
      RowPointsAll(rows[1..], o, xerror, yerror, toF, eval);
      assert forall k :: 1 <= k < |rows| ==> rows[k] == rows[1..][k - 1];
    }
  }

  lemma RowPointsCons(words: seq<string>, rows: seq<seq<string>>, o: ReadOptions, xerror: bool, yerror: bool,
                      toF: string -> real, eval: Eval)
    ensures var p := RowPoint(words, o, xerror, yerror, toF, eval);
      var rest := RowPoints(rows, o, xerror, yerror, toF, eval);
      RowPoints([words] + rows, o, xerror, yerror, toF, eval)
        == if p.None? || rest.None? then None else Some([p.value] + rest.value)
  {
    assert ([words] + rows)[1..] == rows;
  }

  /** The claim of ReadFromRows for lines[i..]. */
  predicate ReadsRows(d: Dataset, lines: seq<string>, i: nat, count: nat, split: string -> seq<string>,
                      o: ReadOptions, toF: string -> real, eval: Eval)
    requires i <= |lines| && o.every != 0
  {
    var r := ReadFrom(d, lines, i, count, split, o, toF, eval);
    var pts := RowPoints(Picked(QualifyingRows(lines[i..], split, MaxCol(o)), o.every, count),
                         o, d.xerror, d.yerror, toF, eval);
    (r.Done? <==> pts.Some?) && (r.Done? ==> r.d.points == d.points + pts.value)
  }

  /** One line less: the qualifying rows of lines[i..] are those of
      lines[i + 1..], with lines[i]'s fields in front when it qualifies. */
  lemma QualifyingStep(lines: seq<string>, i: nat, split: string -> seq<string>, maxcol: int)
    requires i < |lines|
    ensures QualifyingRows(lines[i..], split, maxcol)
      == (if Qualifies(lines[i], split(lines[i]), maxcol) then [split(lines[i])] else [])
         + QualifyingRows(lines[i + 1..], split, maxcol)
  {
    assert lines[i..][1..] == lines[i + 1..];
    assert lines[i..][0] == lines[i];
  }

  lemma ReadSkipsLine(d: Dataset, lines: seq<string>, i: nat, count: nat, split: string -> seq<string>,
                      o: ReadOptions, toF: string -> real, eval: Eval)
    requires i < |lines| && o.every != 0 && !Qualifies(lines[i], split(lines[i]), MaxCol(o))
    requires ReadsRows(d, lines, i + 1, count, split, o, toF, eval)
    ensures ReadsRows(d, lines, i, count, split, o, toF, eval)
  {
    QualifyingStep(lines, i, split, MaxCol(o));
  }

  lemma ReadCountsLine(d: Dataset, lines: seq<string>, i: nat, count: nat, split: string -> seq<string>,
                       o: ReadOptions, toF: string -> real, eval: Eval)
    requires i < |lines| && o.every != 0 && Qualifies(lines[i], split(lines[i]), MaxCol(o))
    requires (count + 1) % o.every != 0
    requires ReadsRows(d, lines, i + 1, count + 1, split, o, toF, eval)
    ensures ReadsRows(d, lines, i, count, split, o, toF, eval)
  {
    QualifyingStep(lines, i, split, MaxCol(o));
    var rest := QualifyingRows(lines[i + 1..], split, MaxCol(o));
    assert Picked([split(lines[i])] + rest, o.every, count) == Picked(rest, o.every, count + 1) by {
      assert ([split(lines[i])] + rest)[1..] == rest;
    }
  }

  lemma ReadKeepsLine(d: Dataset, lines: seq<string>, i: nat, count: nat, split: string -> seq<string>,
                      o: ReadOptions, toF: string -> real, eval: Eval, p: Point)
    requires i < |lines| && o.every != 0 && Qualifies(lines[i], split(lines[i]), MaxCol(o))
    requires (count + 1) % o.every == 0
    requires RowPoint(split(lines[i]), o, d.xerror, d.yerror, toF, eval) == Some(p)
    requires ReadsRows(AddPt(d, p.x, p.y, p.xerr, p.yerr), lines, i + 1, count + 1, split, o, toF, eval)
    ensures ReadsRows(d, lines, i, count, split, o, toF, eval)
  {
    var words := split(lines[i]);
    QualifyingStep(lines, i, split, MaxCol(o));
    var rest := QualifyingRows(lines[i + 1..], split, MaxCol(o));
    var kept := Picked(rest, o.every, count + 1);
    assert Picked([words] + rest, o.every, count) == [words] + kept by {
      assert ([words] + rest)[1..] == rest;
    }
    RowPointsCons(words, kept, o, d.xerror, d.yerror, toF, eval);
    var d' := AddPt(d, p.x, p.y, p.xerr, p.yerr);
    assert ReadFrom(d, lines, i, count, split, o, toF, eval) == ReadFrom(d', lines, i + 1, count + 1, split, o, toF, eval);
  }

  lemma ReadFailsLine(d: Dataset, lines: seq<string>, i: nat, count: nat, split: string -> seq<string>,
                      o: ReadOptions, toF: string -> real, eval: Eval)
    requires i < |lines| && o.every != 0 && Qualifies(lines[i], split(lines[i]), MaxCol(o))
    requires (count + 1) % o.every == 0
    requires RowPoint(split(lines[i]), o, d.xerror, d.yerror, toF, eval).None?
    ensures ReadsRows(d, lines, i, count, split, o, toF, eval)
  {
    var words := split(lines[i]);
    QualifyingStep(lines, i, split, MaxCol(o));
    var rest := QualifyingRows(lines[i + 1..], split, MaxCol(o));
    var kept := Picked(rest, o.every, count + 1);
    assert Picked([words] + rest, o.every, count) == [words] + kept by {
      assert ([words] + rest)[1..] == rest;
    }
    RowPointsCons(words, kept, o, d.xerror, d.yerror, toF, eval);
  }

  /** With a non-zero `every`, reading succeeds exactly when every kept row
      converts, and appends those rows' points in order. */
  lemma {:induction false} ReadFromRows(d: Dataset, lines: seq<string>, i: nat, count: nat,
                                        split: string -> seq<string>, o: ReadOptions, toF: string -> real, eval: Eval)
    requires i <= |lines| && o.every != 0
    ensures ReadsRows(d, lines, i, count, split, o, toF, eval)
    decreases |lines| - i
  {
    if i == |lines| {
      assert lines[i..] == [];
    } else if !Qualifies(lines[i], split(lines[i]), MaxCol(o)) {
      ReadFromRows(d, lines, i + 1, count, split, o, toF, eval);
      ReadSkipsLine(d, lines, i, count, split, o, toF, eval);
    } else if (count + 1) % o.every != 0 {
      ReadFromRows(d, lines, i + 1, count + 1, split, o, toF, eval);
      ReadCountsLine(d, lines, i, count, split, o, toF, eval);
    } else {
      match RowPoint(split(lines[i]), o, d.xerror, d.yerror, toF, eval)
      case None =>
        ReadFailsLine(d, lines, i, count, split, o, toF, eval);
      case Some(p) =>
        ReadFromRows(AddPt(d, p.x, p.y, p.xerr, p.yerr), lines, i + 1, count + 1, split, o, toF, eval);
        ReadKeepsLine(d, lines, i, count, split, o, toF, eval, p);
    }
  }

  /** With `every` zero, the first qualifying row raises ZeroDivisionError;
      without one, nothing is read. */
  lemma {:induction false} ReadFromEveryZero(d: Dataset, lines: seq<string>, i: nat, count: nat,
                                             split: string -> seq<string>, o: ReadOptions, toF: string -> real, eval: Eval)
    requires i <= |lines| && o.every == 0
    ensures ReadFrom(d, lines, i, count, split, o, toF, eval)
      == if QualifyingRows(lines[i..], split, MaxCol(o)) == [] then Done(d) else Failed("divided by 0")
    decreases |lines| - i
  {
    if i < |lines| {
      assert lines[i..][1..] == lines[i + 1..];
      assert lines[i..][0] == lines[i];
      ReadFromEveryZero(d, lines, i + 1, count, split, o, toF, eval);
    }
  }

  /** `read`: a readable file with a non-zero `every` yields the points of
      every |every|-th qualifying line, in file order, unless a shift fails. */
  lemma ReadSelectsRows(d: Dataset, lines: seq<string>, split: string -> seq<string>, o: ReadOptions,
                        toF: string -> real, eval: Eval)
    requires o.every != 0
    ensures var r := Read(d, Some(lines), split, o, toF, eval);
      var pts := RowPoints(Stride(QualifyingRows(lines, split, MaxCol(o)), o.every), o,
                           d.xerror || o.xerrcol > 0, d.yerror || o.yerrcol > 0, toF, eval);
      (r.Done? <==> pts.Some?) && (r.Done? ==> r.d.points == d.points + pts.value)
  {
    var d1 := d.(xerror := d.xerror || o.xerrcol > 0, yerror := d.yerror || o.yerrcol > 0);
    assert lines[0..] == lines;
    ReadFromRows(d1, lines, 0, 0, split, o, toF, eval);
    PickedIsStride(QualifyingRows(lines, split, MaxCol(o)), o.every);
  }

  /** `read` with `every` zero fails exactly when some line qualifies. */
  lemma ReadEveryZero(d: Dataset, lines: seq<string>, split: string -> seq<string>, o: ReadOptions,
                      toF: string -> real, eval: Eval)
    requires o.every == 0
    ensures Read(d, Some(lines), split, o, toF, eval).Failed? <==> QualifyingRows(lines, split, MaxCol(o)) != []
  {
    var d1 := d.(xerror := d.xerror || o.xerrcol > 0, yerror := d.yerror || o.yerrcol > 0);
    assert lines[0..] == lines;
    ReadFromEveryZero(d1, lines, 0, 0, split, o, toF, eval);
  }
}

=== FILE: document.dfy ===
/** The document produced by the parser and consumed by the renderer: one
    tagged value type for JSON-like data (null, booleans, strings, numbers,
    arrays, and insertion-ordered objects). */
module Document {
  import opened Support

  datatype Value =
    | Nil
    | Bool(b: bool)
    | Str(s: string)
    | Num(r: real)
    | List(items: seq<Value>)
    | Dict(entries: seq<(string, Value)>)

  /** Ruby truthiness: only nil and false are false. */
  predicate Truthy(v: Value)
  {
    !(v.Nil? || v == Bool(false))
  }

  /** Ruby's `v[key]` with a String key on a parsed JSON value: a Hash gives
      the stored value (nil when absent); a String gives the key itself when
      it occurs in the string, and nil otherwise; nil, booleans, numbers and
      arrays raise, which is None here. */
  function Index(v: Value, key: string): (r: Option<Value>)
    ensures r.Some? <==> v.Dict? || v.Str?
    ensures v.Dict? && r.value != Nil ==> (key, r.value) in v.entries
    ensures v.Dict? && key !in Keys(v.entries) ==> r.value == Nil
    ensures v.Str? ==> r.value in {Nil, Str(key)}
  {
    match v
    case Dict(entries) =>
      (match Get(entries, key)
       case Some(x) => Some(x)
       case None => Some(Nil))
    case Str(s) => Some(if Contains(s, key) then Str(key) else Nil)
    case _ => None
  }

  /** Every object in the value has pairwise distinct keys, as every Ruby Hash
      (and so every parsed JSON object) does. */
  predicate WellFormed(v: Value)
  {
    match v
    case List(items) => forall i :: 0 <= i < |items| ==> WellFormed(items[i])
    case Dict(entries) =>
      UniqueKeys(entries) && forall i :: 0 <= i < |entries| ==> WellFormed(entries[i].1)
    case _ => true
  }

  /** The numbers of a list of reals, as a document array. */
  function NumList(xs: seq<real>): (r: Value)
    ensures r.List? && |r.items| == |xs|
    ensures forall i :: 0 <= i < |xs| ==> r.items[i] == Num(xs[i])
  {
    List(seq(|xs|, i requires 0 <= i < |xs| => Num(xs[i])))
  }

  /** A document array of strings. */
  function StrList(ss: seq<string>): (r: Value)
    ensures r.List? && |r.items| == |ss|
    ensures forall i :: 0 <= i < |ss| ==> r.items[i] == Str(ss[i])
  {
    List(seq(|ss|, i requires 0 <= i < |ss| => Str(ss[i])))
  }
}

=== FILE: expressions.dfy ===
/** The guard run before any user expression is evaluated: every maximal run
    of ASCII letters must be an allowed name. */
module Expressions {

  predicate IsLetter(c: char)
  {
    ('A' <= c <= 'Z') || ('a' <= c <= 'z')
  }

  /** The singleton methods and constants of Ruby's Math module. */
  const MathNames: set<string> := {
    "acos", "acosh", "asin", "asinh", "atan", "atan2", "atanh", "cbrt",
    "cos", "cosh", "erf", "erfc", "exp", "frexp", "gamma", "hypot", "ldexp",
    "lgamma", "log", "log10", "log2", "sin", "sinh", "sqrt", "tan", "tanh",
    "PI", "E", "DomainError"
  }

  /** The allowed names: the variables x and t, the Math names, and the
      names the GSL bindings export when they are installed (a host input;
      empty without GSL). */
  function Allowed(gsl: set<string>): (a: set<string>)
    ensures "x" in a && "t" in a
    ensures MathNames <= a && gsl <= a
  {
    {"x", "t"} + MathNames + gsl
  }

  datatype Verdict = Safe | Unsafe(word: string)

  /** s[i..j] is a maximal run of letters. */
  predicate IsRun(s: string, i: int, j: int)
  {
    && 0 <= i < j <= |s|
    && (forall m :: i <= m < j ==> IsLetter(s[m]))
    && (i == 0 || !IsLetter(s[i - 1]))
    && (j == |s| || !IsLetter(s[j]))
  }

  /** No run of letters is cut at k. */
  predicate Boundary(s: string, k: nat)
  {
    k <= |s| && (k == 0 || k == |s| || !IsLetter(s[k - 1]) || !IsLetter(s[k]))
  }

  /** The end of the run of letters that starts at j. */
  function RunEnd(s: string, j: nat): (r: nat)
    requires j <= |s|
    ensures j <= r <= |s|
    ensures forall m :: j <= m < r ==> IsLetter(s[m])
    ensures r == |s| || !IsLetter(s[r])
    decreases |s| - j
  {
    if j == |s| || !IsLetter(s[j]) then j else RunEnd(s, j + 1)
  }

  /** Runs that start at or after k are all allowed (Safe), or the first of
      them that is not allowed is reported. */
  function CheckFrom(s: string, k: nat, allowed: set<string>): (v: Verdict)
    requires Boundary(s, k)
    ensures v.Safe? <==> forall i, j :: k <= i && IsRun(s, i, j) ==> s[i..j] in allowed
    ensures v.Unsafe? ==> v.word !in allowed
    ensures v.Unsafe? ==>
      exists i, j :: (k <= i && IsRun(s, i, j) && s[i..j] == v.word &&
        forall i', j' :: k <= i' < i && IsRun(s, i', j') ==> s[i'..j'] in allowed)
    decreases |s| - k
  {
    if k == |s| then Safe
    else if !IsLetter(s[k]) then
      assert forall i, j :: k <= i && IsRun(s, i, j) ==> k + 1 <= i;
      CheckFrom(s, k + 1, allowed)
    else
      var j := RunEnd(s, k);
      RunsAfter(s, k, j);
      if s[k..j] in allowed then CheckFrom(s, j, allowed) else Unsafe(s[k..j])
  }

  /** When a run starts at k and ends at j, it is the only run starting in
      [k, j). */
  lemma RunsAfter(s: string, k: nat, j: nat)
    requires Boundary(s, k) && k < |s| && IsLetter(s[k])
    requires j == RunEnd(s, k)
    ensures IsRun(s, k, j)
    ensures forall i, j' :: k <= i && IsRun(s, i, j') ==> (i == k && j' == j) || j <= i
  {
  }

  /** `ExpressionChecker#check`: Safe exactly when every maximal run of
      letters is allowed; otherwise the leftmost run that is not. */
  function Check(expr: string, allowed: set<string>): (v: Verdict)
    ensures v.Safe? <==> forall i, j :: IsRun(expr, i, j) ==> expr[i..j] in allowed
    ensures v.Unsafe? ==> v.word !in allowed
    ensures v.Unsafe? ==>
      exists i, j :: (IsRun(expr, i, j) && expr[i..j] == v.word &&
        forall i', j' :: i' < i && IsRun(expr, i', j') ==> expr[i'..j'] in allowed)
  {
    CheckFrom(expr, 0, allowed)
  }

  /** A reported word is a non-empty run of letters. */
  lemma UnsafeWordIsLetters(expr: string, allowed: set<string>)
    requires Check(expr, allowed).Unsafe?
    ensures var w := Check(expr, allowed).word;
      w != [] && forall m :: 0 <= m < |w| ==> IsLetter(w[m])
  {
    var w := Check(expr, allowed).word;
    var i, j :| IsRun(expr, i, j) && expr[i..j] == w;
    assert forall m :: 0 <= m < |w| ==> w[m] == expr[i + m];
  }

  /** The variables x and t always pass, whatever GSL provides. */
  lemma VariablesAllowed(gsl: set<string>)
    ensures Check("x", Allowed(gsl)) == Safe && Check("t", Allowed(gsl)) == Safe
  {
    assert forall i, j :: IsRun("x", i, j) ==> i == 0 && j == 1;
    assert "x"[0..1] == "x";
    assert forall i, j :: IsRun("t", i, j) ==> i == 0 && j == 1;
    assert "t"[0..1] == "t";
  }
}

=== FILE: lexer.dfy ===
/** The DSL lexer: a character-level state machine with three modes (word,
    quoted string, comment) and a one-token pushback slot. */
module Lexing {
  import opened Support

  datatype Code = LBrace | RBrace | Comma | QString | Word

  datatype Token = Token(code: Code, value: string, line: nat)

  /** The input, the index of the next character, the current line (from 1)
      and the pushed-back token, if any. */
  datatype Lexer = Lexer(str: string, pos: nat, line: nat, cached: Option<Token>)

  function NewLexer(s: string): (lx: Lexer)
    ensures Valid(lx)
  {
    Lexer(s, 0, 1, None)
  }

  // ---------------------------------------------------------------------------
  // Character classes
  // ---------------------------------------------------------------------------

  predicate IsQuote(c: char) { c == '\'' || c == '"' }

  predicate IsDelim(c: char) { c == '{' || c == '}' || c == ',' }

  predicate IsBlank(c: char) { c == ' ' || c == '\t' }

  /** A character that an unquoted word can hold. */
  predicate WordChar(c: char)
  {
    c != '\n' && c != '#' && !IsQuote(c) && !IsDelim(c) && !IsBlank(c)
  }

  function DelimCode(c: char): Code
    requires IsDelim(c)
  {
    if c == '{' then LBrace else if c == '}' then RBrace else Comma
  }

  function CountNL(t: string): nat
  {
    if t == [] then 0 else (if t[0] == '\n' then 1 else 0) + CountNL(t[1..])
  }

  lemma {:induction false} CountNLAppend(a: string, b: string)
    ensures CountNL(a + b) == CountNL(a) + CountNL(b)
  {
    if a == [] {
      assert a + b == b;
    } else {
      assert (a + b)[0] == a[0] && (a + b)[1..] == a[1..] + b;
      CountNLAppend(a[1..], b);
    }
  }

  /** The lexer's line counter is one more than the newlines consumed. */
  predicate Valid(lx: Lexer)
  {
    lx.pos <= |lx.str| && lx.line == 1 + CountNL(lx.str[..lx.pos])
  }

  /** Decreases with every token taken; a pushback gives back one unit. */
  function Measure(lx: Lexer): nat
    requires lx.pos <= |lx.str|
  {
    2 * (|lx.str| - lx.pos) + (if lx.cached.Some? then 1 else 0)
  }

  // ---------------------------------------------------------------------------
  // One character of `_get_token`
  // ---------------------------------------------------------------------------

  /** The token being built plus the scanner's modes and line counters:
      tline is the token's line, line the lexer's. */
  datatype Acc = Acc(code: Code, value: string, tline: nat, line: nat, inStr: bool, inCom: bool)

  function Fresh(line: nat): Acc
  {
    Acc(Word, "", line, line, false, false)
  }

  /** What the text of a token can hold, given its code: unquoted words hold
      word characters only; quoted text never holds a quote or a newline; a
      delimiter token is that one character. */
  predicate Shaped(code: Code, value: string)
  {
    match code
    case Word => forall k :: 0 <= k < |value| ==> WordChar(value[k])
    case QString => forall k :: 0 <= k < |value| ==> value[k] != '\n' && !IsQuote(value[k])
    case _ => |value| == 1 && IsDelim(value[0]) && DelimCode(value[0]) == code
  }

  /** The invariant of the scanner state: the text fits the code, the code
      is a word or a quoted string while scanning, quote mode implies the
      quoted code, and the token line never passes the lexer line. */
  predicate Coherent(a: Acc)
  {
    Shaped(a.code, a.value) && (a.code == Word || a.code == QString)
    && (a.inStr ==> a.code == QString) && a.tline <= a.line
  }

  /** The outcome of one character: the new state, whether the token is
      complete, and whether the character must be read again next time. */
  datatype Move = Move(acc: Acc, done: bool, back: bool)

  /** A delimiter ends a pending word and is read again by the next call;
      with nothing pending it is the token. */
  function Delimiter(a: Acc, c: char): (m: Move)
    requires IsDelim(c)
    ensures m.done
    ensures m.back <==> |a.value| > 0
    ensures m.back ==> m.acc == a
    ensures !m.back ==> m.acc == a.(value := [c], code := DelimCode(c))
  {
    if |a.value| == 0 then Move(a.(value := [c], code := DelimCode(c)), true, false)
    else Move(a, true, true)
  }

  function StepChar(a: Acc, c: char): (m: Move)
    ensures m.back ==> m.done && m.acc == a && |a.value| > 0
    ensures m.acc.line == a.line + (if c == '\n' then 1 else 0)
    ensures a.tline <= m.acc.tline && m.acc.tline - a.tline <= m.acc.line - a.line
    ensures m.acc.value == a.value || m.acc.value == a.value + [c] || m.acc.value == [c]
    ensures Coherent(a) ==> Shaped(m.acc.code, m.acc.value) && m.acc.tline <= m.acc.line
    ensures Coherent(a) && !m.done ==> Coherent(m.acc)
    ensures m.done && !m.back ==> |m.acc.value| > 0 || m.acc.code == QString
  {
    if c == '\n' then
      var finished := |a.value| > 0;
      Move(a.(line := a.line + 1, tline := if finished then a.tline else a.tline + 1,
              inStr := false, inCom := false), finished, false)
    else if a.inCom then Move(a, false, false)
    else if IsQuote(c) then Move(a.(code := QString, inStr := !a.inStr), a.inStr, false)
    else if a.inStr then Move(a.(value := a.value + [c]), false, false)
    else if IsDelim(c) then Delimiter(a, c)
    else if IsBlank(c) then Move(a, |a.value| > 0, false)
    else if c == '#' then Move(a.(inCom := true), false, false)
    else Move(a.(value := a.value + [c]), false, false)
  }

  /** Runs the loop of `_get_token` from index i: returns the index after the
      token and the final state. */
  function Scan(s: string, i: nat, a: Acc): (r: (nat, Acc))
    requires i < |s| && Coherent(a)
    ensures i <= r.0 <= |s|
    ensures |a.value| == 0 ==> i < r.0
    ensures r.1.line == a.line + CountNL(s[i..r.0])
    ensures a.tline <= r.1.tline <= r.1.line
    ensures r.0 == |s| || |r.1.value| > 0 || r.1.code == QString
    ensures Shaped(r.1.code, r.1.value)
    decreases |s| - i
  {
    var m := StepChar(a, s[i]);
    assert s[i..i + 1] == [s[i]];
    if m.done then (if m.back then i else i + 1, m.acc)
    else if i + 1 == |s| then (i + 1, m.acc)
    else
      var r := Scan(s, i + 1, m.acc);
      assert s[i..r.0] == [s[i]] + s[i + 1..r.0];
      r
  }

  // ---------------------------------------------------------------------------
  // The public operations
  // ---------------------------------------------------------------------------

  /** `_get_token`: nil only when the input is exhausted with nothing read. */
  function GetToken(lx: Lexer): (r: (Option<Token>, Lexer))
    requires lx.pos <= |lx.str|
    ensures r.1.str == lx.str && r.1.cached == lx.cached
    ensures lx.pos <= r.1.pos <= |lx.str|
    ensures lx.pos < |lx.str| ==> lx.pos < r.1.pos
    ensures Valid(lx) ==> Valid(r.1)
    ensures r.0.None? ==> r.1.pos == |lx.str|
    ensures r.0.Some? ==> Shaped(r.0.value.code, r.0.value.value)
    ensures r.0.Some? ==> |r.0.value.value| > 0 || r.0.value.code == QString
    ensures r.0.Some? ==> lx.line <= r.0.value.line <= r.1.line
  {
    if lx.pos == |lx.str| then (None, lx)
    else
      var (j, a) := Scan(lx.str, lx.pos, Fresh(lx.line));
      var lx' := lx.(pos := j, line := a.line);
      assert Valid(lx) ==> Valid(lx') by {
        assert lx.str[..j] == lx.str[..lx.pos] + lx.str[lx.pos..j];
        CountNLAppend(lx.str[..lx.pos], lx.str[lx.pos..j]);
      }
      if j == |lx.str| && |a.value| == 0 then (None, lx')
      else (Some(Token(a.code, a.value, a.tline)), lx')
  }

  /** `token`: the pushed-back token if there is one, otherwise a fresh one;
      the slot is empty afterwards. */
  function NextToken(lx: Lexer): (r: (Option<Token>, Lexer))
    requires lx.pos <= |lx.str|
    ensures r.1.str == lx.str && r.1.pos <= |r.1.str| && r.1.cached.None?
    ensures Valid(lx) ==> Valid(r.1)
    ensures Measure(r.1) <= Measure(lx)
    ensures r.0.Some? ==> Measure(r.1) < Measure(lx)
    ensures r.0.Some? && lx.cached.None? ==> Measure(r.1) + 2 <= Measure(lx)
    ensures lx.cached.None? && r.0.Some? ==> Shaped(r.0.value.code, r.0.value.value)
  {
    match lx.cached
    case Some(t) => (Some(t), lx.(cached := None))
    case None => GetToken(lx)
  }

  /** `push_back`: the next call returns exactly t, and then the slot is
      empty; a second pushback replaces the first. */
  function PushBack(lx: Lexer, t: Token): (r: Lexer)
    requires lx.pos <= |lx.str|
    ensures r.pos <= |r.str| && (Valid(lx) ==> Valid(r))
    ensures NextToken(r) == (Some(t), lx.(cached := None))
    ensures Measure(r) <= Measure(lx) + 1
  {
    lx.(cached := Some(t))
  }

  // ---------------------------------------------------------------------------
  // Runs of characters
  // ---------------------------------------------------------------------------

  /** Unquoted word characters are appended one by one and never end the
      token. */
  lemma {:induction false} ScanWordRun(s: string, i: nat, a: Acc, k: nat)
    requires i < |s| && i <= k <= |s| && Coherent(a)
    requires !a.inStr && !a.inCom
    requires forall m :: i <= m < k ==> WordChar(s[m])
    ensures Coherent(a.(value := a.value + s[i..k]))
    ensures k < |s| ==> Scan(s, i, a) == Scan(s, k, a.(value := a.value + s[i..k]))
    ensures k == |s| ==> Scan(s, i, a) == (|s|, a.(value := a.value + s[i..k]))
    decreases k - i
  {
    if i == k {
      assert a.value + s[i..k] == a.value;
    } else {
      var a' := a.(value := a.value + [s[i]]);
      assert StepChar(a, s[i]) == Move(a', false, false);
      assert a.value + s[i..k] == a'.value + s[i + 1..k];
      if i + 1 < |s| {
        assert Scan(s, i, a) == Scan(s, i + 1, a');
        ScanWordRun(s, i + 1, a', k);
      } else {
        assert s[i..k] == [s[i]];
      }
    }
  }

  /** Inside quotes every character other than a quote or a newline is
      copied verbatim. */
  lemma {:induction false} ScanQuotedRun(s: string, i: nat, a: Acc, k: nat)
    requires i < |s| && i <= k <= |s| && Coherent(a)
    requires a.inStr && !a.inCom
    requires forall m :: i <= m < k ==> s[m] != '\n' && !IsQuote(s[m])
    ensures Coherent(a.(value := a.value + s[i..k]))
    ensures k < |s| ==> Scan(s, i, a) == Scan(s, k, a.(value := a.value + s[i..k]))
    ensures k == |s| ==> Scan(s, i, a) == (|s|, a.(value := a.value + s[i..k]))
    decreases k - i
  {
    if i == k {
      assert a.value + s[i..k] == a.value;
    } else {
      var a' := a.(value := a.value + [s[i]]);
      assert StepChar(a, s[i]) == Move(a', false, false);
      assert a.value + s[i..k] == a'.value + s[i + 1..k];
      if i + 1 < |s| {
        assert Scan(s, i, a) == Scan(s, i + 1, a');
        ScanQuotedRun(s, i + 1, a', k);
      } else {
        assert s[i..k] == [s[i]];
      }
    }
  }

  /** In a comment nothing but a newline has any effect. */
  lemma {:induction false} ScanCommentRun(s: string, i: nat, a: Acc, k: nat)
    requires i < |s| && i <= k <= |s| && Coherent(a)
    requires a.inCom
    requires forall m :: i <= m < k ==> s[m] != '\n'
    ensures k < |s| ==> Scan(s, i, a) == Scan(s, k, a)
    ensures k == |s| ==> Scan(s, i, a) == (|s|, a)
    decreases k - i
  {
    if i < k {
      assert StepChar(a, s[i]) == Move(a, false, false);
      if i + 1 < |s| {
        assert Scan(s, i, a) == Scan(s, i + 1, a);
        ScanCommentRun(s, i + 1, a, k);
      }
    }
  }

  // ---------------------------------------------------------------------------
  // Token-level properties
  // ---------------------------------------------------------------------------

  /** Outside quotes `{`, `}` and `,` are one-character tokens. */
  lemma DelimiterToken(lx: Lexer)
    requires lx.cached.None? && lx.pos < |lx.str| && IsDelim(lx.str[lx.pos])
    ensures NextToken(lx) ==
      (Some(Token(DelimCode(lx.str[lx.pos]), [lx.str[lx.pos]], lx.line)), lx.(pos := lx.pos + 1))
  {
  }

  /** A character that does not end the token hands the scan on. */
  lemma ScanOn(s: string, i: nat, a: Acc, a': Acc)
    requires i + 1 < |s| && Coherent(a) && StepChar(a, s[i]) == Move(a', false, false)
    ensures Coherent(a') && Scan(s, i, a) == Scan(s, i + 1, a')
  {
  }

  /** A character that ends the token and is consumed ends the scan. */
  lemma ScanEnds(s: string, i: nat, a: Acc, a': Acc)
    requires i < |s| && Coherent(a) && StepChar(a, s[i]) == Move(a', true, false)
    ensures Scan(s, i, a) == (i + 1, a')
  {
  }

  /** A quote outside a comment toggles quote mode; it ends the token when
      it closes a quoted string. */
  lemma QuoteStep(a: Acc, c: char)
    requires IsQuote(c) && !a.inCom
    ensures StepChar(a, c) == Move(a.(code := QString, inStr := !a.inStr), a.inStr, false)
  {
  }

  /** A fresh token in terms of the scan that reads it. */
  lemma TokenFromScan(lx: Lexer, j: nat, a: Acc)
    requires lx.cached.None? && lx.pos < |lx.str| && Scan(lx.str, lx.pos, Fresh(lx.line)) == (j, a)
    ensures NextToken(lx) ==
      (if j == |lx.str| && |a.value| == 0 then None else Some(Token(a.code, a.value, a.tline)),
       lx.(pos := j, line := a.line))
  {
  }

  /** The scan of an unquoted word up to what ends it, at index e. */
  lemma ScanWord(s: string, i: nat, line: nat, e: nat)
    requires i < e <= |s| && forall m :: i <= m < e ==> WordChar(s[m])
    requires e == |s| || IsDelim(s[e]) || IsBlank(s[e]) || s[e] == '\n'
    ensures var a := Fresh(line).(value := s[i..e]);
      Scan(s, i, Fresh(line)) ==
        if e == |s| || IsDelim(s[e]) then (e, a)
        else if IsBlank(s[e]) then (e + 1, a)
        else (e + 1, a.(line := line + 1))
  {
    var a := Fresh(line).(value := s[i..e]);
    ScanWordRun(s, i, Fresh(line), e);
    assert Fresh(line).value + s[i..e] == s[i..e];
    if e < |s| {
      var c := s[e];
      if IsDelim(c) {
        assert StepChar(a, c) == Move(a, true, true);
      } else if IsBlank(c) {
        assert StepChar(a, c) == Move(a, true, false);
        ScanEnds(s, e, a, a);
      } else {
        assert StepChar(a, c) == Move(a.(line := line + 1), true, false);
        ScanEnds(s, e, a, a.(line := line + 1));
      }
    }
  }

  /** An unquoted word ends at a delimiter, a blank, a newline or the end of
      input. A delimiter is left for the next call; a blank or a newline is
      consumed. */
  lemma WordToken(lx: Lexer, w: string)
    requires lx.cached.None? && lx.pos + |w| <= |lx.str| && lx.str[lx.pos..lx.pos + |w|] == w
    requires w != [] && forall k :: 0 <= k < |w| ==> WordChar(w[k])
    requires var e := lx.pos + |w|;
      e == |lx.str| || IsDelim(lx.str[e]) || IsBlank(lx.str[e]) || lx.str[e] == '\n'
    ensures NextToken(lx).0 == Some(Token(Word, w, lx.line))
    ensures var e := lx.pos + |w|; var s := lx.str;
      && (e == |s| ==> NextToken(lx).1 == lx.(pos := e))
      && (e < |s| && IsDelim(s[e]) ==> NextToken(lx).1 == lx.(pos := e))
      && (e < |s| && IsBlank(s[e]) ==> NextToken(lx).1 == lx.(pos := e + 1))
      && (e < |s| && s[e] == '\n' ==> NextToken(lx).1 == lx.(pos := e + 1, line := lx.line + 1))
  {
    assert forall m :: lx.pos <= m < lx.pos + |w| ==> lx.str[m] == w[m - lx.pos];
    ScanWord(lx.str, lx.pos, lx.line, lx.pos + |w|);
    var r := Scan(lx.str, lx.pos, Fresh(lx.line));
    TokenFromScan(lx, r.0, r.1);
  }

  /** The scan of a word ending at index e, followed by a comment up to
      index n. */
  lemma ScanWordComment(s: string, i: nat, line: nat, e: nat, n: nat)
    requires i < e < n <= |s| && forall m :: i <= m < e ==> WordChar(s[m])
    requires s[e] == '#'
    requires forall m :: e < m < n ==> s[m] != '\n'
    requires n == |s| || s[n] == '\n'
    ensures var a := Fresh(line).(value := s[i..e]);
      Scan(s, i, Fresh(line)) == if n == |s| then (n, a.(inCom := true)) else (n + 1, a.(line := line + 1))
  {
    var a := Fresh(line).(value := s[i..e]);
    var ac := a.(inCom := true);
    ScanWordRun(s, i, Fresh(line), e);
    assert Fresh(line).value + s[i..e] == s[i..e];
    assert StepChar(a, '#') == Move(ac, false, false);
    if e + 1 < |s| {
      ScanOn(s, e, a, ac);
      ScanCommentRun(s, e + 1, ac, n);
      if n < |s| {
        assert StepChar(ac, '\n') == Move(a.(line := line + 1), true, false);
        ScanEnds(s, n, ac, a.(line := line + 1));
      }
    }
  }

  /** A `#` right after a word: the comment text never joins the word, and the
      newline that ends the comment ends the token. */
  lemma WordBeforeComment(lx: Lexer, w: string, n: nat)
    requires lx.cached.None? && lx.pos + |w| < n <= |lx.str| && lx.str[lx.pos..lx.pos + |w|] == w
    requires w != [] && forall k :: 0 <= k < |w| ==> WordChar(w[k])
    requires lx.str[lx.pos + |w|] == '#'
    requires forall m :: lx.pos + |w| < m < n ==> lx.str[m] != '\n'
    requires n == |lx.str| || lx.str[n] == '\n'
    ensures NextToken(lx).0 == Some(Token(Word, w, lx.line))
    ensures n == |lx.str| ==> NextToken(lx).1 == lx.(pos := n)
    ensures n < |lx.str| ==> NextToken(lx).1 == lx.(pos := n + 1, line := lx.line + 1)
  {
    assert forall m :: lx.pos <= m < lx.pos + |w| ==> lx.str[m] == w[m - lx.pos];
    ScanWordComment(lx.str, lx.pos, lx.line, lx.pos + |w|, n);
    var r := Scan(lx.str, lx.pos, Fresh(lx.line));
    TokenFromScan(lx, r.0, r.1);
  }

  /** The scan of an opening quote and the text after it, up to index e. */
  lemma ScanQuotedText(s: string, i: nat, line: nat, e: nat)
    requires i < e < |s| && IsQuote(s[i])
    requires forall m :: i < m < e ==> s[m] != '\n' && !IsQuote(s[m])
    ensures Coherent(Fresh(line).(code := QString, inStr := true, value := s[i + 1..e]))
    ensures Scan(s, i, Fresh(line)) == Scan(s, e, Fresh(line).(code := QString, inStr := true, value := s[i + 1..e]))
  {
    var a := Fresh(line).(code := QString, inStr := true);
    QuoteStep(Fresh(line), s[i]);
    ScanOn(s, i, Fresh(line), a);
    ScanQuotedRun(s, i + 1, a, e);
    assert a.value + s[i + 1..e] == s[i + 1..e];
  }

  /** A quoted string: either quote character closes it, and the text between
      is copied verbatim, whatever it holds. */
  lemma QuotedToken(lx: Lexer, q: string)
    requires lx.cached.None? && lx.pos + |q| + 1 < |lx.str|
    requires IsQuote(lx.str[lx.pos]) && lx.str[lx.pos + 1..lx.pos + 1 + |q|] == q
    requires forall k :: 0 <= k < |q| ==> q[k] != '\n' && !IsQuote(q[k])
    requires IsQuote(lx.str[lx.pos + 1 + |q|])
    ensures var e := lx.pos + 2 + |q|;
      && (e < |lx.str| || q != [] ==> NextToken(lx) == (Some(Token(QString, q, lx.line)), lx.(pos := e)))
      && (e == |lx.str| && q == [] ==> NextToken(lx) == (None, lx.(pos := e)))
  {
    var e := lx.pos + 1 + |q|;
    var aq := Fresh(lx.line).(code := QString, inStr := true, value := lx.str[lx.pos + 1..e]);
    ScanQuotedText(lx.str, lx.pos, lx.line, e);
    QuoteStep(aq, lx.str[e]);
    ScanEnds(lx.str, e, aq, aq.(inStr := false));
    TokenFromScan(lx, e + 1, aq.(inStr := false));
  }

  /** A newline cuts an unterminated quoted string: the text read so far is
      the token and the newline is consumed. */
  lemma QuotedCutByNewline(lx: Lexer, q: string)
    requires lx.cached.None? && lx.pos + |q| + 1 < |lx.str|
    requires IsQuote(lx.str[lx.pos]) && lx.str[lx.pos + 1..lx.pos + 1 + |q|] == q
    requires q != [] && forall k :: 0 <= k < |q| ==> q[k] != '\n' && !IsQuote(q[k])
    requires lx.str[lx.pos + 1 + |q|] == '\n'
    ensures NextToken(lx) ==
      (Some(Token(QString, q, lx.line)), lx.(pos := lx.pos + 2 + |q|, line := lx.line + 1))
  {
    var e := lx.pos + 1 + |q|;
    var aq := Fresh(lx.line).(code := QString, inStr := true, value := lx.str[lx.pos + 1..e]);
    var a' := aq.(line := lx.line + 1, inStr := false);
    ScanQuotedText(lx.str, lx.pos, lx.line, e);
    assert StepChar(aq, '\n') == Move(a', true, false);
    ScanEnds(lx.str, e, aq, a');
    TokenFromScan(lx, e + 1, a');
  }

  /** A blank between tokens is skipped. */
  lemma BlankSkipped(lx: Lexer)
    requires lx.cached.None? && lx.pos < |lx.str| && IsBlank(lx.str[lx.pos])
    ensures NextToken(lx) == NextToken(lx.(pos := lx.pos + 1))
  {
  }

  /** A newline between tokens is skipped and counted. */
  lemma NewlineSkipped(lx: Lexer)
    requires lx.cached.None? && lx.pos < |lx.str| && lx.str[lx.pos] == '\n'
    ensures NextToken(lx) == NextToken(lx.(pos := lx.pos + 1, line := lx.line + 1))
  {
  }

  /** A comment between tokens is skipped up to its newline. */
  lemma CommentSkipped(lx: Lexer, n: nat)
    requires lx.cached.None? && lx.pos < n <= |lx.str| && lx.str[lx.pos] == '#'
    requires forall m :: lx.pos < m < n ==> lx.str[m] != '\n'
    requires n == |lx.str| || lx.str[n] == '\n'
    ensures NextToken(lx) == NextToken(lx.(pos := n))
  {
    var s, i := lx.str, lx.pos;
    var a := Fresh(lx.line).(inCom := true);
    assert StepChar(Fresh(lx.line), '#') == Move(a, false, false);
    if i + 1 < |s| {
      assert Scan(s, i, Fresh(lx.line)) == Scan(s, i + 1, a);
      ScanCommentRun(s, i + 1, a, n);
      if n < |s| {
        assert StepChar(a, '\n') == StepChar(Fresh(lx.line), '\n');
        assert Scan(s, n, a) == Scan(s, n, Fresh(lx.line));
      }
    }
  }
}

=== FILE: merge.dfy ===
/** The recursive Hash#merge the renderer uses to lay the document's
    `default` section over its built-in defaults: it changes the receiver in
    place, recursing where both sides hold a Hash and replacing otherwise. */
module Merging {
  import opened Support
  import opened Document

  /** What a key of the argument leaves behind: the recursive merge when the
      receiver already holds a Hash there and the argument brings one, and the
      argument's value otherwise. */
  function Combined(prior: Option<Value>, v: Value): Value
    decreases v, 3
  {
    if prior.Some? && prior.value.Dict? && v.Dict? then Dict(Merge(prior.value.entries, v.entries)) else v
  }

  /** One step of the loop over the argument's pairs. */
  function MergeOne(a: seq<(string, Value)>, k: string, v: Value): (r: seq<(string, Value)>)
    ensures Get(r, k) == Some(Combined(Get(a, k), v))
    ensures forall k' :: k' != k ==> Get(r, k') == Get(a, k')
    decreases v, 4
  {
    Put(a, k, Combined(Get(a, k), v))
  }

  /** The loop from the i-th pair of h. */
  function MergeFrom(a: seq<(string, Value)>, h: seq<(string, Value)>, i: nat): seq<(string, Value)>
    requires i <= |h|
    decreases Dict(h), 1, |h| - i
  {
    if i == |h| then a else MergeFrom(MergeOne(a, h[i].0, h[i].1), h, i + 1)
  }

  /** `a.merge(h)`, as the receiver is left afterwards. */
  function Merge(a: seq<(string, Value)>, h: seq<(string, Value)>): seq<(string, Value)>
    decreases Dict(h), 2
  {
    MergeFrom(a, h, 0)
  }

  // ---------------------------------------------------------------------------
  // Key order
  // ---------------------------------------------------------------------------

  /** The keys of hs not in seen, each once, in order of first appearance. */
  function NewKeys(seen: seq<string>, hs: seq<string>): seq<string>
    decreases |hs|
  {
    if hs == [] then []
    else if hs[0] in seen then NewKeys(seen, hs[1..])
    else [hs[0]] + NewKeys(seen + [hs[0]], hs[1..])
  }

  predicate Distinct(s: seq<string>)
  {
    forall i, j :: 0 <= i < j < |s| ==> s[i] != s[j]
  }

  /** NewKeys holds exactly the unseen keys, each once. */
  lemma {:induction false} NewKeysMembers(seen: seq<string>, hs: seq<string>)
    ensures forall k :: k in NewKeys(seen, hs) <==> k in hs && k !in seen
    ensures Distinct(NewKeys(seen, hs))
    decreases |hs|
  {
    if hs != [] {
      var h0, tl := hs[0], hs[1..];
      assert forall k :: k in hs <==> k == h0 || k in tl;
      if h0 in seen {
        NewKeysMembers(seen, tl);
        assert NewKeys(seen, hs) == NewKeys(seen, tl);
      } else {
        NewKeysMembers(seen + [h0], tl);
        var rest := NewKeys(seen + [h0], tl);
        assert NewKeys(seen, hs) == [h0] + rest;
        assert h0 !in rest;
        assert forall k :: k in seen + [h0] <==> k in seen || k == h0;
        ConsDistinct(h0, rest);
      }
    }
  }

  lemma ConsDistinct(x: string, s: seq<string>)
    requires Distinct(s) && x !in s
    ensures Distinct([x] + s)
  {
    var r := [x] + s;
    forall i, j | 0 <= i < j < |r|
      ensures r[i] != r[j]
    {
      assert r[j] == s[j - 1] && s[j - 1] in s;
      if i > 0 {
        assert r[i] == s[i - 1];
      }
    }
  }

  /** When every key has been seen there is nothing new. */
  lemma {:induction false} NewKeysNone(seen: seq<string>, hs: seq<string>)
    requires forall k :: k in hs ==> k in seen
    ensures NewKeys(seen, hs) == []
    decreases |hs|
  {
    if hs != [] {
      assert hs[0] in hs;
      assert forall k :: k in hs[1..] ==> k in hs;
      NewKeysNone(seen, hs[1..]);
    }
  }

  lemma NewKeysCons(seen: seq<string>, k: string, rest: seq<string>)
    ensures NewKeys(seen, [k] + rest)
      == if k in seen then NewKeys(seen, rest) else [k] + NewKeys(seen + [k], rest)
  {
    assert ([k] + rest)[0] == k && ([k] + rest)[1..] == rest;
  }

  /** The receiver keeps its keys in place; keys new to it are appended in
      the order the argument first lists them. */
  lemma MergeKeys(a: seq<(string, Value)>, h: seq<(string, Value)>)
    ensures Keys(Merge(a, h)) == Keys(a) + NewKeys(Keys(a), Keys(h))
  {
    MergeFromKeys(a, h, 0);
    assert Keys(h)[0..] == Keys(h);
  }

  lemma {:induction false} MergeFromKeys(a: seq<(string, Value)>, h: seq<(string, Value)>, i: nat)
    requires i <= |h|
    ensures Keys(MergeFrom(a, h, i)) == Keys(a) + NewKeys(Keys(a), Keys(h)[i..])
    decreases |h| - i
  {
    if i == |h| {
      assert Keys(h)[i..] == [];
    } else {
      var k := h[i].0;
      var a' := MergeOne(a, k, h[i].1);
      var rest := Keys(h)[i + 1..];
      MergeFromKeys(a', h, i + 1);
      assert MergeFrom(a, h, i) == MergeFrom(a', h, i + 1);
      assert Keys(MergeFrom(a, h, i)) == Keys(a') + NewKeys(Keys(a'), rest);
      assert Keys(h)[i..] == [k] + rest;
      MergeOneKeys(a, k, h[i].1);
      KeysStep(Keys(a), Keys(a'), k, rest, Keys(MergeFrom(a, h, i)));
    }
  }

  lemma KeysStep(ka: seq<string>, ka': seq<string>, k: string, rest: seq<string>, lhs: seq<string>)
    requires lhs == ka' + NewKeys(ka', rest)
    requires k in ka ==> ka' == ka
    requires k !in ka ==> ka' == ka + [k]
    ensures lhs == ka + NewKeys(ka, [k] + rest)
  {
    NewKeysCons(ka, k, rest);
    if k !in ka {
      var tail := NewKeys(ka + [k], rest);
      assert lhs == (ka + [k]) + tail;
      assert NewKeys(ka, [k] + rest) == [k] + tail;
      assert (ka + [k]) + tail == ka + ([k] + tail);
    } else {
      assert NewKeys(ka, [k] + rest) == NewKeys(ka, rest);
    }
  }

  lemma MergeOneKeys(a: seq<(string, Value)>, k: string, v: Value)
    ensures k in Keys(a) ==> Keys(MergeOne(a, k, v)) == Keys(a)
    ensures k !in Keys(a) ==> Keys(MergeOne(a, k, v)) == Keys(a) + [k]
  {
    PutKeys(a, k, Combined(Get(a, k), v));
  }

  /** Merging into a Hash with distinct keys keeps the keys distinct. */
  lemma {:induction false} MergeFromUnique(a: seq<(string, Value)>, h: seq<(string, Value)>, i: nat)
    requires i <= |h| && UniqueKeys(a)
    ensures UniqueKeys(MergeFrom(a, h, i))
    decreases |h| - i
  {
    if i < |h| {
      PutUnique(a, h[i].0, Combined(Get(a, h[i].0), h[i].1));
      MergeFromUnique(MergeOne(a, h[i].0, h[i].1), h, i + 1);
    }
  }

  // ---------------------------------------------------------------------------
  // Values
  // ---------------------------------------------------------------------------

  /** Every key of an argument with distinct keys reads its combined value;
      every other key is untouched. */
  lemma MergeGet(a: seq<(string, Value)>, h: seq<(string, Value)>, k: string)
    requires UniqueKeys(h)
    ensures Get(Merge(a, h), k) == if k in Keys(h) then Some(Combined(Get(a, k), Get(h, k).value)) else Get(a, k)
  {
    MergeFromGet(a, h, 0, k);
    assert h[0..] == h;
  }

  lemma {:induction false} MergeFromGet(a: seq<(string, Value)>, h: seq<(string, Value)>, i: nat, k: string)
    requires i <= |h| && UniqueKeys(h)
    ensures Get(MergeFrom(a, h, i), k)
      == if k in Keys(h[i..]) then Some(Combined(Get(a, k), Get(h[i..], k).value)) else Get(a, k)
    decreases |h| - i
  {
    if i == |h| {
      assert h[i..] == [];
    } else {
      var a' := MergeOne(a, h[i].0, h[i].1);
      MergeFromGet(a', h, i + 1, k);
      assert h[i..][0] == h[i] && h[i..][1..] == h[i + 1..];
      if k == h[i].0 {
        NotInSuffix(h, i, h[i + 1..]);
      }
    }
  }

  /** With distinct keys, a key does not come back later. */
  lemma NotInSuffix(h: seq<(string, Value)>, i: nat, t: seq<(string, Value)>)
    requires UniqueKeys(h) && i < |h| && t == h[i + 1..]
    ensures h[i].0 !in Keys(t)
  {
    forall j | 0 <= j < |t|
      ensures Keys(t)[j] != h[i].0
    {
      assert t[j] == h[i + 1 + j];
    }
  }

  /** Merging a well-formed Hash into itself changes nothing. */
  lemma {:induction false} MergeSelf(a: seq<(string, Value)>)
    requires WellFormed(Dict(a))
    ensures Merge(a, a) == a
    decreases Dict(a), 1
  {
    var r := Merge(a, a);
    MergeKeys(a, a);
    NewKeysNone(Keys(a), Keys(a));
    MergeFromUnique(a, a, 0);
    forall k
      ensures Get(r, k) == Get(a, k)
    {
      MergeGet(a, a, k);
      if k in Keys(a) {
        var i :| 0 <= i < |a| && a[i].0 == k;
        GetUnique(a, i);
        CombinedSelf(a[i].1);
      }
    }
    SameEntries(r, a);
  }

  /** A well-formed value combined with itself is itself. */
  lemma {:induction false} CombinedSelf(v: Value)
    requires WellFormed(v)
    ensures Combined(Some(v), v) == v
    decreases v, 2
  {
    if v.Dict? {
      MergeSelf(v.entries);
    }
  }

  /** Merging the same well-formed Hash a second time changes nothing. */
  lemma {:induction false} MergeIdempotent(a: seq<(string, Value)>, h: seq<(string, Value)>)
    requires WellFormed(Dict(a)) && WellFormed(Dict(h))
    ensures Merge(Merge(a, h), h) == Merge(a, h)
    decreases Dict(h), 1
  {
    var m := Merge(a, h);
    var r := Merge(m, h);
    MergeKeys(a, h);
    MergeKeys(m, h);
    NewKeysMembers(Keys(a), Keys(h));
    assert forall k :: k in Keys(h) ==> k in Keys(m);
    NewKeysNone(Keys(m), Keys(h));
    MergeFromUnique(a, h, 0);
    MergeFromUnique(m, h, 0);
    forall k
      ensures Get(r, k) == Get(m, k)
    {
      MergeTwiceAt(a, h, k);
    }
    SameEntries(r, m);
  }

  /** MergeIdempotent at one key. */
  lemma {:induction false} MergeTwiceAt(a: seq<(string, Value)>, h: seq<(string, Value)>, k: string)
    requires WellFormed(Dict(a)) && WellFormed(Dict(h))
    ensures Get(Merge(Merge(a, h), h), k) == Get(Merge(a, h), k)
    decreases Dict(h), 0
  {
    MergeGet(a, h, k);
    MergeGet(Merge(a, h), h, k);
    if k in Keys(h) {
      var i :| 0 <= i < |h| && h[i].0 == k;
      GetUnique(h, i);
      var prior := Get(a, k);
      if prior.Some? {
        var j :| 0 <= j < |a| && a[j].0 == k;
        GetUnique(a, j);
      }
      CombinedTwice(prior, h[i].1);
    }
  }

  /** Combining twice with the same well-formed value is combining once. */
  lemma {:induction false} CombinedTwice(prior: Option<Value>, v: Value)
    requires WellFormed(v) && (prior.Some? ==> WellFormed(prior.value))
    ensures Combined(Some(Combined(prior, v)), v) == Combined(prior, v)
    decreases v, 2
  {
    if v.Dict? {
      if prior.Some? && prior.value.Dict? {
        MergeIdempotent(prior.value.entries, v.entries);
      } else {
        MergeSelf(v.entries);
      }
    }
  }

  /** Merging into an empty Hash copies the argument. */
  lemma MergeIntoEmpty(h: seq<(string, Value)>)
    requires UniqueKeys(h)
    ensures Merge([], h) == h
  {
    var r := Merge([], h);
    MergeKeys([], h);
    NewKeysFresh([], Keys(h));
    MergeFromUnique([], h, 0);
    forall k
      ensures Get(r, k) == Get(h, k)
    {
      MergeGet([], h, k);
    }
    SameEntries(r, h);
  }

  /** Distinct keys none of which has been seen are all new. */
  lemma {:induction false} NewKeysFresh(seen: seq<string>, hs: seq<string>)
    requires forall i, j :: 0 <= i < j < |hs| ==> hs[i] != hs[j]
    requires forall i :: 0 <= i < |hs| ==> hs[i] !in seen
    ensures NewKeys(seen, hs) == hs
    decreases |hs|
  {
    if hs != [] {
      NewKeysFresh(seen + [hs[0]], hs[1..]);
    }
  }
}

=== FILE: objects.dfy ===
/** The DSL object model: one closed datatype of object kinds, each with its
    schema (flag words, xy keys, commands, auto-indexed children), the
    commands that fill an object's data, and the once-only finalisation that
    turns an object into a document value. */
module Objects {
  import opened Support
  import opened Document
  import Datasets
  import Expressions

  datatype Kind = Figure | Plot | Axis | Grid | Arrow | Box | Circle | Curve | Default | Generic

  /** Words that alone set a key to true. */
  function BoolOpts(k: Kind): seq<string>
  {
    match k
    case Axis => ["logscale"]
    case Grid => ["show"]
    case Curve => ["xaxis2", "yaxis2"]
    case _ => []
  }

  /** Keys that take an `x, y` pair. */
  function XyOpts(k: Kind): seq<string>
  {
    match k
    case Arrow => ["from", "to"]
    case Box => ["ll", "ur"]
    case Circle => ["position"]
    case _ => []
  }

  /** Child names that are numbered (`curve1`, `curve2`, ...) and listed. */
  function ListSubs(k: Kind): seq<string>
  {
    match k
    case Plot => ["curve", "box", "circle", "arrow", "label"]
    case Figure => ["plot"]
    case _ => []
  }

  /** The commands an object answers to: `title` and `line` everywhere. */
  function Commands(k: Kind): seq<string>
  {
    ["title", "line"] +
    match k
    case Arrow => ["head"]
    case Curve => ["symbol", "generate", "generate_t", "read"]
    case Plot => ["label", "key"]
    case Figure => ["rgb"]
    case _ => []
  }

  /** What an object's data maps a key to: a plain value, or a sub-object
      that is rendered when its parent is. */
  datatype Entry = Val(v: Value) | Child(o: Obj)

  /** A DSL object: its kind, its data in insertion order, whether children
      are numbered, whether finalisation has run, and (for curves) the
      dataset. */
  datatype Obj = Obj(kind: Kind, data: seq<(string, Entry)>, indexSubs: bool, built: bool,
                     ds: Datasets.Dataset)

  /** `Kind.new(index_subs)`: a plot starts with an empty key object and a
      figure with an empty colour table; a Default never numbers its
      children. */
  function New(kind: Kind, indexSubs: bool): (o: Obj)
    ensures o.kind == kind && !o.built && o.ds == Datasets.NewDataset()
    ensures o.indexSubs <==> indexSubs && kind != Default
    ensures kind == Plot ==> o.data == [("key", Val(Dict([])))]
    ensures kind == Figure ==> o.data == [("rgb", Val(Dict([])))]
    ensures kind != Plot && kind != Figure ==> o.data == []
  {
    var data := match kind
      case Plot => [("key", Val(Dict([])))]
      case Figure => [("rgb", Val(Dict([])))]
      case _ => [];
    Obj(kind, data, indexSubs && kind != Default, false, Datasets.NewDataset())
  }

  // ---------------------------------------------------------------------------
  // add_data
  // ---------------------------------------------------------------------------

  /** The key `add_data` stores under: a numbered child name gets one more
      than the number of keys that already contain it. */
  function StoreKey(o: Obj, key: string): (k: string)
    ensures o.indexSubs && key in ListSubs(o.kind) ==>
      k == key + NatToString(|KeysContaining(o.data, key)| + 1)
    ensures !(o.indexSubs && key in ListSubs(o.kind)) ==> k == key
  {
    if o.indexSubs && key in ListSubs(o.kind) then key + NatToString(|KeysContaining(o.data, key)| + 1)
    else key
  }

  function Normalise(e: Entry): Entry
  {
    if e == Val(Str("true")) then Val(Bool(true))
    else if e == Val(Str("false")) then Val(Bool(false))
    else e
  }

  /** `add_data`: stores under StoreKey, with the strings "true" and "false"
      turned into booleans; nothing else changes. */
  function AddData(o: Obj, key: string, e: Entry): (r: Obj)
    ensures Get(r.data, StoreKey(o, key)) ==
      Some(if e == Val(Str("true")) then Val(Bool(true))
           else if e == Val(Str("false")) then Val(Bool(false)) else e)
    ensures forall k :: k != StoreKey(o, key) ==> Get(r.data, k) == Get(o.data, k)
    ensures r == o.(data := r.data)
  {
    o.(data := Put(o.data, StoreKey(o, key), Normalise(e)))
  }

  /** The names `key1` .. `keyn`. */
  function Numbered(key: string, n: nat): (r: seq<string>)
    ensures |r| == n
    ensures forall i :: 0 <= i < n ==> r[i] == key + NatToString(i + 1)
  {
    seq(n, i requires 0 <= i < n => key + NatToString(i + 1))
  }

  /** Adding each entry of es in turn under the same key. */
  function AddAll(o: Obj, key: string, es: seq<Entry>): Obj
    decreases |es|
  {
    if es == [] then o else AddAll(AddData(o, key, es[0]), key, es[1..])
  }

  lemma NumberedDiffer(key: string, n: nat, i: nat)
    requires i < n
    ensures key + NatToString(i + 1) != key + NatToString(n + 1)
  {
    if key + NatToString(i + 1) == key + NatToString(n + 1) {
      assert (key + NatToString(i + 1))[|key|..] == NatToString(i + 1);
      assert (key + NatToString(n + 1))[|key|..] == NatToString(n + 1);
      NatToStringInjective(i + 1, n + 1);
    }
  }

  /** When the keys containing the name are key1..keyn, key(n+1) is not a
      key yet. */
  lemma NumberedFresh<V>(data: seq<(string, V)>, key: string, n: nat)
    requires KeysContaining(data, key) == Numbered(key, n)
    ensures key + NatToString(n + 1) !in Keys(data)
  {
    var k := key + NatToString(n + 1);
    assert k[..|key|] == key;
    ContainsAt(k, key, 0);
    if k in Keys(data) {
      assert k in Numbered(key, n);
      var i :| 0 <= i < n && Numbered(key, n)[i] == k;
      NumberedDiffer(key, n, i);
    }
  }

  lemma NumberedNext(key: string, n: nat)
    ensures Numbered(key, n) + [key + NatToString(n + 1)] == Numbered(key, n + 1)
  {
  }

  /** One numbered add when the keys containing the name are key1..keyn:
      the new key is key(n+1), it is new, and it is listed last. */
  lemma AddOneNumbered(o: Obj, key: string, e: Entry, n: nat)
    requires o.indexSubs && key in ListSubs(o.kind)
    requires KeysContaining(o.data, key) == Numbered(key, n)
    ensures KeysContaining(AddData(o, key, e).data, key) == Numbered(key, n + 1)
  {
    var k := key + NatToString(n + 1);
    assert StoreKey(o, key) == k;
    assert k[..|key|] == key;
    ContainsAt(k, key, 0);
    NumberedFresh(o.data, key, n);
    KeysContainingPut(o.data, k, Normalise(e), key);
    NumberedNext(key, n);
  }

  /** With numbering on, n successive adds of a listed child name to an
      object with no key containing that name give `key1` .. `keyn`. */
  lemma {:induction false} SuccessiveAdds(o: Obj, key: string, es: seq<Entry>, n: nat)
    requires o.indexSubs && key in ListSubs(o.kind)
    requires KeysContaining(o.data, key) == Numbered(key, n)
    ensures KeysContaining(AddAll(o, key, es).data, key) == Numbered(key, n + |es|)
    decreases |es|
  {
    if es != [] {
      AddOneNumbered(o, key, es[0], n);
      SuccessiveAdds(AddData(o, key, es[0]), key, es[1..], n + 1);
    }
  }

  // ---------------------------------------------------------------------------
  // Arguments
  // ---------------------------------------------------------------------------

  /** What `_collect_args` returns: the positional arguments, then one hash of
      the `opt=value` options. An option whose word splits into no fields
      has the key nil and the value nil, here None. */
  datatype Args = Args(pos: seq<string>, opts: seq<(Option<string>, Option<string>)>)

  /** `args.length`: the positional arguments plus the options hash. */
  function Count(a: Args): nat
  {
    |a.pos| + 1
  }

  /** Ruby's `to_s` on a String or nil. */
  function ToS(s: Option<string>): string
  {
    match s
    case None => ""
    case Some(t) => t
  }

  /** A String or nil stored as a document value. */
  function ToValue(s: Option<string>): Value
  {
    match s
    case None => Nil
    case Some(t) => Str(t)
  }

  /** The options hash as a document object; JSON writes a nil key as "". */
  function OptsValue(opts: seq<(Option<string>, Option<string>)>): (v: Value)
    ensures v.Dict? && |v.entries| == |opts|
    ensures forall i :: 0 <= i < |opts| ==> v.entries[i] == (ToS(opts[i].0), ToValue(opts[i].1))
  {
    Dict(seq(|opts|, i requires 0 <= i < |opts| => (ToS(opts[i].0), ToValue(opts[i].1))))
  }

  /** `args[i]` as a document value: a positional string, the options hash
      right after them, nil beyond. */
  function ArgValue(a: Args, i: nat): (v: Value)
    ensures i < |a.pos| ==> v == Str(a.pos[i])
    ensures i == |a.pos| ==> v == OptsValue(a.opts)
    ensures i > |a.pos| ==> v == Nil
  {
    if i < |a.pos| then Str(a.pos[i]) else if i == |a.pos| then OptsValue(a.opts) else Nil
  }

  /** `h['name']` when `h.has_key?('name')`. */
  function Lookup(a: Args, name: string): Option<Option<string>>
  {
    Get(a.opts, Some(name))
  }

  // ---------------------------------------------------------------------------
  // Commands
  // ---------------------------------------------------------------------------

  /** What a command does: updates the object, returns false with a message
      (a syntax error for the parser), raises a SyntaxError (which the parser
      rescues, unlike every other exception), raises something else, or
      never returns. */
  datatype Reply = Ok(o: Obj) | Refused(msg: string) | SyntaxRaised(msg: string) | Raised(msg: string) | Spins

  /** The host services the commands use: the names GSL provides, `to_f`,
      `to_i`, expression evaluation, reading a file's lines, splitting a line
      at a delimiter class, `Hash#inspect`, and Ruby's own parser: the
      SyntaxError message `eval` raises for a text, None when it parses. */
  datatype Host = Host(gsl: set<string>, toF: string -> real, toI: string -> int,
                       eval: Datasets.Eval, readFile: string -> Option<seq<string>>,
                       split: (string, string) -> seq<string>,
                       inspect: seq<(Option<string>, Option<string>)> -> string,
                       syntax: string -> Option<string>)

  /** Key `key` of the object's data holds a document object whose field f
      is the result. */
  function Field(o: Obj, key: string, f: string): Option<Value>
  {
    var g := Get(o.data, key);
    if g.Some? && g.value.Val? && g.value.v.Dict? then Get(g.value.v.entries, f) else None
  }

  /** Only key `key` of the data differs between o and r. */
  ghost predicate OnlyKey(o: Obj, r: Obj, key: string)
  {
    r == o.(data := r.data) && Get(r.data, key).Some? &&
    forall k :: k != key ==> Get(r.data, k) == Get(o.data, k)
  }

  function SetKey(o: Obj, key: string, v: Value): (r: Obj)
    ensures OnlyKey(o, r, key) && Get(r.data, key) == Some(Val(v))
    ensures v.Dict? ==> forall f :: Field(r, key, f) == Get(v.entries, f)
  {
    o.(data := Put(o.data, key, Val(v)))
  }

  /** `title 'text' [, 'color']`. */
  function Title(o: Obj, a: Args): (r: Reply)
    ensures r.Refused? <==> Count(a) < 2
    ensures r.Refused? ==> r.msg == "Missing title text"
    ensures r.Ok? ==> OnlyKey(o, r.o, "title")
    ensures r.Ok? ==> Field(r.o, "title", "text") == Some(Str(a.pos[0]))
    ensures r.Ok? ==> Field(r.o, "title", "color") == if Count(a) > 2 then Some(Str(a.pos[1])) else None
    ensures r.Ok? || r.Refused?
  {
    if Count(a) < 2 then Refused("Missing title text")
    else
      var t0: seq<(string, Value)> := [("text", Str(a.pos[0]))];
      var t := if Count(a) > 2 then Put(t0, "color", Str(a.pos[1])) else t0;
      Ok(SetKey(o, "title", Dict(t)))
  }

  /** The line hash: style and colour from the arguments, then every option
      as a string, overwriting style or colour when it names them. */
  function LineHash(a: Args): (h: seq<(Option<string>, string)>)
    requires |a.pos| >= 1
    ensures UniqueKeys(a.opts) ==>
      forall k :: Get(h, k) ==
        if k in Keys(a.opts) then Some(ToS(Get(a.opts, k).value))
        else if k == Some("style") then Some(a.pos[0])
        else if k == Some("color") && |a.pos| >= 2 then Some(a.pos[1])
        else None
  {
    var base: seq<(Option<string>, string)> := [(Some("style"), a.pos[0])];
    var base' := if |a.pos| >= 2 then Put(base, Some("color"), a.pos[1]) else base;
    var h := PutOpts(base', a.opts);
    assert UniqueKeys(a.opts) ==>
      forall k :: Get(h, k) == if k in Keys(a.opts) then Some(ToS(Get(a.opts, k).value)) else Get(base', k) by {
      if UniqueKeys(a.opts) {
        forall k ensures Get(h, k) == if k in Keys(a.opts) then Some(ToS(Get(a.opts, k).value)) else Get(base', k) {
          PutOptsGet(base', a.opts, k);
        }
      }
    }
    h
  }

  /** `opts.each {|k, v| h[k] = v.to_s}`. */
  function PutOpts(h: seq<(Option<string>, string)>, opts: seq<(Option<string>, Option<string>)>)
    : (r: seq<(Option<string>, string)>)
    decreases |opts|
  {
    if opts == [] then h else PutOpts(Put(h, opts[0].0, ToS(opts[0].1)), opts[1..])
  }

  /** Every option ends up in the hash as a string; other keys keep their
      values. */
  lemma {:induction false} PutOptsGet(h: seq<(Option<string>, string)>, opts: seq<(Option<string>, Option<string>)>,
                                      k: Option<string>)
    requires UniqueKeys(opts)
    ensures Get(PutOpts(h, opts), k) == if k in Keys(opts) then Some(ToS(Get(opts, k).value)) else Get(h, k)
    decreases |opts|
  {
    if opts != [] {
      var h1 := Put(h, opts[0].0, ToS(opts[0].1));
      TailUnique(opts);
      PutOptsGet(h1, opts[1..], k);
      GetTail(opts, k);
      assert Keys(opts) == [opts[0].0] + Keys(opts[1..]);
    }
  }

  /** A hash with nil or String keys as a document object. */
  function Stringify(h: seq<(Option<string>, string)>): (v: Value)
    ensures v.Dict? && |v.entries| == |h|
    ensures forall i :: 0 <= i < |h| ==> v.entries[i] == (ToS(h[i].0), Str(h[i].1))
  {
    Dict(seq(|h|, i requires 0 <= i < |h| => (ToS(h[i].0), Str(h[i].1))))
  }

  /** `line 'style' [, 'color'] [, opt=value ...]`. */
  function Line(o: Obj, a: Args): (r: Reply)
    ensures r.Refused? <==> Count(a) < 2
    ensures r.Refused? ==> r.msg == "Missing line style"
    ensures r.Ok? ==> OnlyKey(o, r.o, "line") && Get(r.o.data, "line") == Some(Val(Stringify(LineHash(a))))
    ensures r.Ok? || r.Refused?
  {
    if Count(a) < 2 then Refused("Missing line style")
    else Ok(SetKey(o, "line", Stringify(LineHash(a))))
  }

  /** The head hash of a shown arrow head: width, length and inset are the
      first three arguments, whatever they are. */
  function HeadHash(a: Args): (h: seq<(string, Value)>)
    ensures Get(h, "show") == Some(Bool(true))
    ensures Get(h, "width") == Some(ArgValue(a, 0))
    ensures Get(h, "length") == Some(ArgValue(a, 1))
    ensures Get(h, "inset") == Some(ArgValue(a, 2))
  {
    var h0: seq<(string, Value)> := [("show", Bool(true))];
    assert Get(h0, "show") == Some(Bool(true));
    var h1 := Put(h0, "width", ArgValue(a, 0));
    var h2 := Put(h1, "length", ArgValue(a, 1));
    Put(h2, "inset", ArgValue(a, 2))
  }

  const HeadSyntax := "Expecting \"head hide | width, length, inset\""

  /** `head hide | width, length, inset` on an arrow. */
  function Head(o: Obj, a: Args): (r: Reply)
    ensures r.Refused? <==> Count(a) < 2 || Count(a) > 4
    ensures r.Refused? ==> r.msg == HeadSyntax
    ensures r.Ok? ==> OnlyKey(o, r.o, "head")
    ensures r.Ok? && a.pos[0] == "hide" ==> Get(r.o.data, "head") == Some(Val(Dict([("show", Bool(false))])))
    ensures r.Ok? && a.pos[0] != "hide" ==>
      && Field(r.o, "head", "show") == Some(Bool(true))
      && Field(r.o, "head", "width") == Some(ArgValue(a, 0))
      && Field(r.o, "head", "length") == Some(ArgValue(a, 1))
      && Field(r.o, "head", "inset") == Some(ArgValue(a, 2))
    ensures r.Ok? || r.Refused?
  {
    if Count(a) < 2 || Count(a) > 4 then Refused(HeadSyntax)
    else if a.pos[0] == "hide" then Ok(SetKey(o, "head", Dict([("show", Bool(false))])))
    else
      Ok(SetKey(o, "head", Dict(HeadHash(a))))
  }

  /** Option `name` as given, when present. */
  function ValOpt(a: Args, name: string): Option<Value>
  {
    match Lookup(a, name)
    case Some(v) => Some(ToValue(v))
    case None => None
  }

  /** Option `name` through `to_s`, when present. */
  function StrOpt(a: Args, name: string): Option<Value>
  {
    match Lookup(a, name)
    case Some(v) => Some(Str(ToS(v)))
    case None => None
  }

  /** `h[k] = v` when v is given. */
  function PutMaybe(d: seq<(string, Value)>, k: string, v: Option<Value>): (r: seq<(string, Value)>)
    ensures Get(r, k) == if v.Some? then v else Get(d, k)
    ensures forall k' :: k' != k ==> Get(r, k') == Get(d, k')
  {
    if v.Some? then Put(d, k, v.value) else d
  }

  /** The fill option as `add_data` stores every other value: the texts
      "true" and "false" become booleans, any other text is kept. */
  function FillOpt(a: Args): (v: Option<Value>)
    ensures v.Some? <==> Lookup(a, "fill").Some?
    ensures v.Some? ==> Val(v.value) == Normalise(Val(ValOpt(a, "fill").value))
  {
    match ValOpt(a, "fill")
    case Some(Str("true")) => Some(Bool(true))
    case Some(Str("false")) => Some(Bool(false))
    case other => other
  }

  /** The symbol hash: shape, colour unless the shape is none, then the
      given fill value and the scale option as a string. */
  function SymbolHash(a: Args, fill: Option<Value>): (s: seq<(string, Value)>)
    requires |a.pos| >= 1 && (a.pos[0] != "none" ==> |a.pos| >= 2)
    ensures Get(s, "shape") == Some(Str(a.pos[0]))
    ensures Get(s, "color") == if a.pos[0] != "none" then Some(Str(a.pos[1])) else None
    ensures Get(s, "fill") == fill
    ensures Get(s, "scale") == StrOpt(a, "scale")
  {
    var s0: seq<(string, Value)> := [("shape", Str(a.pos[0]))];
    assert Get(s0, "color") == None && Get(s0, "fill") == None && Get(s0, "scale") == None;
    var s1 := PutMaybe(s0, "color", if a.pos[0] != "none" then Some(Str(a.pos[1])) else None);
    PutMaybe(PutMaybe(s1, "fill", fill), "scale", StrOpt(a, "scale"))
  }

  /** `symbol 'shape' [, color] [, fill=bool, scale=real]`, with the fill
      option stored as the boolean it names. */
  function Symbol(o: Obj, a: Args): (r: Reply)
    ensures r.Refused? <==> Count(a) < 2 || (a.pos[0] != "none" && Count(a) < 3)
    ensures r.Refused? ==> r.msg in {"Expecting \"symbol shape\"", "Expecting \"symbol shape, color\""}
    ensures r.Ok? ==> OnlyKey(o, r.o, "symbol")
    ensures r.Ok? ==> Field(r.o, "symbol", "shape") == Some(Str(a.pos[0]))
    ensures r.Ok? ==> Field(r.o, "symbol", "color") == if a.pos[0] != "none" then Some(Str(a.pos[1])) else None
    ensures r.Ok? ==> Field(r.o, "symbol", "fill") == FillOpt(a)
    ensures r.Ok? ==> Field(r.o, "symbol", "scale") == StrOpt(a, "scale")
    ensures r.Ok? || r.Refused?
  {
    if Count(a) < 2 then Refused("Expecting \"symbol shape\"")
    else if a.pos[0] != "none" && Count(a) < 3 then Refused("Expecting \"symbol shape, color\"")
    else Ok(SetKey(o, "symbol", Dict(SymbolHash(a, FillOpt(a)))))
  }

  /** `symbol` as written: the fill option is stored as the text given, so
      `fill=false` stores the string "false". */
  function SymbolAsWritten(o: Obj, a: Args): (r: Reply)
    ensures r.Refused? <==> Count(a) < 2 || (a.pos[0] != "none" && Count(a) < 3)
    ensures r.Ok? ==> OnlyKey(o, r.o, "symbol")
    ensures r.Ok? ==> Field(r.o, "symbol", "fill") == ValOpt(a, "fill")
  {
    if Count(a) < 2 then Refused("Expecting \"symbol shape\"")
    else if a.pos[0] != "none" && Count(a) < 3 then Refused("Expecting \"symbol shape, color\"")
    else Ok(SetKey(o, "symbol", Dict(SymbolHash(a, ValOpt(a, "fill")))))
  }

  /** `symbol circle, red, fill=false`: as written the stored fill is the
      string "false", which Ruby treats as true, so the renderer fills the
      marker; the corrected command stores false. */
  lemma FillFalseStoredAsText(o: Obj)
    ensures var a := Args(["circle", "red"], [(Some("fill"), Some("false"))]);
      && Field(SymbolAsWritten(o, a).o, "symbol", "fill") == Some(Str("false"))
      && Truthy(Str("false"))
      && Field(Symbol(o, a).o, "symbol", "fill") == Some(Bool(false))
      && !Truthy(Bool(false))
  {
    var a := Args(["circle", "red"], [(Some("fill"), Some("false"))]);
    assert Lookup(a, "fill") == Some(Some("false"));
  }

  /** The message raised for an expression the checker refuses. */
  function Unevaluable(expr: string, word: string): string
  {
    "Unable to evaluate '" + expr + "': '" + word + "'"
  }

  /** The outcome of filling the dataset, as a command reply. */
  function Filled(o: Obj, out: Datasets.Outcome): (r: Reply)
    ensures out.Done? <==> r.Ok?
    ensures r.Ok? ==> r.o == o.(ds := out.d)
    ensures out.Failed? || out.ShiftFailed? <==> r.Raised?
    ensures out.Failed? ==> r.msg == out.msg
    ensures out.Unbounded? <==> r.Spins?
  {
    match out
    case Done(d) => Ok(o.(ds := d))
    case Failed(m) => Raised(m)
    case ShiftFailed(e) => Raised("Unable to evaluate shift '" + e + "'")
    case Unbounded => Spins
  }

  /** `generate 'expr', xmin, xmax, dx`: a refused expression raises;
      otherwise y = f(x) is sampled into the dataset. */
  ghost function Generate(o: Obj, a: Args, h: Host): (r: Reply)
    ensures r.Refused? <==> Count(a) != 5
    ensures r.Refused? ==> r.msg == "Expecting \"expr, xmin, xmax, dx\""
    ensures Count(a) == 5 && Expressions.Check(a.pos[0], Expressions.Allowed(h.gsl)).Unsafe? ==>
      r == Raised(Unevaluable(a.pos[0], Expressions.Check(a.pos[0], Expressions.Allowed(h.gsl)).word))
    ensures Count(a) == 5 && Expressions.Check(a.pos[0], Expressions.Allowed(h.gsl)).Safe? ==>
      r == Filled(o, Datasets.GenerateFx(o.ds, a.pos[0], h.toF(a.pos[1]), h.toF(a.pos[2]),
                                         h.toF(a.pos[3]), h.eval))
  {
    if Count(a) != 5 then Refused("Expecting \"expr, xmin, xmax, dx\"")
    else
      match Expressions.Check(a.pos[0], Expressions.Allowed(h.gsl))
      case Unsafe(w) => Raised(Unevaluable(a.pos[0], w))
      case Safe =>
        Filled(o, Datasets.GenerateFx(o.ds, a.pos[0], h.toF(a.pos[1]), h.toF(a.pos[2]), h.toF(a.pos[3]),
                                      h.eval))
  }

  /** `generate_t 'xexpr', 'yexpr', tmin, tmax, dt`: both expressions are
      checked, x first. */
  ghost function GenerateT(o: Obj, a: Args, h: Host): (r: Reply)
    ensures r.Refused? <==> Count(a) != 6
    ensures r.Refused? ==> r.msg == "Expecting \"xexpr, yexpr, tmin, tmax, dt\""
    ensures Count(a) == 6 && Expressions.Check(a.pos[0], Expressions.Allowed(h.gsl)).Unsafe? ==>
      r == Raised(Unevaluable(a.pos[0], Expressions.Check(a.pos[0], Expressions.Allowed(h.gsl)).word))
    ensures (Count(a) == 6 && Expressions.Check(a.pos[0], Expressions.Allowed(h.gsl)).Safe?
             && Expressions.Check(a.pos[1], Expressions.Allowed(h.gsl)).Unsafe?) ==>
      r == Raised(Unevaluable(a.pos[1], Expressions.Check(a.pos[1], Expressions.Allowed(h.gsl)).word))
    ensures (Count(a) == 6 && Expressions.Check(a.pos[0], Expressions.Allowed(h.gsl)).Safe?
             && Expressions.Check(a.pos[1], Expressions.Allowed(h.gsl)).Safe?) ==>
      r == Filled(o, Datasets.GenerateXyt(o.ds, a.pos[0], a.pos[1], h.toF(a.pos[2]), h.toF(a.pos[3]),
                                          h.toF(a.pos[4]), h.eval))
  {
    if Count(a) != 6 then Refused("Expecting \"xexpr, yexpr, tmin, tmax, dt\"")
    else
      var allowed := Expressions.Allowed(h.gsl);
      match Expressions.Check(a.pos[0], allowed)
      case Unsafe(w) => Raised(Unevaluable(a.pos[0], w))
      case Safe =>
        match Expressions.Check(a.pos[1], allowed)
        case Unsafe(w) => Raised(Unevaluable(a.pos[1], w))
        case Safe =>
          Filled(o, Datasets.GenerateXyt(o.ds, a.pos[0], a.pos[1], h.toF(a.pos[2]), h.toF(a.pos[3]),
                                         h.toF(a.pos[4]), h.eval))
  }

  /** An integer option with its default. */
  function IntOpt(a: Args, name: string, dflt: int, toI: string -> int): (n: int)
    ensures Lookup(a, name).None? ==> n == dflt
    ensures Lookup(a, name).Some? ==> n == toI(ToS(Lookup(a, name).value))
  {
    match Lookup(a, name)
    case None => dflt
    case Some(v) => toI(ToS(v))
  }

  /** The shift expression of an option, nil when absent. */
  function ShiftOpt(a: Args, name: string): (s: Option<string>)
    ensures s.Some? ==> Lookup(a, name) == Some(s)
    ensures Lookup(a, name).None? ==> s.None?
  {
    match Lookup(a, name)
    case Some(Some(e)) => Some(e)
    case _ => None
  }

  /** The read options with the defaults: x from column 1, y from column 2,
      no error columns, every row. */
  function ReadOpts(a: Args, toI: string -> int): (o: Datasets.ReadOptions)
    ensures Lookup(a, "xcol").None? ==> o.xcol == 1
    ensures Lookup(a, "ycol").None? ==> o.ycol == 2
    ensures Lookup(a, "xerrcol").None? ==> o.xerrcol == 0
    ensures Lookup(a, "yerrcol").None? ==> o.yerrcol == 0
    ensures Lookup(a, "every").None? ==> o.every == 1
    ensures o.xshift == ShiftOpt(a, "xshift") && o.yshift == ShiftOpt(a, "yshift")
  {
    Datasets.ReadOptions(IntOpt(a, "xcol", 1, toI), IntOpt(a, "ycol", 2, toI), IntOpt(a, "xerrcol", 0, toI),
                         IntOpt(a, "yerrcol", 0, toI), IntOpt(a, "every", 1, toI),
                         ShiftOpt(a, "xshift"), ShiftOpt(a, "yshift"))
  }

  const DefaultDelim := " \t,;:"

  /** The delimiter characters a data line is split at. */
  function Delim(a: Args): (s: string)
    ensures Lookup(a, "delim").None? ==> s == DefaultDelim
  {
    match Lookup(a, "delim")
    case None => DefaultDelim
    case Some(v) => ToS(v)
  }

  /** `read 'file' [, opt=value ...]`: the second argument must be the
      options hash (a second positional string raises on `has_key?`); the
      shifts are checked, x first; then the file's rows are read. */
  function Read(o: Obj, a: Args, h: Host): (r: Reply)
    ensures r.Refused? <==> Count(a) < 2
    ensures r.Refused? ==> r.msg == "Expecting data file path"
    ensures |a.pos| >= 2 ==> r.Raised?
    ensures r.Ok? ==> |a.pos| == 1 && r.o == o.(ds := r.o.ds)
    ensures r.Ok? ==> r.o.ds.xerror == (o.ds.xerror || ReadOpts(a, h.toI).xerrcol > 0)
    ensures r.Ok? ==> r.o.ds.yerror == (o.ds.yerror || ReadOpts(a, h.toI).yerrcol > 0)
    ensures r.Ok? && Datasets.Tracks(o.ds) ==> Datasets.Tracks(r.o.ds)
    ensures |a.pos| == 1 && h.readFile(a.pos[0]).None? ==> r.Raised?
    ensures r.SyntaxRaised? ==> exists e :: ShiftGiven(a, h.toI, e) && h.syntax(e) == Some(r.msg)
    ensures !r.Spins?
  {
    if Count(a) < 2 then Refused("Expecting data file path")
    else if |a.pos| >= 2 then Raised("undefined method 'has_key?' for String")
    else
      var ro := ReadOpts(a, h.toI);
      var allowed := Expressions.Allowed(h.gsl);
      var xs := if ro.xshift.Some? then Expressions.Check(ro.xshift.value, allowed) else Expressions.Safe;
      var ys := if ro.yshift.Some? then Expressions.Check(ro.yshift.value, allowed) else Expressions.Safe;
      if xs.Unsafe? then Raised(Unevaluable(ro.xshift.value, xs.word))
      else if ys.Unsafe? then Raised(Unevaluable(ro.yshift.value, ys.word))
      else
        var delim := Delim(a);
        var out := Datasets.Read(o.ds, h.readFile(a.pos[0]), line => h.split(line, delim), ro, h.toF, ShiftEval(h));
        if out.ShiftFailed? && h.syntax(out.expr).Some? then
          assert ShiftGiven(a, h.toI, out.expr);
          SyntaxRaised(h.syntax(out.expr).value)
        else Filled(o, out)
  }

  /** `read 'f.dat', xshift='x+'` on a file with one qualifying row: the
      checker passes `x+` (its only word is x), so `eval` raises Ruby's
      SyntaxError on that row, and nothing in `read` rescues it. */
  lemma ShiftSyntaxError(o: Obj, h: Host, m: string)
    requires h.readFile("f.dat") == Some(["1 2"]) && h.split("1 2", " \t,;:") == ["1", "2"]
    requires h.syntax("x+") == Some(m)
    ensures Read(o, Args(["f.dat"], [(Some("xshift"), Some("x+"))]), h) == SyntaxRaised(m)
  {
    var a := Args(["f.dat"], [(Some("xshift"), Some("x+"))]);
    XShiftOnly(a, h.toI);
    var ro := ReadOpts(a, h.toI);
    XPlusPasses(h.gsl);
    var split := line => h.split(line, Delim(a));
    var ev := ShiftEval(h);
    Datasets.OneLineShiftFails(o.ds, "1 2", split, ro, h.toF, ev);
  }

  lemma XShiftOnly(a: Args, toI: string -> int)
    requires a == Args(["f.dat"], [(Some("xshift"), Some("x+"))])
    ensures ReadOpts(a, toI) == Datasets.ReadOptions(1, 2, 0, 0, 1, Some("x+"), None)
    ensures Delim(a) == DefaultDelim && Count(a) == 2
  {
    assert Lookup(a, "xshift") == Some(Some("x+"));
    assert Lookup(a, "yshift").None? && Lookup(a, "delim").None?;
    assert Lookup(a, "xcol").None? && Lookup(a, "ycol").None? && Lookup(a, "every").None?;
    assert Lookup(a, "xerrcol").None? && Lookup(a, "yerrcol").None?;
  }

  lemma XPlusPasses(gsl: set<string>)
    ensures Expressions.Check("x+", Expressions.Allowed(gsl)).Safe?
  {
    assert !Expressions.IsLetter("x+"[1]);
    forall i, j | Expressions.IsRun("x+", i, j)
      ensures "x+"[i..j] in Expressions.Allowed(gsl)
    {
      assert i == 0 && j == 1;
      assert "x+"[0..1] == "x";
      Expressions.VariablesAllowed(gsl);
    }
  }

  /** e is one of the shift expressions of a `read`. */
  predicate ShiftGiven(a: Args, toI: string -> int, e: string)
  {
    ReadOpts(a, toI).xshift == Some(e) || ReadOpts(a, toI).yshift == Some(e)
  }

  /** `eval` of a shift: a text Ruby cannot parse never gives a value. */
  function ShiftEval(h: Host): (ev: Datasets.Eval)
    ensures forall e, b :: h.syntax(e).Some? ==> ev(e, b).None?
  {
    (e, b) => if h.syntax(e).Some? then None else h.eval(e, b)
  }

  /** Key k holds a label made from the arguments: title text and colour,
      position "x,y", and the angle as a string when given. */
  predicate LabelAt(o: Obj, k: string, a: Args)
    requires |a.pos| >= 3
  {
    && Field(o, k, "position") == Some(Str(a.pos[1] + "," + a.pos[2]))
    && Field(o, k, "angle") == StrOpt(a, "angle")
    && var t := Field(o, k, "title");
       t.Some? && t.value.Dict?
       && Get(t.value.entries, "text") == Some(Str(a.pos[0]))
       && Get(t.value.entries, "color") == ValOpt(a, "color")
  }

  /** The label hash: the title (text and colour), the position and the
      angle. */
  function LabelHash(a: Args): (lb: seq<(string, Value)>)
    requires |a.pos| >= 3
    ensures Get(lb, "position") == Some(Str(a.pos[1] + "," + a.pos[2]))
    ensures Get(lb, "angle") == StrOpt(a, "angle")
    ensures var t := Get(lb, "title");
      t.Some? && t.value.Dict? && Get(t.value.entries, "text") == Some(Str(a.pos[0]))
      && Get(t.value.entries, "color") == ValOpt(a, "color")
  {
    var t0: seq<(string, Value)> := [("text", Str(a.pos[0]))];
    assert Get(t0, "color") == None;
    var t := PutMaybe(t0, "color", ValOpt(a, "color"));
    var lb0: seq<(string, Value)> := [("title", Dict(t))];
    assert Get(lb0, "angle") == None && Get(lb0, "position") == None;
    PutMaybe(Put(lb0, "position", Str(a.pos[1] + "," + a.pos[2])), "angle", StrOpt(a, "angle"))
  }

  const LabelSyntax := "Expecting \"label \\\"text\\\", x, y"

  /** `label 'text', x, y [, color=clr, angle=ang]` on a plot: a numbered
      label child holding the title, the position "x,y" and the angle. */
  function Label(o: Obj, a: Args): (r: Reply)
    ensures r.Refused? <==> Count(a) != 4
    ensures r.Refused? ==> r.msg == LabelSyntax
    ensures r.Ok? ==> r.o == o.(data := r.o.data)
    ensures r.Ok? ==> forall k :: k != StoreKey(o, "label") ==> Get(r.o.data, k) == Get(o.data, k)
    ensures r.Ok? ==> LabelAt(r.o, StoreKey(o, "label"), a)
    ensures r.Ok? || r.Refused?
  {
    if Count(a) != 4 then Refused(LabelSyntax)
    else
      Ok(AddData(o, "label", Val(Dict(LabelHash(a)))))
  }

  const KeySyntax := "Expecting \"key hide\" or \"key x, y\""

  /** Sets field f of the document object under key; raises when the key
      does not hold one (Ruby's `nil[f] = v`). */
  function SetField(o: Obj, key: string, f: string, v: Value): (r: Reply)
    ensures r.Ok? <==> exists es :: Get(o.data, key) == Some(Val(Dict(es)))
    ensures r.Ok? ==> OnlyKey(o, r.o, key) && Field(r.o, key, f) == Some(v)
    ensures r.Ok? ==> forall g :: g != f ==> Field(r.o, key, g) == Field(o, key, g)
    ensures r.Ok? || r.Raised?
  {
    var g := Get(o.data, key);
    if g.Some? && g.value.Val? && g.value.v.Dict? then Ok(SetKey(o, key, Dict(Put(g.value.v.entries, f, v))))
    else Raised("undefined method '[]=' for " + key)
  }

  /** `key hide` replaces the key object by {show: false}; `key x, y` sets
      only its position. With a single argument the options hash itself is
      the second coordinate, written by `Hash#inspect`. */
  function Key(o: Obj, a: Args, inspect: seq<(Option<string>, Option<string>)> -> string): (r: Reply)
    ensures r.Refused? <==> Count(a) < 2 || Count(a) > 3
    ensures r.Refused? ==> r.msg == KeySyntax
    ensures r.Ok? && a.pos[0] == "hide" ==>
      OnlyKey(o, r.o, "key") && Get(r.o.data, "key") == Some(Val(Dict([("show", Bool(false))])))
    ensures !r.Refused? && a.pos[0] != "hide" ==>
      r == SetField(o, "key", "position",
                    Str(a.pos[0] + "," + if |a.pos| == 2 then a.pos[1] else inspect(a.opts)))
    ensures !r.Spins?
  {
    if Count(a) < 2 || Count(a) > 3 then Refused(KeySyntax)
    else if a.pos[0] == "hide" then Ok(SetKey(o, "key", Dict([("show", Bool(false))])))
    else SetField(o, "key", "position", Str(a.pos[0] + "," + if |a.pos| == 2 then a.pos[1] else inspect(a.opts)))
  }

  /** `rgb 'colorname', 'r g b'` on a figure: one entry of the colour table. */
  function Rgb(o: Obj, a: Args): (r: Reply)
    ensures r.Refused? <==> Count(a) != 3
    ensures r.Refused? ==> r.msg == "Expecting rgb \"colorname\", \"r g b\""
    ensures !r.Refused? ==> r == SetField(o, "rgb", a.pos[0], Str(a.pos[1]))
    ensures !r.Spins?
  {
    if Count(a) != 3 then Refused("Expecting rgb \"colorname\", \"r g b\"")
    else SetField(o, "rgb", a.pos[0], Str(a.pos[1]))
  }

  /** `obj.send(name, args)` for a command of the object's kind. */
  ghost function RunCommand(o: Obj, name: string, a: Args, h: Host): (r: Reply)
    requires name in Commands(o.kind)
    ensures r.Ok? ==> r.o.kind == o.kind && r.o.indexSubs == o.indexSubs
  {
    match name
    case "title" => Title(o, a)
    case "line" => Line(o, a)
    case "head" => Head(o, a)
    case "symbol" => Symbol(o, a)
    case "generate" => Generate(o, a, h)
    case "generate_t" => GenerateT(o, a, h)
    case "read" => Read(o, a, h)
    case "label" => Label(o, a)
    case "key" => Key(o, a, h.inspect)
    case _ => Rgb(o, a)
  }

  // ---------------------------------------------------------------------------
  // Finalisation and rendering
  // ---------------------------------------------------------------------------

  /** The plural key listing a numbered child: `es` after a final x. */
  function Plural(name: string): (p: string)
  {
    if |name| > 0 && name[|name| - 1] == 'x' then name + "es" else name + "s"
  }

  /** For each name in turn, the plural key lists the keys containing it. */
  function Plurals(data: seq<(string, Entry)>, names: seq<string>): seq<(string, Entry)>
    decreases |names|
  {
    if names == [] then data
    else Plurals(PluralStep(data, names[0]), names[1..])
  }

  function Axes(): seq<string>
  {
    ["xaxis", "yaxis", "xaxis2", "yaxis2"]
  }

  /** Stores an empty axis object under each absent name. A new Axis has no
      data and no numbered children, so it renders as {} (see
      RenderNewAxis); the model stores that rendering. */
  function AddAxes(data: seq<(string, Entry)>, names: seq<string>): seq<(string, Entry)>
    decreases |names|
  {
    if names == [] then data
    else
      var d1 := if names[0] in Keys(data) then data else Put(data, names[0], Val(Dict([])));
      AddAxes(d1, names[1..])
  }

  /** The hash {x:, y:} with xerr and yerr added when given. */
  function WithErrors(xs: Value, ys: Value, xe: Option<Value>, ye: Option<Value>): (h: seq<(string, Value)>)
    ensures Get(h, "x") == Some(xs) && Get(h, "y") == Some(ys)
    ensures Get(h, "xerr") == xe && Get(h, "yerr") == ye
  {
    var base := [("x", xs), ("y", ys)];
    assert Get(base, "x") == Some(xs) && Get(base, "y") == Some(ys);
    assert Get(base, "xerr") == None && Get(base, "yerr") == None;
    PutMaybe(PutMaybe(base, "xerr", xe), "yerr", ye)
  }

  /** The data of a curve: x and y values, and the error values whose flag
      is set. */
  function CurveData(d: Datasets.Dataset): (v: Value)
    ensures v.Dict?
    ensures Get(v.entries, "x") == Some(NumList(Datasets.XArr(d)))
    ensures Get(v.entries, "y") == Some(NumList(Datasets.YArr(d)))
    ensures Get(v.entries, "xerr") == if d.xerror then Some(NumList(Datasets.XErrArr(d))) else None
    ensures Get(v.entries, "yerr") == if d.yerror then Some(NumList(Datasets.YErrArr(d))) else None
  {
    Dict(WithErrors(NumList(Datasets.XArr(d)), NumList(Datasets.YArr(d)),
                    if d.xerror then Some(NumList(Datasets.XErrArr(d))) else None,
                    if d.yerror then Some(NumList(Datasets.YErrArr(d))) else None))
  }

  /** `_pre_json` of each kind. */
  function PreJson(o: Obj): seq<(string, Entry)>
  {
    match o.kind
    case Curve => Put(o.data, "data", Val(CurveData(o.ds)))
    case Plot => AddAxes(o.data, Axes())
    case _ => o.data
  }

  /** The finalisation in `to_json`, run only while `built` is unset. */
  function Build(o: Obj): (r: Obj)
    ensures r.built && r == o.(data := r.data, built := true)
    ensures o.built ==> r == o
    ensures forall p :: p in r.data && p.1.Child? ==> p in o.data
  {
    if o.built then o
    else
      var d := Plurals(PreJson(o), ListSubs(o.kind));
      EntriesKept(o, d);
      o.(data := d, built := true)
  }

  /** Finalisation adds plain values only. */
  lemma EntriesKept(o: Obj, d: seq<(string, Entry)>)
    requires d == Plurals(PreJson(o), ListSubs(o.kind))
    ensures forall p :: p in d && p.1.Child? ==> p in o.data
  {
    var pj := PreJson(o);
    assert forall p :: p in pj && p.1.Child? ==> p in o.data by {
      if o.kind == Curve { PutEntries(o.data, "data", Val(CurveData(o.ds))); }
      else if o.kind == Plot { AddAxesEntries(o.data, Axes()); }
    }
    PluralsEntries(pj, ListSubs(o.kind));
  }

  lemma {:induction false} AddAxesEntries(data: seq<(string, Entry)>, names: seq<string>)
    ensures forall p :: p in AddAxes(data, names) && p.1.Child? ==> p in data
    decreases |names|
  {
    if names != [] {
      var d1 := if names[0] in Keys(data) then data else Put(data, names[0], Val(Dict([])));
      if names[0] !in Keys(data) { PutEntries(data, names[0], Val(Dict([]))); }
      AddAxesEntries(d1, names[1..]);
    }
  }

  lemma {:induction false} PluralsEntries(data: seq<(string, Entry)>, names: seq<string>)
    ensures forall p :: p in Plurals(data, names) && p.1.Child? ==> p in data
    decreases |names|
  {
    if names != [] {
      PutEntries(data, Plural(names[0]), Val(StrList(KeysContaining(data, names[0]))));
      PluralsEntries(PluralStep(data, names[0]), names[1..]);
    }
  }

  /** `to_json`: the finalised data, with sub-objects rendered in turn. */
  function Render(o: Obj): (v: Value)
    ensures v.Dict?
    decreases o, 1
  {
    var b := Build(o);
    Dict(RenderData(o, b.data))
  }

  function RenderData(o: Obj, es: seq<(string, Entry)>): (r: seq<(string, Value)>)
    requires forall p :: p in es && p.1.Child? ==> p in o.data
    ensures Keys(r) == Keys(es)
    decreases o, 0, |es|
  {
    if es == [] then []
    else
      var p := es[0];
      var v := match p.1
        case Val(x) => x
        case Child(c) => assert p in o.data; Render(c);
      [(p.0, v)] + RenderData(o, es[1..])
  }

  // ---------------------------------------------------------------------------
  // Properties of finalisation
  // ---------------------------------------------------------------------------

  /** A fresh Axis renders as the empty object. */
  lemma RenderNewAxis(indexSubs: bool)
    ensures Render(New(Axis, indexSubs)) == Dict([])
  {
    var o := New(Axis, indexSubs);
    assert Build(o).data == [];
  }

  lemma {:induction false} RenderDataAnyOwner(o1: Obj, o2: Obj, es: seq<(string, Entry)>)
    requires forall p :: p in es && p.1.Child? ==> p in o1.data
    requires forall p :: p in es && p.1.Child? ==> p in o2.data
    ensures RenderData(o1, es) == RenderData(o2, es)
    decreases |es|
  {
    if es != [] {
      RenderDataAnyOwner(o1, o2, es[1..]);
    }
  }

  /** Finalisation runs once: rendering an object already finalised gives
      the same document as rendering it the first time. */
  lemma RenderOnce(o: Obj)
    ensures Build(Build(o)) == Build(o)
    ensures Render(Build(o)) == Render(o)
  {
    var b := Build(o);
    RenderDataAnyOwner(b, o, b.data);
  }

  /** Steps for names that are not k leave k alone. */
  lemma {:induction false} PluralsOther(data: seq<(string, Entry)>, names: seq<string>, k: string)
    requires forall i :: 0 <= i < |names| ==> Plural(names[i]) != k
    ensures Get(Plurals(data, names), k) == Get(data, k)
    decreases |names|
  {
    if names != [] {
      PluralsOther(PluralStep(data, names[0]), names[1..], k);
    }
  }

  /** Listing never removes a key. */
  lemma {:induction false} PluralsKeys(data: seq<(string, Entry)>, names: seq<string>)
    ensures forall s :: s in Keys(data) ==> s in Keys(Plurals(data, names))
    decreases |names|
  {
    if names != [] {
      PutKeys(data, Plural(names[0]), Val(StrList(KeysContaining(data, names[0]))));
      PluralsKeys(PluralStep(data, names[0]), names[1..]);
    }
  }

  /** One listing step. */
  function PluralStep(data: seq<(string, Entry)>, name: string): seq<(string, Entry)>
  {
    Put(data, Plural(name), Val(StrList(KeysContaining(data, name))))
  }

  lemma PluralsUnfold(data: seq<(string, Entry)>, names: seq<string>, j: nat)
    requires 0 < j <= |names|
    ensures Plurals(data, names) == Plurals(PluralStep(data, names[0]), names[1..])
    ensures Plurals(data, names[..j]) == Plurals(PluralStep(data, names[0]), names[1..][..j - 1])
  {
    assert names[..j][0] == names[0] && names[..j][1..] == names[1..][..j - 1];
  }

  /** With distinct plural keys, the plural key of the j-th name lists the
      keys containing that name when its turn came, which include every key
      of the data before finalisation that contains it. */
  lemma {:induction false} PluralsListed(data: seq<(string, Entry)>, names: seq<string>, j: nat)
    requires j < |names|
    requires forall i, i' :: 0 <= i < i' < |names| ==> Plural(names[i]) != Plural(names[i'])
    ensures Get(Plurals(data, names), Plural(names[j])) ==
      Some(Val(StrList(KeysContaining(Plurals(data, names[..j]), names[j]))))
    ensures forall s :: s in Keys(data) && Contains(s, names[j]) ==>
      s in KeysContaining(Plurals(data, names[..j]), names[j])
    decreases |names|
  {
    var d1 := PluralStep(data, names[0]);
    PluralsUnfold(data, names, j + 1);
    if j == 0 {
      assert names[..0] == [];
      PluralsOther(d1, names[1..], Plural(names[0]));
    } else {
      PluralsUnfold(data, names, j);
      PluralsListed(d1, names[1..], j - 1);
      PutKeys(data, Plural(names[0]), Val(StrList(KeysContaining(data, names[0]))));
    }
  }

  /** Each absent axis name gets an empty axis; present ones are kept. */
  lemma {:induction false} AddAxesGet(data: seq<(string, Entry)>, names: seq<string>, k: string)
    ensures k in names && k !in Keys(data) ==> Get(AddAxes(data, names), k) == Some(Val(Dict([])))
    ensures k !in names || k in Keys(data) ==> Get(AddAxes(data, names), k) == Get(data, k)
    decreases |names|
  {
    if names != [] {
      var d1 := if names[0] in Keys(data) then data else Put(data, names[0], Val(Dict([])));
      AddAxesGet(d1, names[1..], k);
      assert k in names <==> k == names[0] || k in names[1..];
    }
  }

  lemma {:induction false} AddAxesKeys(data: seq<(string, Entry)>, names: seq<string>)
    ensures forall s :: s in Keys(data) ==> s in Keys(AddAxes(data, names))
    decreases |names|
  {
    if names != [] {
      var d1 := if names[0] in Keys(data) then data else Put(data, names[0], Val(Dict([])));
      PutKeys(data, names[0], Val(Dict([])));
      AddAxesKeys(d1, names[1..]);
    }
  }

  /** A plural key starts like its name. */
  lemma PluralPrefix(n: string)
    requires |n| >= 2
    ensures |Plural(n)| >= 2 && Plural(n)[0] == n[0] && Plural(n)[1] == n[1]
  {
  }

  /** The plural keys of the numbered children of each kind are distinct,
      and none starts with x or y (as the axis names do). */
  lemma PluralsOfKind(kind: Kind)
    ensures forall i :: 0 <= i < |ListSubs(kind)| ==>
      |Plural(ListSubs(kind)[i])| >= 2 && Plural(ListSubs(kind)[i])[0] != 'x' && Plural(ListSubs(kind)[i])[0] != 'y'
    ensures forall i, i' :: 0 <= i < i' < |ListSubs(kind)| ==> Plural(ListSubs(kind)[i]) != Plural(ListSubs(kind)[i'])
  {
    var names := ListSubs(kind);
    forall i | 0 <= i < |names|
      ensures |Plural(names[i])| >= 2 && Plural(names[i])[0] == names[i][0] && Plural(names[i])[1] == names[i][1]
    {
      PluralPrefix(names[i]);
    }
  }

  /** Keys that are no plural key of the kind keep their pre-listing value. */
  lemma BuildGet(o: Obj, k: string)
    requires !o.built
    requires forall i :: 0 <= i < |ListSubs(o.kind)| ==> Plural(ListSubs(o.kind)[i]) != k
    ensures Get(Build(o).data, k) == Get(PreJson(o), k)
  {
    PluralsOther(PreJson(o), ListSubs(o.kind), k);
  }

  /** `_pre_json` only adds keys. */
  lemma PreJsonKeys(o: Obj)
    ensures forall s :: s in Keys(o.data) ==> s in Keys(PreJson(o))
  {
    match o.kind
    case Plot => AddAxesKeys(o.data, Axes());
    case Curve => PutKeys(o.data, "data", Val(CurveData(o.ds)));
    case _ =>
  }

  /** Plot finalisation: each of xaxis, yaxis, xaxis2, yaxis2 that is absent
      becomes an empty axis; present ones are untouched. */
  lemma BuildPlotAxes(o: Obj, ax: string)
    requires o.kind == Plot && !o.built && ax in Axes()
    ensures ax !in Keys(o.data) ==> Get(Build(o).data, ax) == Some(Val(Dict([])))
    ensures ax in Keys(o.data) ==> Get(Build(o).data, ax) == Get(o.data, ax)
  {
    PluralsOfKind(o.kind);
    BuildGet(o, ax);
    AddAxesGet(o.data, Axes(), ax);
  }

  /** Finalisation of an object with numbered children: the plural key of
      each listed name holds, in insertion order, the keys containing it
      when its turn came, among them every such key the object had. */
  lemma BuildLists(o: Obj, j: nat)
    requires !o.built && j < |ListSubs(o.kind)|
    ensures var names := ListSubs(o.kind);
      && Get(Build(o).data, Plural(names[j])) ==
         Some(Val(StrList(KeysContaining(Plurals(PreJson(o), names[..j]), names[j]))))
      && forall s :: s in Keys(o.data) && Contains(s, names[j]) ==>
           s in KeysContaining(Plurals(PreJson(o), names[..j]), names[j])
  {
    PluralsOfKind(o.kind);
    PluralsListed(PreJson(o), ListSubs(o.kind), j);
    PreJsonKeys(o);
  }

  /** Curve finalisation: `data` holds x and y lists of equal length, and
      xerr / yerr exactly when the matching error flag is set. */
  lemma BuildCurveData(o: Obj)
    requires o.kind == Curve && !o.built
    ensures var d := Get(Build(o).data, "data");
      && d.Some? && d.value.Val? && d.value.v.Dict?
      && var es := d.value.v.entries;
         && Get(es, "x") == Some(NumList(Datasets.XArr(o.ds)))
         && Get(es, "y") == Some(NumList(Datasets.YArr(o.ds)))
         && |Datasets.XArr(o.ds)| == |Datasets.YArr(o.ds)| == |o.ds.points|
         && (Get(es, "xerr").Some? <==> o.ds.xerror)
         && (Get(es, "yerr").Some? <==> o.ds.yerror)
  {
    assert Build(o).data == Put(o.data, "data", Val(CurveData(o.ds)));
  }
}

=== FILE: parser.dfy ===
/** The DSL parser: a stack of open objects driven by the lexer. Each step
    reads one token and either sets a flag, closes the current object, reads
    an `x, y` pair, runs a command on its arguments, opens a child object or
    stores a key/value pair. Syntax errors become a failed parse; a command
    that raises, or the lexer running out right after an argument, ends the
    parse with an exception. */
module Parser {
  import opened Support
  import opened Document
  import opened Lexing
  import opened Objects

  datatype Outcome = Parsed(doc: Value) | SyntaxFail(msg: string) | Abort(msg: string) | Diverges

  /** An open object and the key its parent stores it under. */
  datatype Frame = Frame(o: Obj, slot: string)

  /** The words whose block creates an object of a known kind. */
  function Registry(w: string): Option<Kind>
  {
    match w
    case "xaxis" => Some(Axis)
    case "yaxis" => Some(Axis)
    case "xaxis2" => Some(Axis)
    case "yaxis2" => Some(Axis)
    case "xgrid" => Some(Grid)
    case "ygrid" => Some(Grid)
    case "arrow" => Some(Arrow)
    case "box" => Some(Box)
    case "circle" => Some(Circle)
    case "curve" => Some(Curve)
    case "plot" => Some(Plot)
    case "default" => Some(Default)
    case _ => None
  }

  /** The kind of the object a block opened by w creates: the registered
      one, or a generic object. */
  function BlockKind(w: string): (k: Kind)
    ensures Registry(w).Some? ==> k == Registry(w).value
    ensures Registry(w).None? ==> k == Generic
  {
    match Registry(w)
    case Some(k) => k
    case None => Generic
  }

  /** `_error(msg, tok)`: the message prefixed by the token and its line. */
  function ErrorMsg(t: Token, msg: string): (s: string)
    ensures |s| > |t.value| && s[..|t.value| + 1] == "(" + t.value
    ensures |s| >= |msg| && s[|s| - |msg|..] == msg
  {
    var s := "(" + t.value + ", line " + NatToString(t.line) + "): " + msg;
    assert s[..|t.value| + 1] == "(" + t.value;
    s
  }

  // ---------------------------------------------------------------------------
  // Arguments
  // ---------------------------------------------------------------------------

  /** One argument token: a quoted string is positional; a word is split at
      '=': one field is positional, two or more give an option (first field
      the key, second the value), none gives the nil option; anything else is
      not an argument (None). */
  function AddArg(a: Args, ta: Token): (r: Option<Args>)
    ensures r.None? <==> ta.code in {LBrace, RBrace, Comma}
    ensures ta.code == QString ==> r == Some(a.(pos := a.pos + [ta.value]))
    ensures ta.code == Word && ta.value != "" && '=' !in ta.value ==> r == Some(a.(pos := a.pos + [ta.value]))
    ensures ta.code == Word && |Split(ta.value, '=')| >= 2 ==>
      var v := Split(ta.value, '=');
      r == Some(a.(opts := Put(a.opts, Some(v[0]), Some(v[1]))))
    ensures r.Some? ==> |r.value.pos| >= |a.pos|
    ensures r.Some? && UniqueKeys(a.opts) ==> UniqueKeys(r.value.opts)
  {
    match ta.code
    case QString => Some(a.(pos := a.pos + [ta.value]))
    case Word =>
      var v := Split(ta.value, '=');
      assert ta.value != "" && '=' !in ta.value ==> v == [ta.value] by {
        if ta.value != "" && '=' !in ta.value { SplitNoSep(ta.value, '='); }
      }
      if |v| == 1 then Some(a.(pos := a.pos + [v[0]]))
      else
        var k := if |v| == 0 then None else Some(v[0]);
        var x := if |v| == 0 then None else Some(v[1]);
        assert UniqueKeys(a.opts) ==> UniqueKeys(Put(a.opts, k, x)) by {
          if UniqueKeys(a.opts) { PutUnique(a.opts, k, x); }
        }
        Some(a.(opts := Put(a.opts, k, x)))
    case _ => None
  }

  /** How argument collection ends: with the arguments and the lexer, with a
      syntax error, or with an exception (no token after an argument). */
  datatype Collected = Collected(a: Args, lx: Lexer) | ArgsFail(msg: string) | ArgsCrash(msg: string)

  /** `_collect_args`: arguments separated by commas; the token after the
      last one is pushed back. */
  function CollectArgs(lx: Lexer, t: Token, a: Args): (r: Collected)
    requires lx.pos <= |lx.str|
    ensures r.Collected? ==> r.lx.str == lx.str && r.lx.pos <= |r.lx.str| && Measure(r.lx) < Measure(lx)
    ensures r.Collected? && Valid(lx) ==> Valid(r.lx)
    ensures r.Collected? ==> |r.a.pos| >= |a.pos|
    ensures r.Collected? && UniqueKeys(a.opts) ==> UniqueKeys(r.a.opts)
    ensures NextToken(lx).0.None? ==> r == ArgsFail(ErrorMsg(t, "Missing argument"))
    decreases Measure(lx)
  {
    var (ta, lx1) := NextToken(lx);
    if ta.None? then ArgsFail(ErrorMsg(t, "Missing argument"))
    else
      match AddArg(a, ta.value)
      case None => ArgsFail(ErrorMsg(ta.value, "Unexpected " + ta.value.value))
      case Some(a1) =>
        var (tc, lx2) := NextToken(lx1);
        if tc.None? then ArgsCrash("undefined method 'code' for nil")
        else if tc.value.code != Comma then Collected(a1, PushBack(lx2, tc.value))
        else CollectArgs(lx2, t, a1)
  }

  // ---------------------------------------------------------------------------
  // The stack
  // ---------------------------------------------------------------------------

  function Top(stack: seq<Frame>): Frame
    requires stack != []
  {
    stack[|stack| - 1]
  }

  /** The current object replaced by o. */
  function SetTop(stack: seq<Frame>, o: Obj): (r: seq<Frame>)
    requires stack != []
    ensures TopReplaced(stack, r)
    ensures Top(r) == Frame(o, Top(stack).slot)
  {
    stack[..|stack| - 1] + [Frame(o, Top(stack).slot)]
  }

  /** `stack.pop`: the closed object is written back into its parent under
      its key (the parent holds the same object in Ruby). */
  function Pop(stack: seq<Frame>): (r: seq<Frame>)
    requires stack != []
    ensures |r| == |stack| - 1
    ensures |stack| >= 2 ==> r[..|r| - 1] == stack[..|stack| - 2]
    ensures |stack| >= 2 ==>
      Top(r) == Frame(stack[|stack| - 2].o.(data := Put(stack[|stack| - 2].o.data, Top(stack).slot,
                                                        Child(Top(stack).o))),
                      stack[|stack| - 2].slot)
  {
    if |stack| == 1 then []
    else
      var parent := stack[|stack| - 2];
      var child := Top(stack);
      stack[..|stack| - 2] + [Frame(parent.o.(data := Put(parent.o.data, child.slot, Child(child.o))), parent.slot)]
  }

  /** s' is s with only the current object replaced (its key kept). */
  predicate TopReplaced(s: seq<Frame>, s': seq<Frame>)
  {
    |s| >= 1 && |s'| == |s| && s'[..|s| - 1] == s[..|s| - 1] && s'[|s| - 1].slot == s[|s| - 1].slot
  }

  /** The root of s', if any, is the root of s with its kind and index
      flag unchanged. */
  predicate RootKept(s: seq<Frame>, s': seq<Frame>)
  {
    s' != [] ==> s != [] && s'[0].o.kind == s[0].o.kind && s'[0].o.indexSubs == s[0].o.indexSubs
  }

  /** Every open object's key is a key of its parent. */
  predicate StackOk(stack: seq<Frame>)
  {
    forall i :: 1 <= i < |stack| ==> stack[i].slot in Keys(stack[i - 1].o.data)
  }

  // ---------------------------------------------------------------------------
  // One step of the parse loop
  // ---------------------------------------------------------------------------

  /** What a step leaves: the loop goes on, a command is to be sent to the
      current object with its arguments, or the parse is over. */
  datatype StepResult =
    | Continue(stack: seq<Frame>, lx: Lexer)
    | Call(stack: seq<Frame>, tok: Token, args: Args, lx: Lexer)
    | Stop(out: Outcome)

  /** The message of a parse that ends with n objects open. */
  function LeftOpen(n: nat): string
  {
    NatToString(n) + " items on stack at end"
  }

  /** How a parse that has read every token ends. */
  function AtEnd(stack: seq<Frame>): (out: Outcome)
    requires stack != []
    ensures out.Parsed? <==> |stack| == 1
    ensures out.Parsed? ==> out.doc == Render(stack[0].o)
    ensures out.SyntaxFail? ==> out.msg == LeftOpen(|stack|)
  {
    if |stack| == 1 then Parsed(Render(stack[0].o)) else SyntaxFail(LeftOpen(|stack|))
  }

  /** A key listed in `xy_opts`: exactly two positional arguments (and no
      more), stored as "x,y". */
  function XyPair(stack: seq<Frame>, tok: Token, lx: Lexer): (r: StepResult)
    requires stack != [] && lx.pos <= |lx.str|
    ensures r.Continue? ==> r.lx.str == lx.str && r.lx.pos <= |r.lx.str| && Measure(r.lx) < Measure(lx)
    ensures r.Continue? && Valid(lx) ==> Valid(r.lx)
    ensures r.Continue? ==> TopReplaced(stack, r.stack) && RootKept(stack, r.stack)
    ensures r.Stop? ==> !r.out.Parsed?
    ensures !r.Call?
  {
    match CollectArgs(lx, tok, Args([], []))
    case ArgsFail(m) => Stop(SyntaxFail(m))
    case ArgsCrash(m) => Stop(Abort(m))
    case Collected(a, lx2) =>
      if Count(a) != 3 then Stop(SyntaxFail(ErrorMsg(tok, "Expected x, y args")))
      else
        var obj := Top(stack).o;
        Continue(SetTop(stack, AddData(obj, tok.value, Val(Str(a.pos[0] + "," + a.pos[1])))), lx2)
  }

  /** A command of the current object: its arguments are collected; the
      loop then sends them. */
  function Command(stack: seq<Frame>, tok: Token, lx: Lexer): (r: StepResult)
    requires stack != [] && lx.pos <= |lx.str|
    ensures r.Call? ==> r.lx.str == lx.str && r.lx.pos <= |r.lx.str| && Measure(r.lx) < Measure(lx)
    ensures r.Call? && Valid(lx) ==> Valid(r.lx)
    ensures r.Call? ==> r.stack == stack && r.tok == tok && UniqueKeys(r.args.opts)
    ensures !r.Continue?
    ensures r.Stop? ==> !r.out.Parsed?
  {
    match CollectArgs(lx, tok, Args([], []))
    case ArgsFail(m) => Stop(SyntaxFail(m))
    case ArgsCrash(m) => Stop(Abort(m))
    case Collected(a, lx2) => Call(stack, tok, a, lx2)
  }

  /** Any other key: followed by `{` it opens a child object (of the
      registered kind, or generic) that inherits the index flag; followed by
      any other token it stores that token's text. */
  function KeyOrBlock(stack: seq<Frame>, tok: Token, lx: Lexer): (r: StepResult)
    requires stack != [] && lx.pos <= |lx.str|
    ensures r.Continue? ==> r.lx.str == lx.str && r.lx.pos <= |r.lx.str| && Measure(r.lx) < Measure(lx)
    ensures r.Continue? && Valid(lx) ==> Valid(r.lx)
    ensures r.Continue? ==> |stack| <= |r.stack| <= |stack| + 1
    ensures r.Continue? && |r.stack| == |stack| ==> TopReplaced(stack, r.stack)
    ensures r.Continue? ==> RootKept(stack, r.stack)
    ensures r.Continue? && |r.stack| > |stack| ==>
      TopReplaced(stack, r.stack[..|stack|]) && Top(r.stack).slot in Keys(r.stack[|stack| - 1].o.data)
    ensures NextToken(lx).0.None? ==> r == Stop(SyntaxFail(ErrorMsg(tok, "Missing argument")))
    ensures r.Stop? ==> !r.out.Parsed?
    ensures !r.Call?
  {
    var obj := Top(stack).o;
    var (tn, lx2) := NextToken(lx);
    if tn.None? then Stop(SyntaxFail(ErrorMsg(tok, "Missing argument")))
    else if tn.value.code == LBrace then
      var child := New(BlockKind(tok.value), obj.indexSubs);
      Continue(SetTop(stack, AddData(obj, tok.value, Child(child))) + [Frame(child, StoreKey(obj, tok.value))], lx2)
    else Continue(SetTop(stack, AddData(obj, tok.value, Val(Str(tn.value.value)))), lx2)
  }

  /** What the current object does with the token tok. The tests run in the
      source's order: boolean flag, `}`, `x, y` key, command, other key. */
  function Act(stack: seq<Frame>, tok: Token, lx: Lexer): (r: StepResult)
    requires stack != [] && lx.pos <= |lx.str|
    ensures !r.Stop? ==> r.lx.str == lx.str && r.lx.pos <= |r.lx.str| && Measure(r.lx) <= Measure(lx)
    ensures !r.Stop? && Valid(lx) ==> Valid(r.lx)
    ensures r.Continue? ==> |stack| - 1 <= |r.stack| <= |stack| + 1 && RootKept(stack, r.stack)
    ensures r.Call? ==> r.stack == stack && r.tok == tok && tok.value in Commands(Top(stack).o.kind)
    ensures r.Call? ==> UniqueKeys(r.args.opts)
    ensures r.Stop? ==> !r.out.Parsed?
  {
    var obj := Top(stack).o;
    if tok.value in BoolOpts(obj.kind) then Continue(SetTop(stack, AddData(obj, tok.value, Val(Bool(true)))), lx)
    else if tok.code == RBrace then Continue(Pop(stack), lx)
    else if tok.value in XyOpts(obj.kind) then XyPair(stack, tok, lx)
    else if tok.value in Commands(obj.kind) then Command(stack, tok, lx)
    else KeyOrBlock(stack, tok, lx)
  }

  /** One pass of the loop in `parse`. */
  function Step(stack: seq<Frame>, lx: Lexer): (r: StepResult)
    requires lx.pos <= |lx.str|
    ensures !r.Stop? ==> r.lx.str == lx.str && r.lx.pos <= |r.lx.str| && Measure(r.lx) < Measure(lx)
    ensures !r.Stop? && Valid(lx) ==> Valid(r.lx)
    ensures r.Continue? ==> |stack| >= 1 && |stack| - 1 <= |r.stack| <= |stack| + 1 && RootKept(stack, r.stack)
    ensures r.Call? ==> r.stack != [] && r.stack == stack && r.tok.value in Commands(Top(stack).o.kind)
    ensures r.Call? ==> UniqueKeys(r.args.opts)
    ensures stack == [] ==> r == Stop(SyntaxFail("Empty stack"))
    ensures stack != [] && NextToken(lx).0.None? ==> r == Stop(AtEnd(stack))
    ensures r.Stop? && r.out.Parsed? ==> NextToken(lx).0.None? && |stack| == 1 && r.out.doc == Render(stack[0].o)
  {
    if stack == [] then Stop(SyntaxFail("Empty stack"))
    else
      var (t, lx1) := NextToken(lx);
      if t.None? then Stop(AtEnd(stack)) else Act(stack, t.value, lx1)
  }

  /** The parse loop: steps until one stops. */
  ghost function Loop(stack: seq<Frame>, lx: Lexer, h: Host): (r: Outcome)
    requires lx.pos <= |lx.str|
    ensures r.Parsed? ==> stack != [] && r.doc.Dict?
    ensures r.Parsed? ==> exists o: Obj ::
      o.kind == stack[0].o.kind && o.indexSubs == stack[0].o.indexSubs && r.doc == Render(o)
    decreases Measure(lx), 0
  {
    match Step(stack, lx)
    case Stop(out) => out
    case Continue(s, l) => Loop(s, l, h)
    case Call(s, t, a, l) => Send(s, t, a, l, h)
  }

  /** `obj.send`: the command runs on the current object; a false status
      becomes a syntax error carrying the command's message, an exception
      ends the parse. */
  ghost function Send(stack: seq<Frame>, t: Token, a: Args, lx: Lexer, h: Host): (r: Outcome)
    requires stack != [] && t.value in Commands(Top(stack).o.kind) && lx.pos <= |lx.str|
    ensures r.Parsed? ==> r.doc.Dict?
    ensures r.Parsed? ==> exists o: Obj ::
      o.kind == stack[0].o.kind && o.indexSubs == stack[0].o.indexSubs && r.doc == Render(o)
    decreases Measure(lx), 1
  {
    match RunCommand(Top(stack).o, t.value, a, h)
    case Ok(o') => Loop(SetTop(stack, o'), lx, h)
    case Refused(m) => SyntaxFail(ErrorMsg(t, m))
    case SyntaxRaised(m) => SyntaxFail(m)
    case Raised(m) => Abort(m)
    case Spins => Diverges
  }

  /** `Parser#parse`: the root is a new Figure, and a parse that succeeds
      returns the rendering of that Figure as the commands left it. */
  ghost function Parse(str: string, h: Host): (r: Outcome)
    ensures r.Parsed? ==> r.doc.Dict?
    ensures r.Parsed? ==> exists o: Obj :: o.kind == Figure && o.indexSubs && r.doc == Render(o)
  {
    Loop([Frame(New(Figure, true), "")], NewLexer(str), h)
  }

  // ---------------------------------------------------------------------------
  // The stack invariant
  // ---------------------------------------------------------------------------

  lemma PrefixOk(s: seq<Frame>, n: nat)
    requires StackOk(s) && n <= |s|
    ensures StackOk(s[..n])
  {
    forall i | 1 <= i < n ensures s[..n][i].slot in Keys(s[..n][i - 1].o.data) {
      assert s[..n][i] == s[i] && s[..n][i - 1] == s[i - 1];
    }
  }

  lemma TopReplacedOk(s: seq<Frame>, s': seq<Frame>)
    requires StackOk(s) && TopReplaced(s, s')
    ensures StackOk(s')
  {
    var n := |s|;
    forall i | 1 <= i < n ensures s'[i].slot in Keys(s'[i - 1].o.data) {
      assert s'[i - 1] == s'[..n - 1][i - 1] == s[..n - 1][i - 1] == s[i - 1];
      if i < n - 1 {
        assert s'[i] == s'[..n - 1][i] == s[..n - 1][i] == s[i];
      }
    }
  }

  /** Closing an object keeps the invariant, and the parent's keys stay as
      they were: the closed object replaces its placeholder in place. */
  lemma PopOk(s: seq<Frame>)
    requires s != [] && StackOk(s)
    ensures StackOk(Pop(s))
    ensures |s| >= 2 ==> Keys(Top(Pop(s)).o.data) == Keys(s[|s| - 2].o.data)
  {
    var n := |s|;
    if n >= 2 {
      assert s[n - 1].slot in Keys(s[n - 2].o.data);
      PutKeys(s[n - 2].o.data, Top(s).slot, Child(Top(s).o));
      var r := Pop(s);
      PrefixOk(s, n - 1);
      var q := s[..n - 1];
      assert TopReplaced(q, r) by {
        assert r[..n - 2] == s[..n - 2] == q[..n - 2];
      }
      TopReplacedOk(q, r);
    }
  }

  /** Each kind of token keeps every open object's key among its parent's
      keys. */
  lemma ActKeepsStack(stack: seq<Frame>, tok: Token, lx: Lexer)
    requires stack != [] && lx.pos <= |lx.str| && StackOk(stack)
    ensures var r := Act(stack, tok, lx); !r.Stop? ==> StackOk(r.stack)
  {
    var r := Act(stack, tok, lx);
    var obj := Top(stack).o;
    if !r.Stop? {
      if tok.value in BoolOpts(obj.kind) {
        TopReplacedOk(stack, r.stack);
      } else if tok.code == RBrace {
        PopOk(stack);
      } else if tok.value in XyOpts(obj.kind) {
        TopReplacedOk(stack, r.stack);
      } else if tok.value in Commands(obj.kind) {
        // a call leaves the stack as it is
      } else {
        KeyOrBlockOk(stack, tok, lx);
      }
    }
  }

  lemma KeyOrBlockOk(stack: seq<Frame>, tok: Token, lx: Lexer)
    requires stack != [] && lx.pos <= |lx.str| && StackOk(stack)
    ensures var r := KeyOrBlock(stack, tok, lx); r.Continue? ==> StackOk(r.stack)
  {
    var r := KeyOrBlock(stack, tok, lx);
    if r.Continue? {
      if |r.stack| == |stack| {
        TopReplacedOk(stack, r.stack);
      } else {
        var n := |stack|;
        var q := r.stack[..n];
        TopReplacedOk(stack, q);
        forall i | 1 <= i < |r.stack| ensures r.stack[i].slot in Keys(r.stack[i - 1].o.data) {
          if i < n {
            assert r.stack[i] == q[i] && r.stack[i - 1] == q[i - 1];
          }
        }
      }
    }
  }

  lemma StepKeepsStack(stack: seq<Frame>, lx: Lexer)
    requires lx.pos <= |lx.str| && StackOk(stack)
    ensures var r := Step(stack, lx); !r.Stop? ==> StackOk(r.stack)
  {
    if stack != [] {
      var (t, lx1) := NextToken(lx);
      if t.Some? {
        ActKeepsStack(stack, t.value, lx1);
      }
    }
  }

  // ---------------------------------------------------------------------------
  // What each kind of token does
  // ---------------------------------------------------------------------------

  /** `}` closes the current object, whatever the object. */
  lemma CloseBlock(stack: seq<Frame>, tok: Token, lx: Lexer)
    requires stack != [] && lx.pos <= |lx.str|
    requires tok.code == RBrace && tok.value == "}"
    ensures Act(stack, tok, lx) == Continue(Pop(stack), lx)
  {
    BraceIsNoFlag(Top(stack).o.kind);
  }

  lemma BraceIsNoFlag(k: Kind)
    ensures "}" !in BoolOpts(k)
  {
    assert forall w :: w in BoolOpts(k) ==> |w| >= 4;
  }

  /** Closing writes the object into its parent under the key it was opened
      with, in place, and the parent is current again. */
  lemma PopWritesBack(stack: seq<Frame>)
    requires |stack| >= 2 && StackOk(stack)
    ensures var parent := stack[|stack| - 2].o;
      var p := Top(Pop(stack)).o;
      && p.kind == parent.kind
      && Keys(p.data) == Keys(parent.data)
      && Get(p.data, Top(stack).slot) == Some(Child(Top(stack).o))
      && forall k :: k != Top(stack).slot ==> Get(p.data, k) == Get(parent.data, k)
  {
    PopOk(stack);
  }

  /** Once the root is closed the stack is empty, and the next step reports
      it whatever input is left. */
  lemma EmptyStack(lx: Lexer, h: Host)
    requires lx.pos <= |lx.str|
    ensures Loop([], lx, h) == SyntaxFail("Empty stack")
  {
  }

  /** A key followed by `{` opens a child: a new object of the registered
      kind (generic otherwise) that inherits the index flag, stored in the
      current object under StoreKey and made current. */
  lemma OpenBlock(stack: seq<Frame>, tok: Token, lx: Lexer)
    requires stack != [] && lx.pos <= |lx.str|
    requires var k := Top(stack).o.kind;
      tok.value !in BoolOpts(k) && tok.code != RBrace && tok.value !in XyOpts(k) && tok.value !in Commands(k)
    requires NextToken(lx).0.Some? && NextToken(lx).0.value.code == LBrace
    ensures var r := Act(stack, tok, lx);
      var obj := Top(stack).o;
      var child := New(BlockKind(tok.value), obj.indexSubs);
      && r.Continue? && r.lx == NextToken(lx).1
      && |r.stack| == |stack| + 1
      && Top(r.stack) == Frame(child, StoreKey(obj, tok.value))
      && r.stack[..|stack| - 1] == stack[..|stack| - 1]
      && r.stack[|stack| - 1].o == obj.(data := r.stack[|stack| - 1].o.data)
      && Get(r.stack[|stack| - 1].o.data, StoreKey(obj, tok.value)) == Some(Child(child))
  {
    var obj := Top(stack).o;
    var child := New(BlockKind(tok.value), obj.indexSubs);
    var r := Act(stack, tok, lx);
    assert r == KeyOrBlock(stack, tok, lx);
    var s1 := SetTop(stack, AddData(obj, tok.value, Child(child)));
    assert r.stack == s1 + [Frame(child, StoreKey(obj, tok.value))];
    assert r.stack[..|stack| - 1] == s1[..|stack| - 1];
  }

  /** A key followed by any other token stores that token's text, with
      "true" and "false" turned into booleans. */
  lemma KeyValue(stack: seq<Frame>, tok: Token, lx: Lexer)
    requires stack != [] && lx.pos <= |lx.str|
    requires var k := Top(stack).o.kind;
      tok.value !in BoolOpts(k) && tok.code != RBrace && tok.value !in XyOpts(k) && tok.value !in Commands(k)
    requires NextToken(lx).0.Some? && NextToken(lx).0.value.code != LBrace
    ensures var r := Act(stack, tok, lx);
      var obj := Top(stack).o;
      var text := NextToken(lx).0.value.value;
      && r.Continue? && r.lx == NextToken(lx).1
      && TopReplaced(stack, r.stack)
      && Top(r.stack).o == obj.(data := Top(r.stack).o.data)
      && Get(Top(r.stack).o.data, StoreKey(obj, tok.value)) ==
           Some(Val(if text == "true" then Bool(true) else if text == "false" then Bool(false) else Str(text)))
      && forall k :: k != StoreKey(obj, tok.value) ==> Get(Top(r.stack).o.data, k) == Get(obj.data, k)
  {
    assert Act(stack, tok, lx) == KeyOrBlock(stack, tok, lx);
  }

  /** A flag word of the current object sets the flag to true, whatever
      follows it. */
  lemma Flag(stack: seq<Frame>, tok: Token, lx: Lexer)
    requires stack != [] && lx.pos <= |lx.str|
    requires tok.value in BoolOpts(Top(stack).o.kind)
    ensures var r := Act(stack, tok, lx);
      var obj := Top(stack).o;
      && r.Continue? && r.lx == lx
      && TopReplaced(stack, r.stack)
      && Top(r.stack).o == obj.(data := Top(r.stack).o.data)
      && Get(Top(r.stack).o.data, StoreKey(obj, tok.value)) == Some(Val(Bool(true)))
      && forall k :: k != StoreKey(obj, tok.value) ==> Get(Top(r.stack).o.data, k) == Get(obj.data, k)
  {
  }

  /** A key listed in `xy_opts` is handled as a pair (it is never also a
      flag). */
  lemma XyDispatch(stack: seq<Frame>, tok: Token, lx: Lexer)
    requires stack != [] && lx.pos <= |lx.str|
    requires tok.code != RBrace && tok.value in XyOpts(Top(stack).o.kind)
    ensures Act(stack, tok, lx) == XyPair(stack, tok, lx)
  {
    var k := Top(stack).o.kind;
    assert tok.value !in BoolOpts(k) by {
      assert forall w :: w in XyOpts(k) ==> w !in BoolOpts(k);
    }
  }

  /** A pair "x,y" is never read as a boolean. */
  lemma PairIsNoBool(x: string, y: string)
    ensures x + "," + y != "true" && x + "," + y != "false"
  {
    var xy := x + "," + y;
    assert xy[|x|] == ',';
    assert forall m :: 0 <= m < |"true"| ==> "true"[m] != ',';
    assert forall m :: 0 <= m < |"false"| ==> "false"[m] != ',';
  }

  /** A pair takes exactly two positional arguments, stored as "x,y"; any
      other count is a syntax error. */
  lemma XyArgs(stack: seq<Frame>, tok: Token, lx: Lexer)
    requires stack != [] && lx.pos <= |lx.str|
    ensures var c := CollectArgs(lx, tok, Args([], []));
      var r := XyPair(stack, tok, lx);
      var obj := Top(stack).o;
      c.Collected? ==>
      && (Count(c.a) != 3 ==> r == Stop(SyntaxFail(ErrorMsg(tok, "Expected x, y args"))))
      && (Count(c.a) == 3 ==>
            && r.Continue? && r.lx == c.lx && TopReplaced(stack, r.stack)
            && Top(r.stack).o == obj.(data := Top(r.stack).o.data)
            && Get(Top(r.stack).o.data, StoreKey(obj, tok.value)) == Some(Val(Str(c.a.pos[0] + "," + c.a.pos[1]))))
  {
    var c := CollectArgs(lx, tok, Args([], []));
    if c.Collected? && Count(c.a) == 3 {
      PairIsNoBool(c.a.pos[0], c.a.pos[1]);
    }
  }

  // ---------------------------------------------------------------------------
  // Whole parses
  // ---------------------------------------------------------------------------

  /** When the input is exhausted the parse succeeds exactly when only the
      root is open, and renders it. */
  lemma LoopAtEnd(stack: seq<Frame>, lx: Lexer, h: Host)
    requires lx.pos <= |lx.str| && stack != [] && NextToken(lx).0.None?
    ensures Loop(stack, lx, h) == AtEnd(stack)
    ensures Loop(stack, lx, h).Parsed? <==> |stack| == 1
  {
  }

  lemma LoopContinues(stack: seq<Frame>, lx: Lexer, h: Host)
    requires lx.pos <= |lx.str|
    ensures Step(stack, lx).Continue? ==> Loop(stack, lx, h) == Loop(Step(stack, lx).stack, Step(stack, lx).lx, h)
  {
  }

  /** A command that answers with a false status fails the parse with its
      message, prefixed by the command's token and line. */
  lemma CommandRefused(stack: seq<Frame>, lx: Lexer, h: Host)
    requires lx.pos <= |lx.str|
    ensures var c := Step(stack, lx);
      c.Call? && RunCommand(Top(c.stack).o, c.tok.value, c.args, h).Refused? ==>
      Loop(stack, lx, h) == SyntaxFail(ErrorMsg(c.tok, RunCommand(Top(c.stack).o, c.tok.value, c.args, h).msg))
  {
  }

  /** A command that raises a SyntaxError fails the parse with the
      exception's own message, without the token prefix of `_error`. */
  lemma CommandSyntaxError(stack: seq<Frame>, lx: Lexer, h: Host)
    requires lx.pos <= |lx.str|
    ensures var c := Step(stack, lx);
      c.Call? && RunCommand(Top(c.stack).o, c.tok.value, c.args, h).SyntaxRaised? ==>
      Loop(stack, lx, h) == SyntaxFail(RunCommand(Top(c.stack).o, c.tok.value, c.args, h).msg)
  {
  }

  /** Empty input gives the rendering of a new Figure. */
  lemma ParseEmpty(h: Host)
    ensures Parse("", h) == Parsed(Render(New(Figure, true)))
  {
    assert NextToken(NewLexer("")).0.None?;
  }

  /** Input that starts with `}` closes the root and fails with "Empty
      stack", whatever follows. */
  lemma StrayBrace(str: string, h: Host)
    requires str != [] && str[0] == '}'
    ensures Parse(str, h) == SyntaxFail("Empty stack")
  {
    var lx0 := NewLexer(str);
    var lx1 := lx0.(pos := 1);
    var root := [Frame(New(Figure, true), "")];
    DelimiterToken(lx0);
    CloseBlock(root, Token(RBrace, "}", 1), lx1);
    assert Step(root, lx0) == Continue([], lx1);
    EmptyStack(lx1, h);
  }

  lemma OpenFirst(w: string) returns (s: seq<Frame>, lx2: Lexer)
    requires w != [] && (forall k :: 0 <= k < |w| ==> WordChar(w[k])) && w !in Commands(Figure)
    ensures lx2.pos <= |lx2.str| && NextToken(lx2).0.None?
    ensures Step([Frame(New(Figure, true), "")], NewLexer(w + "{")) == Continue(s, lx2) && |s| == 2
  {
    var str := w + "{";
    var lx0 := NewLexer(str);
    var lx1 := lx0.(pos := |w|);
    lx2 := lx0.(pos := |w| + 1);
    var root := [Frame(New(Figure, true), "")];
    assert str[..|w|] == w;
    WordToken(lx0, w);
    DelimiterToken(lx1);
    OpenBlock(root, Token(Word, w, 1), lx1);
    s := Act(root, Token(Word, w, 1), lx1).stack;
  }

  /** A block left open at the end of the input fails the parse with the
      number of objects still open. */
  lemma UnclosedBlock(w: string, h: Host)
    requires w != [] && (forall k :: 0 <= k < |w| ==> WordChar(w[k])) && w !in Commands(Figure)
    ensures Parse(w + "{", h) == SyntaxFail(LeftOpen(2))
  {
    var s, lx2 := OpenFirst(w);
    LoopContinues([Frame(New(Figure, true), "")], NewLexer(w + "{"), h);
    LoopAtEnd(s, lx2, h);
  }
}

=== FILE: psgen.dfy ===
/** The pure decisions of the PostScript generator: looking values up with a
    default and `@a:b` references, the clamping coordinate transform, the
    shadow, marker and layout tables, and the data ranges of a plot's four
    axes. LaTeX output and text measurement are not modelled. */
module Render {
  import opened Support
  import opened Document
  import opened Axes
  import Datasets

  // ---------------------------------------------------------------------------
  // _get_value
  // ---------------------------------------------------------------------------

  /** The outcome of a lookup: a value, a RuntimeError raised by the lookup
      itself, a Ruby error from indexing something that has no `[]` for
      strings, or a reference the fuel did not resolve. */
  datatype Lookup = Found(v: Value) | Raised(msg: string) | Crashed | Unresolved

  /** A value naming another one: a string starting with '@'. */
  predicate IsRef(v: Value)
  {
    v.Str? && |v.s| > 0 && v.s[0] == '@'
  }

  /** The segments of a reference, split at ':'. */
  function Path(v: Value): seq<string>
    requires IsRef(v)
  {
    Split(v.s[1..], ':')
  }

  /** `comps.each {|c| val = val[c]}`; None when some step indexes a value
      that raises. */
  function Walk(v: Value, comps: seq<string>): (r: Option<Value>)
    ensures comps == [] ==> r == Some(v)
    ensures |comps| == 1 ==> r == Index(v, comps[0])
    decreases |comps|
  {
    if comps == [] then Some(v)
    else
      match Index(v, comps[0])
      case None => None
      case Some(w) => Walk(w, comps[1..])
  }

  /** Walking p + q is walking p, then q from where p ended. */
  lemma {:induction false} WalkAppend(v: Value, p: seq<string>, q: seq<string>)
    ensures Walk(v, p + q) == match Walk(v, p) case None => None case Some(w) => Walk(w, q)
    decreases |p|
  {
    if p == [] {
      assert p + q == q;
    } else {
      assert (p + q)[0] == p[0] && (p + q)[1..] == p[1..] + q;
      match Index(v, p[0])
      case None =>
      case Some(w) => WalkAppend(w, p[1..], q);
    }
  }

  /** The `while` loop of `_get_value`, one fuel unit per iteration: a
      reference of two or more segments is replaced by the value its path
      reaches from the root; a one-segment reference is left as it is. */
  function Resolve(v: Value, root: Value, fuel: nat): (r: Lookup)
    ensures !IsRef(v) ==> r == Found(v)
    ensures r.Found? ==> !IsRef(r.v)
    ensures !r.Raised?
    ensures r.Crashed? ==> IsRef(v) && fuel > 0
    ensures IsRef(v) && fuel > 0 && |Path(v)| > 1 && Walk(root, Path(v)).None? ==> r.Crashed?
    decreases fuel
  {
    if !IsRef(v) then Found(v)
    else if fuel == 0 then Unresolved
    else if |Path(v)| > 1 then
      match Walk(root, Path(v))
      case None => Crashed
      case Some(w) => Resolve(w, root, fuel - 1)
    else Resolve(v, root, fuel - 1)
  }

  /** A reference with fewer than two segments never resolves, however
      many iterations are allowed: the loop does not terminate. */
  lemma {:induction false} SingleSegmentSpins(v: Value, root: Value, fuel: nat)
    requires IsRef(v) && |Path(v)| <= 1
    ensures Resolve(v, root, fuel) == Unresolved
    decreases fuel
  {
    if fuel > 0 {
      SingleSegmentSpins(v, root, fuel - 1);
    }
  }

  /** Once a lookup resolves, more fuel gives the same answer: the fuel only
      bounds the number of iterations. */
  lemma {:induction false} ResolveFuel(v: Value, root: Value, fuel: nat, more: nat)
    requires Resolve(v, root, fuel) != Unresolved && fuel <= more
    ensures Resolve(v, root, more) == Resolve(v, root, fuel)
    decreases fuel
  {
    if IsRef(v) {
      assert fuel > 0;
      if |Path(v)| > 1 {
        match Walk(root, Path(v))
        case None =>
        case Some(w) =>
          assert Resolve(v, root, fuel) == Resolve(w, root, fuel - 1);
          assert Resolve(v, root, more) == Resolve(w, root, more - 1);
          ResolveFuel(w, root, fuel - 1, more - 1);
      } else {
        assert Resolve(v, root, fuel) == Resolve(v, root, fuel - 1);
        assert Resolve(v, root, more) == Resolve(v, root, more - 1);
        ResolveFuel(v, root, fuel - 1, more - 1);
      }
    }
  }

  /** A two-segment reference `@a:b` to a plain value resolves to it. */
  lemma PairReference(a: string, b: string, root: Value, fuel: nat, w: Value)
    requires ':' !in a && ':' !in b && b != ""
    requires Walk(root, [a, b]) == Some(w) && !IsRef(w) && fuel >= 1
    ensures Resolve(Str("@" + a + ":" + b), root, fuel) == Found(w)
  {
    var v := Str("@" + a + ":" + b);
    assert v.s[1..] == a + [':'] + b;
    SplitPair(a, b, ':');
  }

  /** `@a:b` where a is bound to a number, a boolean or nil: `val[c]` on it
      raises a Ruby error, which `_get_value` does not rescue. */
  lemma PairThroughScalarCrashes(a: string, b: string, root: Value, fuel: nat)
    requires ':' !in a && ':' !in b && b != "" && fuel >= 1
    requires root.Dict? && Get(root.entries, a).Some?
    requires var w := Get(root.entries, a).value; w.Nil? || w.Bool? || w.Num?
    ensures Resolve(Str("@" + a + ":" + b), root, fuel) == Crashed
  {
    var v := Str("@" + a + ":" + b);
    assert v.s[1..] == a + [':'] + b;
    SplitPair(a, b, ':');
    assert [a, b][1..] == [b];
  }

  function NotFound(key: string): string
  {
    "Unable to find value for '" + key + "'"
  }

  /** `_get_value(key, obj, defobj)`: obj[key] unless obj is nil or the
      value is nil, else defobj[key], which raises when there is no defobj;
      then references are resolved from the root document. */
  function GetValue(key: string, obj: Value, defobj: Value, root: Value, fuel: nat): (r: Lookup)
    ensures obj.Dict? && Get(obj.entries, key).Some? && Get(obj.entries, key).value != Nil ==>
              r == Resolve(Get(obj.entries, key).value, root, fuel)
    ensures (!Truthy(obj) || (obj.Dict? && Get(obj.entries, key) in {None, Some(Nil)})) ==>
              r == if !Truthy(defobj) then Raised(NotFound(key))
                   else if defobj.Dict? then Resolve(if key in Keys(defobj.entries) then Get(defobj.entries, key).value else Nil, root, fuel)
                   else if defobj.Str? then Resolve(Index(defobj, key).value, root, fuel)
                   else Crashed
    ensures r.Raised? ==> r.msg == NotFound(key) && !Truthy(defobj)
  {
    var local := if Truthy(obj) then Index(obj, key) else Some(Nil);
    match local
    case None => Crashed
    case Some(val) =>
      if val != Nil then Resolve(val, root, fuel)
      else if !Truthy(defobj) then Raised(NotFound(key))
      else
        match Index(defobj, key)
        case None => Crashed
        case Some(dv) => Resolve(dv, root, fuel)
  }

  /** A local false is returned as it is: the default is not consulted. */
  lemma LocalFalseKept(key: string, obj: Value, defobj: Value, root: Value, fuel: nat)
    requires obj.Dict? && Get(obj.entries, key) == Some(Bool(false))
    ensures GetValue(key, obj, defobj, root, fuel) == Found(Bool(false))
  {
  }

  // ---------------------------------------------------------------------------
  // _trans
  // ---------------------------------------------------------------------------

  /** `_trans(v, vmin, vmax, clow, chigh)`: v mapped linearly from
      [vmin, vmax] onto [clow, chigh], clamped outside. With vmin == vmax
      and v equal to both, the float division gives NaN: None. */
  function Trans(v: real, vmin: real, vmax: real, clow: real, chigh: real): (r: Option<real>)
    ensures r.None? <==> v == vmin == vmax
    ensures v < vmin ==> r == Some(clow)
    ensures vmin <= v && v > vmax ==> r == Some(chigh)
    ensures vmin < vmax && v == vmin ==> r == Some(clow)
    ensures vmin < vmax && v == vmax ==> r == Some(chigh)
    ensures r.Some? && clow <= chigh ==> clow <= r.value <= chigh
  {
    if v < vmin then Some(clow)
    else if v > vmax then Some(chigh)
    else if vmax == vmin then None
    else
      var t := (v - vmin) / (vmax - vmin);
      Fraction(v, vmin, vmax, clow, chigh);
      Some(clow + (chigh - clow) * t)
  }

  /** Signs of products, for the division in the transform. */
  lemma ProductSigns(a: real, b: real)
    ensures a > 1.0 && b > 0.0 ==> a * b > b
    ensures a < 0.0 && b > 0.0 ==> a * b < 0.0
    ensures a * b == b && b != 0.0 ==> a == 1.0
    ensures a * b == 0.0 && b != 0.0 ==> a == 0.0
  {
    if a > 1.0 && b > 0.0 {
      assert (a - 1.0) * b > 0.0;
      assert (a - 1.0) * b == a * b - b;
    }
    if a * b == b && b != 0.0 {
      assert (a - 1.0) * b == 0.0;
    }
  }

  lemma NonNegProduct(a: real, b: real)
    requires 0.0 <= a && 0.0 <= b
    ensures 0.0 <= a * b
  {
  }

  /** A fraction of a non-negative width lies between zero and the width. */
  lemma ScaledFraction(w: real, t: real)
    requires 0.0 <= w && 0.0 <= t <= 1.0
    ensures 0.0 <= w * t <= w
  {
    NonNegProduct(w, t);
    NonNegProduct(w, 1.0 - t);
    assert w * (1.0 - t) == w - w * t;
  }

  /** Where v sits between vmin and vmax, as a fraction from 0 to 1, and
      the point that far between clow and chigh. */
  lemma Fraction(v: real, vmin: real, vmax: real, clow: real, chigh: real)
    requires vmin < vmax && vmin <= v <= vmax
    ensures var t := (v - vmin) / (vmax - vmin);
      && 0.0 <= t <= 1.0
      && (v == vmin ==> t == 0.0)
      && (v == vmax ==> t == 1.0)
      && (clow <= chigh ==> 0.0 <= (chigh - clow) * t <= chigh - clow)
  {
    var d := vmax - vmin;
    var t := (v - vmin) / d;
    assert t * d == v - vmin;
    ProductSigns(t, d);
    assert 0.0 <= t <= 1.0;
    if clow <= chigh {
      ScaledFraction(chigh - clow, t);
    }
  }

  /** The transform keeps the order of values. */
  lemma TransMonotone(v1: real, v2: real, vmin: real, vmax: real, clow: real, chigh: real)
    requires vmin < vmax && clow <= chigh && v1 <= v2
    ensures Trans(v1, vmin, vmax, clow, chigh).value <= Trans(v2, vmin, vmax, clow, chigh).value
  {
    if vmin <= v1 && v2 <= vmax {
      var d := vmax - vmin;
      var t1, t2 := (v1 - vmin) / d, (v2 - vmin) / d;
      assert t1 * d == v1 - vmin && t2 * d == v2 - vmin;
      assert (t2 - t1) * d == v2 - v1;
      ProductSigns(t2 - t1, d);
      assert t1 <= t2;
      NonNegProduct(chigh - clow, t2 - t1);
      assert (chigh - clow) * (t2 - t1) == (chigh - clow) * t2 - (chigh - clow) * t1;
    }
  }

  /** Back from plot coordinates to data coordinates. */
  function Untrans(c: real, vmin: real, vmax: real, clow: real, chigh: real): real
    requires clow != chigh
  {
    vmin + (vmax - vmin) * ((c - clow) / (chigh - clow))
  }

  /** Inside the range the transform is undone by Untrans. */
  lemma TransRoundTrip(v: real, vmin: real, vmax: real, clow: real, chigh: real)
    requires vmin < vmax && vmin <= v <= vmax && clow != chigh
    ensures Untrans(Trans(v, vmin, vmax, clow, chigh).value, vmin, vmax, clow, chigh) == v
  {
    var t := (v - vmin) / (vmax - vmin);
    var c := clow + (chigh - clow) * t;
    assert Trans(v, vmin, vmax, clow, chigh).value == c;
    assert (c - clow) / (chigh - clow) == t;
    assert (vmax - vmin) * t == v - vmin;
  }

  // ---------------------------------------------------------------------------
  // Error bars
  // ---------------------------------------------------------------------------

  /** A plot's data ranges and where they go on the page. */
  datatype Panel = Panel(xmin: real, xmax: real, ymin: real, ymax: real,
                         xlow: real, xhigh: real, ylow: real, yhigh: real)

  /** The same panel with the roles of x and y exchanged. */
  function Transpose(p: Panel): Panel
  {
    Panel(p.ymin, p.ymax, p.xmin, p.xmax, p.ylow, p.yhigh, p.xlow, p.xhigh)
  }

  /** A line from (x0, y0) to (x1, y1) in page coordinates. */
  datatype Bar = Bar(x0: real, y0: real, x1: real, y1: real)

  /** Where the point (x, y) is drawn. */
  function Point(p: Panel, x: real, y: real): Option<(real, real)>
  {
    match (Trans(x, p.xmin, p.xmax, p.xlow, p.xhigh), Trans(y, p.ymin, p.ymax, p.ylow, p.yhigh))
    case (Some(px), Some(py)) => Some((px, py))
    case _ => None
  }

  /** The vertical bar of a `yerrbar` point: at the point's x, from y - e
      to y + e. */
  function YErrBar(p: Panel, x: real, y: real, e: real): (b: Option<Bar>)
    ensures b.Some? ==> b.value.x0 == b.value.x1
  {
    match (Trans(x, p.xmin, p.xmax, p.xlow, p.xhigh),
           Trans(y - e, p.ymin, p.ymax, p.ylow, p.yhigh),
           Trans(y + e, p.ymin, p.ymax, p.ylow, p.yhigh))
    case (Some(x0), Some(y0), Some(y1)) => Some(Bar(x0, y0, x0, y1))
    case _ => None
  }

  /** The y bar stands at the drawn point's x, and for a non-negative error
      inside the range it spans the point. */
  lemma YErrBarThroughPoint(p: Panel, x: real, y: real, e: real)
    requires p.xmin < p.xmax && p.ymin < p.ymax && p.ylow <= p.yhigh && e >= 0.0
    ensures YErrBar(p, x, y, e).Some? && Point(p, x, y).Some?
    ensures YErrBar(p, x, y, e).value.x0 == Point(p, x, y).value.0
    ensures YErrBar(p, x, y, e).value.y0 <= Point(p, x, y).value.1 <= YErrBar(p, x, y, e).value.y1
  {
    TransMonotone(y - e, y, p.ymin, p.ymax, p.ylow, p.yhigh);
    TransMonotone(y, y + e, p.ymin, p.ymax, p.ylow, p.yhigh);
  }

  /** The horizontal bar of an `xerrbar` point as written: the height comes
      from y through the x range, and the ends from x -+ e through the y
      range. */
  function XErrBarAsWritten(p: Panel, x: real, y: real, e: real): (b: Option<Bar>)
    ensures b.Some? ==> b.value.y0 == b.value.y1
  {
    match (Trans(y, p.xmin, p.xmax, p.xlow, p.xhigh),
           Trans(x - e, p.ymin, p.ymax, p.ylow, p.yhigh),
           Trans(x + e, p.ymin, p.ymax, p.ylow, p.yhigh))
    case (Some(y0), Some(x0), Some(x1)) => Some(Bar(x0, y0, x1, y0))
    case _ => None
  }

  /** The horizontal bar of an `xerrbar` point: at the point's y, from x - e
      to x + e, each through its own axis. */
  function XErrBar(p: Panel, x: real, y: real, e: real): (b: Option<Bar>)
    ensures b.Some? ==> b.value.y0 == b.value.y1
  {
    match (Trans(y, p.ymin, p.ymax, p.ylow, p.yhigh),
           Trans(x - e, p.xmin, p.xmax, p.xlow, p.xhigh),
           Trans(x + e, p.xmin, p.xmax, p.xlow, p.xhigh))
    case (Some(y0), Some(x0), Some(x1)) => Some(Bar(x0, y0, x1, y0))
    case _ => None
  }

  /** The x bar is the y bar of the transposed panel, reflected: the two
      error-bar kinds are drawn alike. */
  lemma XErrBarMirrorsYErrBar(p: Panel, x: real, y: real, e: real)
    ensures XErrBar(p, x, y, e) ==
      match YErrBar(Transpose(p), y, x, e)
      case None => None
      case Some(b) => Some(Bar(b.y0, b.x0, b.y1, b.x1))
  {
  }

  /** The x bar passes through the drawn point, and for a non-negative error
      inside the range it spans the point. */
  lemma XErrBarThroughPoint(p: Panel, x: real, y: real, e: real)
    requires p.xmin < p.xmax && p.ymin < p.ymax && p.xlow <= p.xhigh && e >= 0.0
    ensures XErrBar(p, x, y, e).Some? && Point(p, x, y).Some?
    ensures XErrBar(p, x, y, e).value.y0 == Point(p, x, y).value.1
    ensures XErrBar(p, x, y, e).value.x0 <= Point(p, x, y).value.0 <= XErrBar(p, x, y, e).value.x1
  {
    TransMonotone(x - e, x, p.xmin, p.xmax, p.xlow, p.xhigh);
    TransMonotone(x, x + e, p.xmin, p.xmax, p.xlow, p.xhigh);
  }

  /** A point at the middle of an x range [0, 10] drawn on [0, 100], with a
      y range [0, 1] drawn on [0, 50]: as written its x bar is drawn at
      height 5 and collapses to the clamped x 50; the corrected bar runs
      from 40 to 60 at the point's height 25. */
  lemma XErrBarSwapped()
    ensures var p := Panel(0.0, 10.0, 0.0, 1.0, 0.0, 100.0, 0.0, 50.0);
      && Point(p, 5.0, 0.5) == Some((50.0, 25.0))
      && XErrBarAsWritten(p, 5.0, 0.5, 1.0) == Some(Bar(50.0, 5.0, 50.0, 5.0))
      && XErrBar(p, 5.0, 0.5, 1.0) == Some(Bar(40.0, 25.0, 60.0, 25.0))
  {
  }

  // ---------------------------------------------------------------------------
  // Shadow directions
  // ---------------------------------------------------------------------------

  /** The shadow angle of a box, in degrees; an unknown direction raises. */
  function ShadowAngle(dir: string): (r: Option<int>)
    ensures r.Some? <==> dir in {"ne", "nw", "sw", "se"}
    ensures r.Some? ==> r.value % 90 == 45 && -180 < r.value < 180
    ensures r.Some? ==> (dir[0] == 'n' <==> r.value > 0)
    ensures r.Some? ==> (dir[1] == 'e' <==> -90 < r.value < 90)
  {
    if dir == "ne" then Some(45)
    else if dir == "nw" then Some(135)
    else if dir == "sw" then Some(-135)
    else if dir == "se" then Some(-45)
    else None
  }

  // ---------------------------------------------------------------------------
  // Markers
  // ---------------------------------------------------------------------------

  /** A point style: the PSTricks dot style, its rotation, and whether point
      markers are drawn at all. */
  datatype Marker = Marker(style: string, angle: real, points: bool)

  /** The shape before the fill mark: circles by fill, diamonds as turned
      squares, `del` as a turned triangle, and no points for error bars and
      `none`. */
  function BaseMarker(shape: string, fill: Value): Marker
  {
    if shape == "circle" then Marker(if Truthy(fill) then "" else "o", 0.0, true)
    else if shape == "diamond" then Marker("square", 45.0, true)
    else if shape == "del" then Marker("triangle", 180.0, true)
    else Marker(shape, 0.0, shape !in {"xerrbar", "yerrbar", "none"})
  }

  /** Whether the marker gets the fill mark `*`: `x` and `+` are never
      filled. */
  predicate Filled(shape: string, fill: Value)
  {
    Truthy(fill) && shape != "x" && shape != "+"
  }

  /** The marker for a symbol shape and fill value. */
  function Dots(shape: string, fill: Value): (m: Marker)
    ensures shape == "circle" ==> m.style == (if Truthy(fill) then "*" else "o")
    ensures shape == "diamond" ==> m.style == (if Truthy(fill) then "square*" else "square") && m.angle == 45.0
    ensures shape == "del" ==> m.style == (if Truthy(fill) then "triangle*" else "triangle") && m.angle == 180.0
    ensures shape in {"x", "+"} ==> m == Marker(shape, 0.0, true)
    ensures m.angle != 0.0 <==> shape in {"diamond", "del"}
    ensures !m.points <==> shape in {"xerrbar", "yerrbar", "none"}
    ensures shape !in {"circle", "diamond", "del"} ==> m.style == shape + (if Truthy(fill) && shape !in {"x", "+"} then "*" else "")
  {
    var b := BaseMarker(shape, fill);
    if Filled(shape, fill) then b.(style := b.style + "*") else b
  }

  /** What the curve shows at its points. */
  datatype Drawing = Points(m: Marker) | XBars | YBars | NoMarks

  /** Points when the marker has them; else error bars when the style is
      exactly `xerrbar` or `yerrbar`; else nothing. */
  function Drawn(shape: string, fill: Value): (d: Drawing)
    ensures d.Points? ==> d.m == Dots(shape, fill)
  {
    var m := Dots(shape, fill);
    if m.points then Points(m)
    else if m.style == "xerrbar" then XBars
    else if m.style == "yerrbar" then YBars
    else NoMarks
  }

  /** Error bars are drawn exactly for an error-bar shape without a fill:
      the fill mark makes the style miss both error-bar cases. */
  lemma ErrorBarsNeedNoFill(shape: string, fill: Value)
    ensures Drawn(shape, fill) == XBars <==> shape == "xerrbar" && !Truthy(fill)
    ensures Drawn(shape, fill) == YBars <==> shape == "yerrbar" && !Truthy(fill)
    ensures Drawn(shape, fill) == NoMarks <==> shape == "none" || (shape in {"xerrbar", "yerrbar"} && Truthy(fill))
  {
    var m := Dots(shape, fill);
    if shape in {"xerrbar", "yerrbar"} && Truthy(fill) {
      assert |m.style| == |shape| + 1;
    }
  }

  /** A circle with the fill text "false" (stored as text by the
      as-written `symbol` command) is drawn filled. */
  lemma FalseTextFillsCircle()
    ensures Dots("circle", Str("false")).style == "*"
    ensures Dots("circle", Bool(false)).style == "o"
  {
  }

  /** The marker as written, with the shape string left in the document:
      `shape << '*'` appends to the stored string itself whenever the
      `case` did not replace it by a fresh literal. */
  function DotsInPlace(shape: string, fill: Value): (res: (Marker, string))
    ensures res.0 == Dots(shape, fill)
    ensures shape !in {"circle", "diamond", "del"} ==> res.1 == res.0.style
    ensures shape in {"circle", "diamond", "del"} ==> res.1 == shape
  {
    var m := Dots(shape, fill);
    (m, if shape in {"circle", "diamond", "del"} then shape else m.style)
  }

  /** The markers of n curves that take their symbol from one shared
      default, as written: each curve sees the shape the previous one left. */
  function SharedMarkersAsWritten(shape: string, fill: Value, n: nat): (ms: seq<Marker>)
    ensures |ms| == n
    ensures n > 0 ==> ms[0] == Dots(shape, fill)
    decreases n
  {
    if n == 0 then []
    else
      var (m, kept) := DotsInPlace(shape, fill);
      [m] + SharedMarkersAsWritten(kept, fill, n - 1)
  }

  /** The markers of n curves sharing one default symbol: all alike. */
  function SharedMarkers(shape: string, fill: Value, n: nat): (ms: seq<Marker>)
    ensures |ms| == n && forall i :: 0 <= i < n ==> ms[i] == Dots(shape, fill)
  {
    seq(n, i requires 0 <= i < n => Dots(shape, fill))
  }

  /** Two curves sharing a filled default square: as written the second is
      drawn with the style `square**`, which is no dot style; corrected both
      are `square*`. */
  lemma SharedDefaultGrows()
    ensures SharedMarkersAsWritten("square", Bool(true), 2)[1].style == "square**"
    ensures SharedMarkers("square", Bool(true), 2)[1].style == "square*"
  {
    assert DotsInPlace("square", Bool(true)).1 == "square*";
    assert SharedMarkersAsWritten("square", Bool(true), 2)[1] == Dots("square*", Bool(true));
  }

  // ---------------------------------------------------------------------------
  // Default curves
  // ---------------------------------------------------------------------------

  /** `h[k]` on a Hash: nil when absent. */
  function At(d: seq<(string, Value)>, k: string): Value
  {
    match Get(d, k)
    case Some(v) => v
    case None => Nil
  }

  /** `_def_curve(key)`: the default plot's entry for the curve when it is
      neither nil nor false, else the shared `defcurve` entry. */
  function DefCurve(plot: seq<(string, Value)>, key: string): (r: Value)
    ensures Truthy(r) <==> Truthy(At(plot, key)) || Truthy(At(plot, "defcurve"))
    ensures Truthy(At(plot, key)) ==> r == At(plot, key)
    ensures r != At(plot, key) ==> r == At(plot, "defcurve")
  {
    var own := At(plot, key);
    if Truthy(own) then own else At(plot, "defcurve")
  }

  // ---------------------------------------------------------------------------
  // Axis ranges of a plot
  // ---------------------------------------------------------------------------

  /** A curve's data and its `xaxis2` / `yaxis2` values. */
  datatype CurveData = CurveData(x: seq<real>, y: seq<real>, x2: Value, y2: Value)

  /** Axis 2 (the second x axis) when `xaxis2` is set, else axis 0. */
  function XAxisOf(c: CurveData): nat
  {
    if Truthy(c.x2) then 2 else 0
  }

  /** Axis 3 (the second y axis) when `yaxis2` is set, else axis 1. */
  function YAxisOf(c: CurveData): nat
  {
    if Truthy(c.y2) then 3 else 1
  }

  /** The values curve c puts on axis j. */
  function CurveOn(c: CurveData, j: nat): seq<real>
  {
    (if XAxisOf(c) == j then c.x else []) + (if YAxisOf(c) == j then c.y else [])
  }

  /** All values the curves put on axis j, in order. */
  function AxisData(curves: seq<CurveData>, j: nat): seq<real>
    decreases |curves|
  {
    if curves == [] then [] else CurveOn(curves[0], j) + AxisData(curves[1..], j)
  }

  /** The range after covering d (nothing to cover changes nothing). */
  function Widen(a: AxisRange, d: seq<real>): (r: AxisRange)
    ensures r.ticks == a.ticks
  {
    if d == [] then a else UpdateRange(a, d).value
  }

  lemma WidenAppend(a: AxisRange, d1: seq<real>, d2: seq<real>)
    ensures Widen(Widen(a, d1), d2) == Widen(a, d1 + d2)
  {
    if d1 == [] {
      assert d1 + d2 == d2;
    } else if d2 == [] {
      assert d1 + d2 == d1;
    } else {
      UpdateRangeOrder(a, d1, d2);
    }
  }

  /** A curve whose data the loop accepts: x and y of one length, and not
      empty (the range of no values cannot be compared). */
  predicate Drawable(c: CurveData)
  {
    |c.x| == |c.y| && c.x != []
  }

  /** One iteration of the curve loop: widen the curve's x axis by its x
      values and its y axis by its y values. */
  function AddCurve(axes: seq<AxisRange>, c: CurveData): (r: Option<seq<AxisRange>>)
    requires |axes| == 4
    ensures r.Some? <==> Drawable(c)
    ensures r.Some? ==> |r.value| == 4 && forall j :: 0 <= j < 4 ==> r.value[j] == Widen(axes[j], CurveOn(c, j))
    ensures r.Some? ==> forall j :: 0 <= j < 4 ==> r.value[j].ticks == axes[j].ticks
  {
    if |c.x| != |c.y| then None
    else
      var jx := XAxisOf(c);
      match UpdateRange(axes[jx], c.x)
      case None => None
      case Some(ax) =>
        var axes1 := axes[jx := ax];
        var jy := YAxisOf(c);
        match UpdateRange(axes1[jy], c.y)
        case None => None
        case Some(ay) =>
          var r := axes1[jy := ay];
          assert forall j :: 0 <= j < 4 ==> r[j] == Widen(axes[j], CurveOn(c, j)) by {
            forall j | 0 <= j < 4
              ensures r[j] == Widen(axes[j], CurveOn(c, j))
            {
              if j == jx {
                assert CurveOn(c, j) == c.x;
              } else if j == jy {
                assert CurveOn(c, j) == c.y;
              } else {
                assert CurveOn(c, j) == [];
              }
            }
          }
          Some(r)
  }

  /** The curve loop of `_add_plot`, from the given axes. */
  function AssignAxes(axes: seq<AxisRange>, curves: seq<CurveData>): (r: Option<seq<AxisRange>>)
    requires |axes| == 4
    ensures r.Some? <==> forall i :: 0 <= i < |curves| ==> Drawable(curves[i])
    ensures r.Some? ==> |r.value| == 4 && forall j :: 0 <= j < 4 ==> r.value[j].ticks == axes[j].ticks
    decreases |curves|
  {
    if curves == [] then Some(axes)
    else
      match AddCurve(axes, curves[0])
      case None =>
        assert !Drawable(curves[0]);
        None
      case Some(a1) =>
        var r := AssignAxes(a1, curves[1..]);
        assert forall i :: 1 <= i < |curves| ==> curves[1..][i - 1] == curves[i];
        assert (forall i :: 0 <= i < |curves| ==> Drawable(curves[i])) <==>
               (forall i :: 0 <= i < |curves| - 1 ==> Drawable(curves[1..][i]));
        r
  }

  /** Each axis ends up covering exactly the values its curves put on it,
      whatever the order of the curves. */
  lemma {:induction false} AssignAxesCovers(axes: seq<AxisRange>, curves: seq<CurveData>, j: nat)
    requires |axes| == 4 && j < 4 && AssignAxes(axes, curves).Some?
    ensures AssignAxes(axes, curves).value[j] == Widen(axes[j], AxisData(curves, j))
    decreases |curves|
  {
    if curves != [] {
      var a1 := AddCurve(axes, curves[0]).value;
      AssignAxesCovers(a1, curves[1..], j);
      WidenAppend(axes[j], CurveOn(curves[0], j), AxisData(curves[1..], j));
    }
  }

  /** The ranges of a plot's axes 0..3 (x, y, second x, second y): the data
      ranges of the curves, then a non-empty explicit min or max given as
      text overrides its end. */
  function PlotAxes(curves: seq<CurveData>, mins: seq<string>, maxs: seq<string>,
                    toF: string -> real): (r: Option<seq<AxisRange>>)
    requires |mins| == 4 && |maxs| == 4
    ensures r.Some? <==> forall i :: 0 <= i < |curves| ==> Drawable(curves[i])
    ensures r.Some? ==> |r.value| == 4
    ensures r.Some? ==> forall j :: 0 <= j < 4 ==> r.value[j].ticks == []
  {
    var start := [NewAxis(), NewAxis(), NewAxis(), NewAxis()];
    assert forall j :: 0 <= j < 4 ==> start[j].ticks == [];
    match AssignAxes(start, curves)
    case None => None
    case Some(axes) =>
      assert forall j :: 0 <= j < 4 ==> axes[j].ticks == [];
      Some(Overrides(axes, mins, maxs, toF))
  }

  /** The explicit ends of each of the four axes. */
  function Overrides(axes: seq<AxisRange>, mins: seq<string>, maxs: seq<string>,
                     toF: string -> real): (r: seq<AxisRange>)
    requires |axes| == 4 && |mins| == 4 && |maxs| == 4
    ensures |r| == 4 && forall j :: 0 <= j < 4 ==> r[j] == Override(axes[j], mins[j], maxs[j], toF)
  {
    seq(4, j requires 0 <= j < 4 => Override(axes[j], mins[j], maxs[j], toF))
  }

  /** `axes[i].min = min.to_f if min.length > 0`, and likewise the maximum. */
  function Override(a: AxisRange, min: string, max: string, toF: string -> real): (r: AxisRange)
    ensures r.ticks == a.ticks && r.used == a.used
  {
    a.(min := if |min| > 0 then toF(min) else a.min, max := if |max| > 0 then toF(max) else a.max)
  }

  /** Axis j of a plot: used exactly when some curve puts values on it; its
      minimum is the explicit one when given, else the least of its values
      (the Float limit when it has none), and likewise the maximum. */
  lemma PlotAxesRange(curves: seq<CurveData>, mins: seq<string>, maxs: seq<string>,
                      toF: string -> real, j: nat)
    requires |mins| == 4 && |maxs| == 4 && j < 4
    requires PlotAxes(curves, mins, maxs, toF).Some?
    ensures var a := PlotAxes(curves, mins, maxs, toF).value[j];
      var d := AxisData(curves, j);
      && (a.used <==> d != [])
      && a.min == (if |mins[j]| > 0 then toF(mins[j]) else if d == [] then Datasets.FloatMax else Lower(Min(d), Datasets.FloatMax))
      && a.max == (if |maxs[j]| > 0 then toF(maxs[j]) else if d == [] then -Datasets.FloatMax else Upper(Max(d), -Datasets.FloatMax))
  {
    var start := [NewAxis(), NewAxis(), NewAxis(), NewAxis()];
    AssignAxesCovers(start, curves, j);
    var d := AxisData(curves, j);
    if d != [] {
      UpdateRangeIs(NewAxis(), d);
    }
  }

  /** An axis no curve puts values on, with neither an explicit range nor
      tick bounds, keeps Float::MAX..-Float::MAX, and `set_ticks` on it
      raises. `_add_plot` calls `set_ticks` on the bottom and left axes
      whether they are used or not, so a plot without curves on them raises
      there. */
  lemma EmptyAxisTicksRaise(curves: seq<CurveData>, mins: seq<string>, maxs: seq<string>,
                            toF: string -> real, j: nat, number: int, zero: real, log10: real -> Option<real>)
    requires |mins| == 4 && |maxs| == 4 && j < 4
    requires PlotAxes(curves, mins, maxs, toF).Some?
    requires AxisData(curves, j) == [] && mins[j] == "" && maxs[j] == "" && number >= 1
    ensures SetTicks(PlotAxes(curves, mins, maxs, toF).value[j], "", "", number, false, zero, toF, log10).None?
  {
    PlotAxesRange(curves, mins, maxs, toF, j);
    assert Overflows(-Datasets.FloatMax - Datasets.FloatMax);
  }

  // ---------------------------------------------------------------------------
  // Figure layout
  // ---------------------------------------------------------------------------

  /** The size of every plot panel and the origins of the panels, in order. */
  datatype Panels = Panels(width: int, height: int, origins: seq<(int, int)>)

  /** The layout table of `convert`; halving is Ruby's integer division,
      which floors like Dafny's for a positive divisor. Any other layout
      raises. */
  function Layout(layout: string, w: int, h: int): (r: Option<Panels>)
    ensures r.Some? <==> layout in {"1", "2h", "2v", "4"}
    ensures r.Some? ==> |r.value.origins| == (if layout == "1" then 1 else if layout == "4" then 4 else 2)
    ensures r.Some? ==> r.value.width == (if layout in {"2h", "4"} then w / 2 else w)
    ensures r.Some? ==> r.value.height == (if layout in {"2v", "4"} then h / 2 else h)
  {
    if layout == "1" then Some(Panels(w, h, [(0, 0)]))
    else if layout == "2h" then Some(Panels(w / 2, h, [(0, 0), (w / 2, 0)]))
    else if layout == "2v" then Some(Panels(w, h / 2, [(0, h / 2), (0, 0)]))
    else if layout == "4" then Some(Panels(w / 2, h / 2, [(0, h / 2), (w / 2, h / 2), (0, 0), (w / 2, 0)]))
    else None
  }

  /** Panel i lies inside the w by h figure. */
  predicate Inside(p: Panels, i: nat, w: int, h: int)
    requires i < |p.origins|
  {
    0 <= p.origins[i].0 && p.origins[i].0 + p.width <= w &&
    0 <= p.origins[i].1 && p.origins[i].1 + p.height <= h
  }

  /** Panels i and j do not overlap. */
  predicate Apart(p: Panels, i: nat, j: nat)
    requires i < |p.origins| && j < |p.origins|
  {
    p.origins[i].0 + p.width <= p.origins[j].0 || p.origins[j].0 + p.width <= p.origins[i].0 ||
    p.origins[i].1 + p.height <= p.origins[j].1 || p.origins[j].1 + p.height <= p.origins[i].1
  }

  /** Panel i comes before panel j in reading order: higher up, or level
      and further left. */
  predicate Before(p: Panels, i: nat, j: nat)
    requires i < |p.origins| && j < |p.origins|
  {
    p.origins[i].1 > p.origins[j].1 || (p.origins[i].1 == p.origins[j].1 && p.origins[i].0 < p.origins[j].0)
  }

  /** For a figure of non-negative size the panels lie inside it and do not
      overlap; they cover it up to an odd unit lost in halving; and for a
      figure at least 2 by 2 they come in reading order. */
  lemma LayoutTiles(layout: string, w: int, h: int)
    requires w >= 0 && h >= 0 && Layout(layout, w, h).Some?
    ensures var p := Layout(layout, w, h).value;
      && (forall i :: 0 <= i < |p.origins| ==> Inside(p, i, w, h))
      && (forall i, j :: 0 <= i < j < |p.origins| ==> Apart(p, i, j))
      && 0 <= w - (if layout in {"2h", "4"} then 2 * p.width else p.width) <= 1
      && 0 <= h - (if layout in {"2v", "4"} then 2 * p.height else p.height) <= 1
      && (w >= 2 && h >= 2 ==> forall i, j :: 0 <= i < j < |p.origins| ==> Before(p, i, j))
  {
  }
}

=== FILE: support.dfy ===
/** Generic helpers shared by every component: an option type, Ruby's
    insertion-ordered Hash as an association list, decimal rendering of
    naturals, Ruby's String#include? and String#split with a one-character
    separator. */
module Support {

  datatype Option<+T> = None | Some(value: T)

  // ---------------------------------------------------------------------------
  // Ordered dictionaries (Ruby Hash)
  //
  // A Ruby Hash keeps its keys in first-insertion order; assigning to an
  // existing key replaces the value in place, assigning to a new key appends.
  // ---------------------------------------------------------------------------

  function Keys<K(==,!new), V>(d: seq<(K, V)>): (ks: seq<K>)
    ensures |ks| == |d|
    ensures forall i :: 0 <= i < |d| ==> ks[i] == d[i].0
  {
    if d == [] then [] else [d[0].0] + Keys(d[1..])
  }

  predicate UniqueKeys<K(==,!new), V>(d: seq<(K, V)>)
  {
    forall i, j :: 0 <= i < j < |d| ==> d[i].0 != d[j].0
  }

  /** The value stored under k (the first one, should keys repeat). */
  function Get<K(==,!new), V>(d: seq<(K, V)>, k: K): (r: Option<V>)
    ensures r.Some? <==> k in Keys(d)
    ensures r.Some? ==> (k, r.value) in d
  {
    if d == [] then None
    else if d[0].0 == k then Some(d[0].1)
    else Get(d[1..], k)
  }

  /** Ruby's `h[k] = v`: afterwards k reads v and every other key reads as
      before. */
  function Put<K(==,!new), V>(d: seq<(K, V)>, k: K, v: V): (r: seq<(K, V)>)
    ensures Get(r, k) == Some(v)
    ensures forall k': K :: k' != k ==> Get(r, k') == Get(d, k')
  {
    if d == [] then [(k, v)]
    else if d[0].0 == k then [(k, v)] + d[1..]
    else [d[0]] + Put(d[1..], k, v)
  }

  /** Assignment keeps the key order: an existing key stays where it was and a
      new key goes at the end. */
  lemma {:induction false} PutKeys<K(!new), V>(d: seq<(K, V)>, k: K, v: V)
    ensures k in Keys(d) ==> Keys(Put(d, k, v)) == Keys(d)
    ensures k !in Keys(d) ==> Keys(Put(d, k, v)) == Keys(d) + [k]
  {
    if d != [] && d[0].0 != k {
      PutKeys(d[1..], k, v);
      var rest := Put(d[1..], k, v);
      calc {
        Keys(Put(d, k, v));
        Keys([d[0]] + rest);
        { assert ([d[0]] + rest)[1..] == rest; }
        [d[0].0] + Keys(rest);
      }
    } else if d != [] {
      assert ([(k, v)] + d[1..])[1..] == d[1..];
    }
  }

  /** No entry other than (k, v) appears. */
  lemma {:induction false} PutEntries<K(!new), V>(d: seq<(K, V)>, k: K, v: V)
    ensures forall e :: e in Put(d, k, v) ==> e in d || e == (k, v)
  {
    if d != [] && d[0].0 != k {
      PutEntries(d[1..], k, v);
      assert Put(d, k, v) == [d[0]] + Put(d[1..], k, v);
    }
  }

  lemma PutUnique<K(!new), V>(d: seq<(K, V)>, k: K, v: V)
    requires UniqueKeys(d)
    ensures UniqueKeys(Put(d, k, v))
  {
    var r := Put(d, k, v);
    PutKeys(d, k, v);
    var ks := Keys(r);
    forall i, j | 0 <= i < j < |r|
      ensures r[i].0 != r[j].0
    {
      assert r[i].0 == ks[i] && r[j].0 == ks[j];
      if j < |d| {
        assert ks[i] == Keys(d)[i] && ks[j] == Keys(d)[j];
      } else {
        assert ks[i] == Keys(d)[i] && Keys(d)[i] in Keys(d);
      }
    }
  }

  lemma GetUnique<K(!new), V>(d: seq<(K, V)>, i: nat)
    requires UniqueKeys(d) && i < |d|
    ensures Get(d, d[i].0) == Some(d[i].1)
  {
    if i > 0 {
      assert d[0].0 != d[i].0;
      GetUnique(d[1..], i - 1);
    }
  }

  /** Two dictionaries with distinct keys, the same key order and the same
      value under every key are the same list. */
  lemma {:induction false} SameEntries<K(!new), V>(x: seq<(K, V)>, y: seq<(K, V)>)
    requires UniqueKeys(x) && UniqueKeys(y) && Keys(x) == Keys(y)
    requires forall k :: Get(x, k) == Get(y, k)
    ensures x == y
  {
    if x != [] {
      var k0 := x[0].0;
      assert y[0].0 == k0 by {
        assert Keys(x)[0] == Keys(y)[0];
      }
      assert x[0].1 == y[0].1 by {
        assert Get(x, k0) == Some(x[0].1) && Get(y, k0) == Some(y[0].1);
      }
      var x', y' := x[1..], y[1..];
      assert Keys(x') == Keys(y') by {
        assert Keys(x') == Keys(x)[1..] && Keys(y') == Keys(y)[1..];
      }
      TailUnique(x);
      TailUnique(y);
      forall k
        ensures Get(x', k) == Get(y', k)
      {
        GetTail(x, k);
        GetTail(y, k);
      }
      SameEntries(x', y');
      assert x == [x[0]] + x' && y == [y[0]] + y';
    }
  }

  lemma TailUnique<K(!new), V>(x: seq<(K, V)>)
    requires UniqueKeys(x) && x != []
    ensures UniqueKeys(x[1..])
  {
    var t := x[1..];
    forall i, j | 0 <= i < j < |t|
      ensures t[i].0 != t[j].0
    {
      assert t[i] == x[i + 1] && t[j] == x[j + 1];
    }
  }

  /** Below the first entry of a dictionary with distinct keys, its own key
      is absent and every other key reads as before. */
  lemma GetTail<K(!new), V>(x: seq<(K, V)>, k: K)
    requires UniqueKeys(x) && x != []
    ensures Get(x[1..], k) == if k == x[0].0 then None else Get(x, k)
  {
    var t := x[1..];
    forall j | 0 <= j < |t|
      ensures Keys(t)[j] != x[0].0
    {
      assert t[j] == x[j + 1];
    }
  }

  lemma KeysAppend<K(!new), V>(a: seq<(K, V)>, b: seq<(K, V)>)
    ensures Keys(a + b) == Keys(a) + Keys(b)
  {
  }

  // ---------------------------------------------------------------------------
  // Substrings (String#include?)
  // ---------------------------------------------------------------------------

  /** `k.include?(name)`: name occurs in k as a contiguous substring. */
  predicate Contains(k: string, name: string)
    decreases |k|
  {
    |name| <= |k| && (k[..|name|] == name || Contains(k[1..], name))
  }

  lemma {:induction false} ContainsAt(k: string, name: string, i: nat)
    requires i + |name| <= |k| && k[i..i + |name|] == name
    ensures Contains(k, name)
    decreases i
  {
    if i > 0 {
      assert k[1..][i - 1..i - 1 + |name|] == k[i..i + |name|];
      ContainsAt(k[1..], name, i - 1);
    }
  }

  lemma {:induction false} ContainsWitness(k: string, name: string) returns (i: nat)
    requires Contains(k, name)
    ensures i + |name| <= |k| && k[i..i + |name|] == name
    decreases |k|
  {
    if k[..|name|] == name {
      i := 0;
    } else {
      var j := ContainsWitness(k[1..], name);
      assert k[1..][j..j + |name|] == k[j + 1..j + 1 + |name|];
      i := j + 1;
    }
  }

  /** Keys of d that contain name, in insertion order (Ruby's `_keys_include`). */
  function KeysContaining<V>(d: seq<(string, V)>, name: string): (r: seq<string>)
    ensures forall k :: k in r <==> k in Keys(d) && Contains(k, name)
    ensures |r| <= |d|
  {
    KeysMatching(Keys(d), name)
  }

  /** The keys of ks that contain name, in order. */
  function KeysMatching(ks: seq<string>, name: string): (r: seq<string>)
    ensures forall k :: k in r <==> k in ks && Contains(k, name)
    ensures |r| <= |ks|
    decreases |ks|
  {
    if ks == [] then []
    else
      var init, last := ks[..|ks| - 1], ks[|ks| - 1];
      assert ks == init + [last];
      KeysMatching(init, name) + (if Contains(last, name) then [last] else [])
  }


  /** Replacing a value or appending a key that does not contain name leaves
      the list of keys containing name as it was; appending one that does
      extends it at the end. */
  lemma KeysContainingPut<V>(d: seq<(string, V)>, k: string, v: V, name: string)
    ensures k in Keys(d) || !Contains(k, name) ==> KeysContaining(Put(d, k, v), name) == KeysContaining(d, name)
    ensures k !in Keys(d) && Contains(k, name) ==> KeysContaining(Put(d, k, v), name) == KeysContaining(d, name) + [k]
  {
    PutKeys(d, k, v);
    if k !in Keys(d) {
      var ks := Keys(d) + [k];
      assert ks[..|ks| - 1] == Keys(d) && ks[|ks| - 1] == k;
    }
  }

  // ---------------------------------------------------------------------------
  // Decimal strings (Ruby's Integer#to_s)
  // ---------------------------------------------------------------------------

  function DigitChar(d: nat): char
    requires d < 10
  {
    "0123456789"[d]
  }

  function NatToString(n: nat): (s: string)
    ensures |s| >= 1
    ensures forall i :: 0 <= i < |s| ==> '0' <= s[i] <= '9'
    ensures n < 10 <==> |s| == 1
  {
    if n < 10 then [DigitChar(n)] else NatToString(n / 10) + [DigitChar(n % 10)]
  }

  /** Different numbers print differently, so indexed keys never collide. */
  lemma {:induction false} NatToStringInjective(a: nat, b: nat)
    requires NatToString(a) == NatToString(b)
    ensures a == b
    decreases a
  {
    var s := NatToString(a);
    if a >= 10 && b >= 10 {
      assert s[..|s| - 1] == NatToString(a / 10) && s[..|s| - 1] == NatToString(b / 10);
      NatToStringInjective(a / 10, b / 10);
      assert DigitChar(a % 10) == DigitChar(b % 10);
    }
  }

  // ---------------------------------------------------------------------------
  // String#split with a one-character separator
  // ---------------------------------------------------------------------------

  /** All fields between separators, empty ones included. */
  function Fields(s: string, sep: char): (r: seq<string>)
    ensures |r| >= 1
    decreases |s|
  {
    if s == [] then [""]
    else
      var rest := Fields(s[1..], sep);
      if s[0] == sep then [""] + rest else [[s[0]] + rest[0]] + rest[1..]
  }

  function Join(fs: seq<string>, sep: char): string
  {
    if fs == [] then "" else if |fs| == 1 then fs[0] else fs[0] + [sep] + Join(fs[1..], sep)
  }

  /** Splitting and joining again gives back the text. */
  lemma {:induction false} JoinFields(s: string, sep: char)
    ensures Join(Fields(s, sep), sep) == s
    decreases |s|
  {
    if s != [] {
      JoinFields(s[1..], sep);
      var rest := Fields(s[1..], sep);
      if s[0] == sep {
        assert Fields(s, sep) == [""] + rest;
        assert (([""] + rest)[1..]) == rest;
      } else {
        var r := Fields(s, sep);
        assert r == [[s[0]] + rest[0]] + rest[1..];
        if |rest| > 1 {
          assert Join(rest, sep) == rest[0] + [sep] + Join(rest[1..], sep);
          assert r[1..] == rest[1..];
        }
      }
    }
  }

  function DropTrailingEmpty(fs: seq<string>): (r: seq<string>)
    ensures |r| <= |fs| && r == fs[..|r|]
    ensures r == [] || r[|r| - 1] != ""
    ensures forall i :: |r| <= i < |fs| ==> fs[i] == ""
  {
    if fs == [] then []
    else if fs[|fs| - 1] == "" then DropTrailingEmpty(fs[..|fs| - 1])
    else fs
  }

  /** Ruby's `s.split(sep)`: trailing empty fields are removed. */
  function Split(s: string, sep: char): seq<string>
  {
    DropTrailingEmpty(Fields(s, sep))
  }

  lemma {:induction false} FieldsNoSep(s: string, sep: char)
    requires sep !in s
    ensures Fields(s, sep) == [s]
    decreases |s|
  {
    if s != [] {
      FieldsNoSep(s[1..], sep);
      assert [s[0]] + s[1..] == s;
    }
  }

  lemma {:induction false} FieldsConcat(a: string, b: string, sep: char)
    requires sep !in a
    ensures Fields(a + [sep] + b, sep) == [a] + Fields(b, sep)
    decreases |a|
  {
    if a == [] {
      assert a + [sep] + b == [sep] + b;
      assert ([sep] + b)[1..] == b;
    } else {
      FieldsConcat(a[1..], b, sep);
      assert (a + [sep] + b)[1..] == a[1..] + [sep] + b;
      assert [a[0]] + a[1..] == a;
    }
  }

  /** A word without the separator stays in one piece. */
  lemma SplitNoSep(s: string, sep: char)
    requires sep !in s && s != ""
    ensures Split(s, sep) == [s]
  {
    FieldsNoSep(s, sep);
  }

  /** `a=b` with neither half holding the separator (and b non-empty) splits
      into exactly the two halves. */
  lemma SplitPair(a: string, b: string, sep: char)
    requires sep !in a && sep !in b && b != ""
    ensures Split(a + [sep] + b, sep) == [a, b]
  {
    FieldsConcat(a, b, sep);
    FieldsNoSep(b, sep);
  }

  /** `a=` (nothing after the separator) loses the empty tail. */
  lemma SplitTrailingSep(a: string, sep: char)
    requires sep !in a && a != ""
    ensures Split(a + [sep], sep) == [a]
  {
    FieldsConcat(a, "", sep);
    assert a + [sep] + "" == a + [sep];
    assert Fields(a + [sep], sep) == [a, ""];
    assert DropTrailingEmpty([a, ""]) == DropTrailingEmpty([a]);
  }
}
